=== FILE: README.md ===
# Anonn client signal pipeline, modelled in Dafny

Anonn lets a user prove a *tier* of reputation without revealing the data
behind it. The browser client gathers five raw signals:

- the age of the Solana wallet;
- the wallet's transaction count;
- the age of the Twitter account;
- the age of the GitHub account;
- the GitHub repository count.

It coarsens each signal into a bucket (0-5 for ages, 0-4 for counts), encrypts the buckets for
the MXE (the confidential-computation cluster) and asks the on-ledger program
for a proof. The proof account is derived from the rule, the user and the
epoch.

This project models that pipeline:

- **Bucketing** and the signal types.
- **The OAuth PKCE flows** for both providers: state, verifier, S256
  challenge and authorization URL. It also models the popup callback page
  that exchanges the code and posts the profile back to the opener.
- **The `AnonnUser` SDK object**: its setters, its message listeners, the MXE
  key retry, the proof account poll and proof generation.
- **The developer SDK**: tiers, rule and proof addresses, registration and
  verification.
- **The two React hooks**: `useAnonn` and `useProofsForRule`.

State that the source updates in place is modelled as classes with
`modifies` clauses:

- the SDK object;
- the callback page;
- both hooks;
- the browser's `localStorage`.

Everything outside the client is a parameter:

- the clock (`now` in milliseconds);
- random bytes (`nat -> Byte`);
- SHA-256 of the verifier;
- the ledger RPC answers, with one fetch result per attempt;
- the backend's HTTP responses;
- which of two promises wins a race.

Deriving a ledger address from seeds (`Ledger.FindProgramAddress`) fails
when a seed is longer than 32 bytes. Otherwise the address is the injective
constructor `Ledger.Derived`, so two derived addresses are equal exactly when
their program and seeds are equal.

JavaScript semantics are written out where they matter:

- **Spreads** (`{...a, ...b}`): a patch whose fields are `Keep` or `Put`.
- **Truthiness**: an empty string is falsy, as is `undefined`.
- **`||` fallbacks**: written out explicitly (`Web.Or`).
- **`new anchor.BN(epoch)`**: bn.js builds a `BN` from a number only below
  2^53 and otherwise fails its assertion ("Assertion failed"), so the
  8-byte little-endian `toArrayLike(Buffer, 'le', 8)`, which would fail at
  2^64, always fits.

The proof race in `generateProof` deserves a note. The event listener takes
the first `proofGenerated` event it sees, whatever proof account that event
names, and then attaches the caller's own proof address to it. The model
keeps this behaviour: `User.AnonnUser.GenerateProof` promises
`EventOutput(ev)` for any event `ev`.

## Model

| member | source | states |
|---|---|---|
| Bucketing.DateToAgeBucket | src/sdk/bucketing.ts:35-49 | a bucket exists exactly when a date exists; a missing date never becomes bucket 0 |
| Bucketing.CountToBucket | src/sdk/bucketing.ts:54-66 | a bucket exists exactly when a count exists |
| Bucketing.AgeBucketMatchesSpec | src/sdk/bucketing.ts:10-49 | the age bucket is the number of thresholds (30, 90, 180, 365 and 730 days) the age reaches; negative ages land in bucket 0 |
| Bucketing.CountBucketMatchesSpec | src/sdk/bucketing.ts:20-66 | the count bucket is the number of thresholds (1, 11, 51 and 201) the count reaches |
| Bucketing.AgeBucketsAscending | src/sdk/bucketing.ts:10-17 | the age table's minimums strictly ascend, so the first-match scan is well defined |
| Bucketing.CountBucketsAscending | src/sdk/bucketing.ts:20-26 | the count table's minimums strictly ascend |
| Bucketing.FirstMatchWithin | src/sdk/bucketing.ts:40-48 | the scan from the top always returns a bucket inside the table |
| Bucketing.FirstMatchAtLeastHead | src/sdk/bucketing.ts:40-48 | a value at or above the first minimum is matched by a bucket whose minimum it reaches |
| Bucketing.FirstMatchMonotone | src/sdk/bucketing.ts:40-48 | over an ascending table, a larger value never gets a lower bucket |
| Bucketing.AgeBucketMonotone | src/sdk/bucketing.ts:35-49 | an older account never gets a lower age bucket |
| Bucketing.CountBucketMonotone | src/sdk/bucketing.ts:54-66 | a larger count never gets a lower bucket |
| Bucketing.BucketSignalsComplete | src/sdk/bucketing.ts:71-81 | the bucketed signals are complete exactly when all five raw signals are present |
| Bucketing.BucketSignalsIndependent | src/sdk/bucketing.ts:71-81 | each bucket depends only on its own raw signal |
| Bucketing.HasAllSignalsIffComplete | src/sdk/bucketing.ts:86-94 | `hasAllSignals` holds exactly when the partial signals are the image of a complete record |
| Bucketing.Complete | src/sdk/user.ts:272-276 | the `as UserSignals` cast of complete partial signals loses nothing: converting back gives the same partial record |
| Bucketing.MergeCompleteReplaces | src/sdk/user.ts:83-85 | spreading a complete record over any partial signals yields that record, which then has all signals |
| Bucketing.SignalsToArray | src/sdk/bucketing.ts:101-109 | the circuit input is exactly five buckets |
| Bucketing.SignalsToArrayRoundTrip | src/sdk/bucketing.ts:101-109 | the array holds the five buckets in the circuit's fixed order, so the record can be read back from it |
| Bucketing.DescribeAgeBucketMatchesAge | src/sdk/bucketing.ts:114-124 | the label of an age's bucket names the range the age lies in, and distinct buckets have distinct labels |
| Bucketing.DescribeCountBucketMatchesCount | src/sdk/bucketing.ts:126-135 | the label of a count's bucket names the range the count lies in, and distinct buckets have distinct labels |
| Bucketing.ScenarioWalletOnly | src/sdk/bucketing.ts:71-94 | a 400-day-old wallet with 250 transactions gets buckets 4 and 4, and those two signals are not complete |
| Types.MergeRawSpread | src/sdk/user.ts:90-92 | the raw signal spread overwrites exactly the fields a patch puts, keeps the others, and applying a patch twice equals applying it once |
| Ledger.FromLeBytes | src/sdk/developer.ts:162-173 | the k-byte little-endian encoding of a value below 256^k decodes back to that value |
| Ledger.EpochSeed | src/sdk/developer.ts:162-173 | the epoch seed exists exactly below 2^53, the bound of bn.js's number constructor, and is then 8 bytes that decode to the epoch; a larger epoch fails with "Assertion failed" |
| Ledger.EpochSeedInjective | src/sdk/developer.ts:162-173 | distinct epochs give distinct seeds |
| Strings.ParseNatToString | src/sdk/developer.ts:245-253 | the decimal rendering used in tier descriptions reads back as the same number |
| Strings.NatToStringInjective | src/sdk/developer.ts:245-253 | distinct numbers render differently |
| Developer.TierForCases | src/sdk/developer.ts:245-253 | tier 2 exactly from `tier2Min`, tier 1 exactly between the two minimums, tier 0 otherwise |
| Developer.TierForMonotone | src/sdk/developer.ts:245-253 | meeting more conditions never lowers the tier |
| Developer.DescribeTierNamesTier | src/sdk/developer.ts:245-253 | the description starts with "Tier n", where n is the tier the thresholds assign |
| Developer.AnonnDeveloper.GetProofPda | src/sdk/developer.ts:162-173 | a proof address exists exactly for epochs below 2^53, and a larger epoch fails with bn.js's "Assertion failed" |
| Developer.ProofPdaInjective | src/sdk/developer.ts:162-173 | the proof address determines its rule, user and epoch |
| Ledger.FindProgramAddress | src/sdk/developer.ts:82-89 | address derivation fails with "Max seed length exceeded" exactly when some seed is longer than 32 bytes, and otherwise yields the derived address |
| Ledger.Utf8Length | src/sdk/developer.ts:87 | a string's `Buffer.from` length lies between its character count and four times it |
| Ledger.AsciiUtf8Length | src/sdk/developer.ts:87 | an ASCII string's buffer has one byte per character |
| Developer.AnonnDeveloper.GetRulePda | src/sdk/developer.ts:114-124 | the rule address exists exactly when the rule id fits in 32 bytes, and is derived from ['rule', authority, ruleId] |
| Developer.RuleIdSeedLimit | src/sdk/developer.ts:114-124 | a rule id of more than 32 characters has no address; an ASCII id has one exactly when it has at most 32 characters |
| Developer.AnonnDeveloper.RegisterRule | src/sdk/developer.ts:80-109 | registration succeeds exactly when the rule id fits in 32 bytes, the validity sent is below 2^53 in magnitude and the call succeeds; an oversized id throws the seed error, and an oversized validity bn.js's "Assertion failed", before the call; a failed call passes its error on; success returns `getRulePda`'s address |
| Developer.RegisterRuleAddressReproducible | src/sdk/developer.ts:80-124 | a successful registration returns the address `getRulePda` recomputes, and different rule ids never share an address |
| Developer.ValiditySentDefault | src/sdk/developer.ts:99-102 | an absent or zero validity is sent as 86400 seconds; any other value is sent unchanged |
| Developer.AnonnDeveloper.GetProof | src/sdk/developer.ts:178-201 | a failed fetch is `null`; a record carries the account's tier and expiry, and it is finalized exactly when the flag is `true` |
| Developer.VerifyProofOutcomes | src/sdk/developer.ts:206-240 | valid exactly when the call passed, and never expired then; the tier is the record's or 0; a failed call is expired exactly when a record's expiry is not after the current second |
| Solana.GetSignaturesForAddress | src/sdk/signals/solana.ts:18-20 | the RPC returns a prefix of the newest-first history, of at most 1000 entries, and all of it when it fits |
| Solana.FetchSolanaSignals | src/sdk/signals/solana.ts:13-48 | the count is the number of signatures returned, at most 1000; an empty wallet counts 0 and is dated now |
| Solana.WalletSignalsFromOldestReturned | src/sdk/signals/solana.ts:29-42 | a wallet is dated by the oldest returned signature, and a wallet with more than 1000 signatures is understated in both age and count |
| Solana.WalletCreatedNotInFuture | src/sdk/signals/solana.ts:29-42 | when no block time is in the future, the wallet's creation date is not after now |
| AgeFormat.DaysSince | src/sdk/signals/solana.ts:53-56 | the day count is the number of whole days elapsed, floored |
| AgeFormat.FormatAgeQuantity | src/sdk/signals/solana.ts:61-75 | the age text starts with the number of whole units of the chosen unit; a month count is 1-2, a quarter count 1-4, and a year count at least 1 |
| AgeFormat.FormatAgePluralFollowsDays | src/sdk/signals/twitter.ts:141-155 | the plural follows the day count rather than the quantity, so 31-59 days reads "1 months" and 91-179 days reads "1 quarters" |
| Pkce.RandomString | src/sdk/signals/twitter.ts:107-118 | character i of the string is the alphabet at `random[i] mod |alphabet|`, and the string has the requested length |
| Pkce.CharRange | src/sdk/signals/twitter.ts:108-109 | the alphabet's runs A-Z, a-z and 0-9 are consecutive code points |
| Pkce.AlnumUnreserved | src/sdk/signals/twitter.ts:108-109 | every alphanumeric character is URL-unreserved and never one of `+ / =` |
| Pkce.AlnumComplete | src/sdk/signals/twitter.ts:108-109 | every ASCII letter and digit is in the alphanumeric alphabet |
| Pkce.Sextets | src/sdk/signals/twitter.ts:126-136 | n bytes split into ceil(4n/3) groups of six bits |
| Pkce.Base64Url | src/sdk/signals/twitter.ts:126-136 | the unpadded encoding has ceil(4n/3) characters |
| Pkce.RemoveAllAppend | src/sdk/signals/twitter.ts:132-135 | removing a character distributes over concatenation |
| Pkce.RemoveAllPadding | src/sdk/signals/twitter.ts:132-135 | stripping `=` deletes all of the padding |
| Pkce.Base64ToUrl | src/sdk/signals/twitter.ts:126-136 | the three replacements applied to standard base64 give exactly the unpadded URL-safe encoding |
| Pkce.Base64UrlAlphabet | src/sdk/signals/twitter.ts:126-136 | every character of the encoding is from the URL-safe alphabet and is unreserved |
| Pkce.Base64UrlEncode | src/sdk/signals/twitter.ts:126-136 | the encoder returns the URL-safe encoding, which contains no `+`, `/` or `=` |
| Pkce.ChallengeLength | src/sdk/signals/twitter.ts:10-33 | the challenge of a 32-byte digest has 43 characters and is a valid code challenge |
| Twitter.CharsAreUnreserved | src/sdk/signals/twitter.ts:107-118 | a character is in the random-string alphabet exactly when it is URL-unreserved |
| Twitter.GenerateRandomString | src/sdk/signals/twitter.ts:107-118 | the string has the requested length, is drawn from the alphabet by the random bytes, and is unreserved |
| Twitter.GetTwitterAuthUrl | src/sdk/signals/twitter.ts:10-33 | it stores a 32-character state; when the digest of the verifier succeeds it also stores that 128-character valid verifier and returns the URL carrying the state, the callback URI and the S256 challenge of the stored verifier; when the digest rejects, it rejects with that error and only the state is stored; no other key is touched |
| Twitter.ExchangeTwitterCode | src/sdk/signals/twitter.ts:38-68 | with no backend nothing is sent and it fails; otherwise it posts the code, redirect URI and verifier, succeeds exactly on an OK JSON answer, and returns its token |
| Twitter.FetchTwitterUser | src/sdk/signals/twitter.ts:73-101 | it sends the token as bearer; it succeeds exactly on an OK answer with a `data` field; a non-OK answer fails with the fixed prefix |
| GitHub.GenerateRandomString | src/sdk/signals/github.ts:71-82 | the string has the requested length, is drawn by the random bytes, and is alphanumeric |
| GitHub.GetGitHubAuthUrl | src/sdk/signals/github.ts:10-30 | it stores the state under the GitHub key; when the digest succeeds it also stores the verifier and returns the URL carrying that state and the S256 challenge of that verifier; when the digest rejects, only the state is stored; no other key is touched |
| GitHub.FetchGitHubUser | src/sdk/signals/github.ts:35-64 | it succeeds exactly on an OK JSON answer; a missing or zero repo count reads as 0; a non-OK answer fails with the fixed prefix |
| GitHub.FormatRepoCount | src/sdk/signals/github.ts:124-136 | "No public repos" exactly for 0; otherwise the count followed by "repos", with a "+" from 200 |
| Web.Or | src/sdk/signals/twitter.ts:63 | `a || b` on optional strings: a non-empty value wins, anything else gives the fallback |
| OAuthCallback.TwitterRedirect | src/components/OAuthCallback.tsx:73 | the redirect URI sent with the code is the one the authorization URL registered |
| OAuthCallback.GitHubRedirect | src/components/OAuthCallback.tsx:112 | the redirect URI sent with the code is the one the authorization URL registered |
| OAuthCallback.AsWrittenExchangeSendsRedirectAsCode | src/components/OAuthCallback.tsx:71-75 | the as-written three-argument call sends the redirect URI as the code, the verifier as the redirect URI and no verifier |
| OAuthCallback.TwitterExchange | src/components/OAuthCallback.tsx:71-75 | the corrected call sends the code, the registered callback URI and the stored verifier |
| OAuthCallback.TwitterFlow | src/components/OAuthCallback.tsx:70-78 | with the corrected exchange (see Findings), a successful Twitter flow sent exactly the PKCE exchange, then the profile request bearing the returned token |
| OAuthCallback.GitHubFlow | src/components/OAuthCallback.tsx:103-123 | the first request is always the PKCE exchange to the token endpoint; success means a second request bearing the returned token |
| OAuthCallback.Callback | src/components/OAuthCallback.tsx:18-135 | with an opener the callback posts exactly one message: `OAUTH_ERROR` with its error on failure, the success message of its own provider on success; without one it posts nothing (Twitter with the corrected exchange) |
| OAuthCallback.OpenerOnlyDecidesDate | src/components/OAuthCallback.tsx:84-88 | without an opener the callback sends the same requests and clears the same storage, posts nothing, and succeeds where an invalid profile date fails with an opener, because `window.opener?.` skips evaluating `toISOString()` |
| OAuthCallback.NoRequestBeforeChecks | src/components/OAuthCallback.tsx:24-68 | no request leaves the page unless there is no provider error, a code is present, the state matches the stored one and a verifier is stored |
| OAuthCallback.ClearsOnlyAfterProfile | src/components/OAuthCallback.tsx:77-82 | the stored state and verifier are removed only after both requests succeeded, and always on success; once removed, only an invalid date with an opener can still fail |
| OAuthCallback.SuccessSentPkceExchange | src/components/OAuthCallback.tsx:58-135 | with the corrected Twitter exchange, success implies the stored verifier and the registered callback URI went with the code, and the returned token went to the profile request |
| OAuthCallback.StateMismatchRefused | src/components/OAuthCallback.tsx:58-63 | a state that differs from the stored one fails with "Invalid OAuth state" and sends nothing |
| OAuthCallback.CallbackPage.constructor | src/components/OAuthCallback.tsx:13-15 | the page starts loading, with no error, no requests and nothing posted |
| OAuthCallback.CallbackPage.PostToOpener | src/components/OAuthCallback.tsx:27 | a message is appended to the opener's inbox exactly when an opener exists |
| OAuthCallback.CallbackPage.HandleTwitterCallback | src/components/OAuthCallback.tsx:58-89 | the handler's throw, requests, storage removals and posted message are those of `Callback` for Twitter, with the corrected exchange; the date is read only when there is an opener |
| OAuthCallback.CallbackPage.HandleGitHubCallback | src/components/OAuthCallback.tsx:91-135 | the handler's throw, requests, storage removals and posted message are those of `Callback` for GitHub; the date is read only when there is an opener |
| OAuthCallback.CallbackPage.HandleCallback | src/components/OAuthCallback.tsx:18-53 | the page ends in success exactly when `Callback` reports no error; otherwise it shows that error; it posts exactly `Callback`'s messages |
| VerifyPage.CurrentEpoch | src/pages/VerifyPage.tsx:58 | without an override, the epoch is the period containing now; an override wins |
| VerifyPage.CurrentEpochMonotone | src/pages/VerifyPage.tsx:58 | the epoch never goes backwards as time passes |
| User.FirstSome | src/sdk/user.ts:509-539 | a reported attempt lies in the range and its fetch produced a value |
| User.FirstSomeIsFirst | src/sdk/user.ts:509-539 | every earlier attempt in the range failed, and none succeeded when there is no first |
| User.Pending | src/sdk/user.ts:144-162 | a message never adds listeners |
| User.PendingWithin | src/sdk/user.ts:144-162 | every listener left after a message was registered before it and did not react to it |
| User.PendingDistinct | src/sdk/user.ts:144-162 | listeners stay one per promise after a message |
| User.RemoveListener | src/sdk/user.ts:153-157 | the removed handler is no longer registered |
| User.RemoveListenerAbsent | src/sdk/user.ts:153-157 | removing an unregistered handler changes nothing |
| User.RemoveListenerAppend | src/sdk/user.ts:153-157 | removal distributes over concatenation of handler lists |
| User.SettleKeys | src/sdk/user.ts:144-162 | settled promises keep their values, and a message settles only promises whose listener reacted |
| User.ApplyMessageIdempotent | src/sdk/user.ts:148-160 | recording the same success message twice equals recording it once |
| User.ForeignOriginIgnored | src/sdk/user.ts:145-147 | a message from another origin changes no listener, promise or signal |
| User.OAuthErrorFailsEveryPending | src/sdk/user.ts:155-158 | an `OAUTH_ERROR` resolves every waiting promise with `false` and removes every listener |
| User.SuccessResolvesItsProvider | src/sdk/user.ts:148-154 | a provider's success resolves exactly that provider's waiting promises with `true` and leaves the other provider's listeners waiting |
| User.DispatchKeepsPromises | src/sdk/user.ts:144-162 | dispatch keeps listeners one per promise, all issued and unsettled, and changes no settled promise |
| User.Deliver | src/sdk/user.ts:144-162 | running the handlers in order leaves the pending listeners and the settled promises that `Pending` and `Settle` specify, and records the message exactly when some handler accepted a success |
| User.AnonnUser.constructor | src/sdk/user.ts:52-65 | a new user has no program, no wallet, no signals, no listeners and no promises |
| User.AnonnUser.SetProgram | src/sdk/user.ts:71-73 | sets the program and nothing else |
| User.AnonnUser.SetWallet | src/sdk/user.ts:75-77 | sets the wallet and nothing else |
| User.AnonnUser.SetBucketedSignals | src/sdk/user.ts:83-85 | spreads the given buckets over the stored ones and changes nothing else |
| User.AnonnUser.SetRawSignals | src/sdk/user.ts:90-92 | spreads the given raw signals over the stored ones and changes nothing else |
| User.AnonnUser.CollectWalletSignals | src/sdk/user.ts:101-112 | without a wallet, or when the RPC fails, it throws and changes nothing; otherwise it merges the wallet signals and rebuckets all of them |
| User.AnonnUser.ConnectTwitter | src/sdk/user.ts:115-169 | issues a fresh promise; it resolves `false` at once without a client id, when building the URL rejects (the `.catch`, leaving only the state stored) or without a popup; otherwise one Twitter listener waits for it, on a URL carrying the stored state |
| User.AnonnUser.ConnectGitHub | src/sdk/user.ts:175-230 | as for Twitter, with the GitHub authorization URL, its `.catch` and listener |
| User.AnonnUser.DispatchMessage | src/sdk/user.ts:144-162 | the new listeners, promises and signals are those `Pending`, `Settle` and `ApplyMessage` specify, and no settled promise changes |
| User.AnonnUser.GetMxePublicKeyWithRetry | src/sdk/user.ts:509-539 | returns the key of the first successful attempt, pausing once after each earlier failure; after `maxRetries` failures it throws the attempt count |
| User.AnonnUser.PollProofAccount | src/sdk/user.ts:470-504 | returns the first account found, after one pause per round; it gives up after `maxAttempts` rounds, swallowing every fetch error |
| User.AnonnUser.GenerateProof | src/sdk/user.ts:260-414 | checks program, wallet and all signals in that order; retries the key; submits the encrypted buckets in circuit order for the proof address of rule, wallet and epoch; an epoch from 2^53 fails with bn.js's "Assertion failed" before anything is submitted; returns the race winner carrying that address, or the first error |
| UseAnonn.AnonnHook.constructor | src/hooks/useAnonn.ts:54-61 | the hook starts with no signals, status idle, no result and no error |
| UseAnonn.AnonnHook.HasAllSignalsAgrees | src/hooks/useAnonn.ts:200-205 | the hook's completeness test agrees with the SDK's `hasAllSignals` |
| UseAnonn.AnonnHook.RawSignalsChanged | src/hooks/useAnonn.ts:64-66 | after raw signals change, the buckets are those of the raw signals |
| UseAnonn.AnonnHook.CollectWalletSignals | src/hooks/useAnonn.ts:75-94 | without a key only the error is set; otherwise the status passes through collecting to idle, with the wallet signals merged and rebucketed, or to error |
| UseAnonn.AnonnHook.WalletChanged | src/hooks/useAnonn.ts:69-73 | wallet signals are collected only for a connected wallet whose creation date is not yet known; then, as in `collectWalletSignals`, the wallet fields are merged and rebucketed with statuses collecting then idle, or the history's error is shown with statuses collecting then error |
| UseAnonn.AnonnHook.BeginConnect | src/hooks/useAnonn.ts:96-126 | the status becomes collecting and the error is cleared while the SDK opens the provider's popup; the SDK promise is left waiting exactly when a client id is set, the digest succeeds and the popup opens, and has otherwise already resolved `false` |
| UseAnonn.AnonnHook.FinishConnect | src/hooks/useAnonn.ts:103-143 | on success the hook takes the SDK's raw signals and rebuckets them; on failure it keeps the signals, ends in error and shows the failure message of exactly its own provider |
| UseAnonn.AnonnHook.GenerateProof | src/hooks/useAnonn.ts:146-190 | the status passes through computing to completed exactly when no error is set; the checks run in order; once the checks pass the SDK is called, its error becomes the hook's error, and its proof becomes the hook's result, carrying the address derived from rule, wallet and epoch |
| UseAnonn.AnonnHook.ClearSignals | src/hooks/useAnonn.ts:192-198 | it forgets all signals, the result and the error, and returns to idle |
| UseProofsForRule.ParseProof | src/hooks/useProofsForRule.ts:55-65 | the parsed proof keeps the account's fields, and it is finalized exactly when the flag is `true` |
| UseProofsForRule.OfRule | src/hooks/useProofsForRule.ts:45-52 | the filter keeps only accounts of the rule, drawn from the fetched ones |
| UseProofsForRule.OfRuleComplete | src/hooks/useProofsForRule.ts:45-52 | no fetched account of the rule is dropped |
| UseProofsForRule.ParseAll | src/hooks/useProofsForRule.ts:55-65 | one parsed proof per account, in order |
| UseProofsForRule.InsertNewest | src/hooks/useProofsForRule.ts:68 | one insertion step extends the newest-first prefix and permutes the array |
| UseProofsForRule.SortNewestFirst | src/hooks/useProofsForRule.ts:68 | the array ends newest first and is a permutation of its old contents |
| UseProofsForRule.Count | src/hooks/useProofsForRule.ts:86-91 | a filter count never exceeds the list length |
| UseProofsForRule.CountAppend | src/hooks/useProofsForRule.ts:86-91 | counts add up over concatenation |
| UseProofsForRule.CountPermutation | src/hooks/useProofsForRule.ts:68-91 | counts do not depend on the order, so sorting does not change the statistics |
| UseProofsForRule.TiersPartition | src/hooks/useProofsForRule.ts:86-89 | with tiers 0-2, the three tier counts sum to the total |
| UseProofsForRule.ActiveExpiredDisjoint | src/hooks/useProofsForRule.ts:90-91 | active and expired proofs never overlap: together they are at most the total |
| UseProofsForRule.StatsProperties | src/hooks/useProofsForRule.ts:84-92 | the total is the list length, the tiers partition it, active plus expired is at most the total, and the statistics are the same for any ordering |
| UseProofsForRule.ProofsForRule.constructor | src/hooks/useProofsForRule.ts:25-29 | the hook starts with no proofs, not loading and no error |
| UseProofsForRule.ProofsForRule.Refetch | src/hooks/useProofsForRule.ts:31-77 | with no program or rule the list is emptied; otherwise loading ends false, a failure sets its error, and success yields a newest-first permutation of the rule's parsed proofs |
| UseProofsForRule.ProofsForRule.CurrentStats | src/hooks/useProofsForRule.ts:84-92 | the statistics of the current list: the total is its length, the tiers partition it, and active plus expired is at most the total |

## Left out

- **Cryptography:**
  - The x25519 key exchange, Rescue encryption and SHA-256 are foreign
    functions. They appear as uninterpreted functions or oracle parameters
    (`X25519Public`, `RescueEncrypted`, `digest`).
  - Random bytes come from a parameter. The model states the modulo bias of
    `random % |alphabet|`, but not the distribution.
- **Concurrency:**
  - `Promise.race` between the `proofGenerated` event and the account poll is
    a parameter naming the winner.
  - The listener lifecycle of the event subscription and of the popup timers
    is not modelled.
  - Neither is the interleaving of separate async callbacks.
- **Timing:** `setTimeout` delays (the retry pause, the poll interval, the
  1.5 s popup close) are counted as sleeps, not timed.
- **Side effects with no state:** logging, `window.close` and `window.open`
  are not modelled. `window.open` is only whether the popup opened.
- **URL and date encoding:**
  - `URLSearchParams` percent-encoding is not modelled. An authorization URL
    is its base and its ordered parameter list.
  - ISO date strings and `Date` parsing are not modelled. A date is
    milliseconds since the epoch.
  - An invalid `Date` is not representable in the message data. In the
    source such a date is truthy and its NaN age fails every comparison, so
    `dateToAgeBucket` would give bucket 5. The SDK stores
    `new Date(event.data.createdAt)` unchecked. The callback page never posts
    such a date: with an opener, `toISOString` throws first and the page
    model reports the "Invalid time value" failure; without one, nothing is
    posted at all.
- **Error messages:**
  - Messages thrown by libraries and the engine are constants or parameters.
    The public key parser's message is `"Invalid public key input"`.
  - Every thrown value is an `Error`, so the `'Failed to ...'` fallbacks of
    `err instanceof Error ? ... : ...` never apply.
- **Developer SDK:**
  - `initializeCompDef` (src/sdk/developer.ts:41-75) is a one-time deployment
    step. It depends on the MXE's circuit upload and is not part of this
    model.
  - `getRule` (src/sdk/developer.ts:129-153) only decodes an account and is
    not part of this model.
- **Computation offset:** the random computation offset is an opaque
  parameter. The cluster, mempool, execpool and computation addresses
  derived from it are not modelled.
- **Tiers:** the tier read from the ledger is typed 0-2. An out-of-range
  byte would break `TiersPartition`.
- **Ledger filtering:** the `memcmp` filter at offset 40 is modelled as
  keeping the accounts whose `rule` field equals the rule address. The byte
  layout of the account is not modelled.
- **Numbers:** bn.js conversions between `BN` and JavaScript numbers throw
  from 2^53 in magnitude: `new BN(n)` fails its assertion ("Assertion
  failed") and `toNumber()` throws "Number can only safely store up to 53
  bits". The model writes out the constructor's bound for the epoch seed and
  the rule validity. Epochs, times and counts read from the ledger are
  unbounded integers, and `toNumber()` never fails in the model. Negative
  epochs are not modelled: an epoch is a natural number.
- UseProofsForRule.ProofsForRule.Refetch: does not model a `toNumber()`
  throw on an account's epoch, `generatedAt` or `expiresAt` of 2^53 or more;
  the source then sets that error and keeps the old list.
- UseProofsForRule.ParseProof: takes the account's numbers as they are; the
  source's `toNumber()` would throw from 2^53.
- Developer.AnonnDeveloper.GetProof: does not model the `toNumber()` throw
  from 2^53; the source's `catch` then returns `null`.
- User.AnonnUser.PollProofAccount: does not model the `toNumber()` throw
  from 2^53; the source swallows it and keeps polling.
- User.AnonnUser.GenerateProof: does not model the `toNumber()` throw from
  2^53 inside the `proofGenerated` listener, which would leave the event's
  promise unresolved.
- **Storage failures:** `localStorage.setItem` never throws in the model
  (storage disabled or over quota). In the source such a throw rejects the
  URL builder, and `connectTwitter`/`connectGitHub` then resolve `false` as
  for a rejected digest.
- **Hook rendering:** React render batching is not modelled. Each hook method
  applies its `set...` calls in order. `getRawSignals`/`getBucketedSignals`
  copies are read as the fields themselves.
- OAuthCallback.TwitterFlow: models the corrected four-argument exchange
  `OAuthCallback.TwitterExchange` named in Findings. The as-written call never
  sends the code verifier, so the backend refuses it and the Twitter callback
  as written cannot succeed.
- OAuthCallback.Callback: its Twitter branch runs `OAuthCallback.TwitterFlow`,
  i.e. the corrected exchange, not the as-written one.
- OAuthCallback.SuccessSentPkceExchange: holds for the corrected Twitter
  exchange; the as-written call sends no verifier
  (`OAuthCallback.AsWrittenExchangeSendsRedirectAsCode`).
- OAuthCallback.CallbackPage.HandleTwitterCallback: runs the corrected
  exchange, as `OAuthCallback.Callback` does.
- OAuthCallback.CallbackPage.HandleCallback: for Twitter, follows the
  corrected exchange through `OAuthCallback.Callback`.
- **Hook connect split:** the hook's `connectTwitter`/`connectGitHub` is
  split into `BeginConnect` and `FinishConnect`. The message dispatch in
  between is `User.AnonnUser.DispatchMessage`.
- **Hook proof result:**
  - `UseAnonn.AnonnHook.GenerateProof` states that a completed result is the
    SDK's result and names its proof address.
  - The rest of the result is what `User.AnonnUser.GenerateProof` promises.
- **Sort stability:**
  - `UseProofsForRule.SortNewestFirst` does not state stability.
  - JavaScript's `sort` is stable, but no caller depends on the order of
    proofs generated in the same second.
- **Shared age table:** `formatTwitterAge`, `formatGitHubAge` and
  `formatWalletAge` share one table (`AgeFormat.FormatAge`). Their copies are
  identical in the source.

## Findings

| source | as written | input that shows it | evidently intended | confidence | as-written member | corrected member |
|---|---|---|---|---|---|---|
| src/components/OAuthCallback.tsx:71-75 | `exchangeTwitterCode(code, redirectUri, codeVerifier)` passes three arguments to the four-parameter `exchangeTwitterCode(_clientId, code, redirectUri, codeVerifier)` (src/sdk/signals/twitter.ts:38-43), so every argument shifts one place left | any callback with a matching state, e.g. code `abc` and stored verifier `v`: the request carries code `<origin>/oauth/callback/twitter`, redirect URI `v` and no `code_verifier` | pass the client id first, so that the code, the callback URI and the stored verifier reach the token endpoint | not executed | OAuthCallback.AsWrittenExchangeSendsRedirectAsCode | OAuthCallback.TwitterExchange |

=== FILE: age_format.dfy ===
/**
 * The account-age display table shared, in three identical copies, by the
 * Twitter, GitHub and wallet formatters: days, months, quarters, one year, years.
 */
module AgeFormat {
  import opened Strings

  const DAY_MS: int := 24 * 60 * 60 * 1000

  /** `Math.floor((now - createdAt) / DAY_MS)`: whole days elapsed, rounded down (also for future dates). */
  function DaysSince(createdAt: int, now: int): (days: int)
    ensures days * DAY_MS <= now - createdAt < (days + 1) * DAY_MS
  {
    (now - createdAt) / DAY_MS
  }

  /** The branch table of `formatTwitterAge`, `formatGitHubAge` and `formatWalletAge` on a day count. */
  function FormatAge(days: int): string {
    if days < 30 then IntToString(days) + " days"
    else if days < 90 then IntToString(days / 30) + " month" + (if days > 30 then "s" else "")
    else if days < 365 then IntToString(days / 90) + " quarter" + (if days > 90 then "s" else "")
    else if days < 730 then "1 year"
    else IntToString(days / 365) + " years"
  }

  datatype AgeUnit = Days | Months | Quarters | Years

  function UnitDays(u: AgeUnit): nat {
    match u
    case Days => 1
    case Months => 30
    case Quarters => 90
    case Years => 365
  }

  /** The unit the table picks for a day count. */
  function UnitFor(days: int): AgeUnit {
    if days < 30 then Days else if days < 90 then Months else if days < 365 then Quarters else Years
  }

  /**
   * The text begins with the number of whole units in the age, so the shown
   * age never overstates the real one and is short of it by less than one
   * unit: months are 1 or 2, quarters 1 to 4, years at least 1.
   */
  lemma FormatAgeQuantity(days: int)
    requires days >= 0
    ensures var u := UnitFor(days); var n := days / UnitDays(u);
      && n * UnitDays(u) <= days < (n + 1) * UnitDays(u)
      && FormatAge(days)[..|IntToString(n)|] == IntToString(n)
      && (u == Months ==> 1 <= n <= 2)
      && (u == Quarters ==> 1 <= n <= 4)
      && (u == Years ==> n >= 1)
  {
    var u := UnitFor(days);
    var n := days / UnitDays(u);
    if u == Years && days < 730 {
      assert n == 1;
      assert FormatAge(days) == "1 year";
    }
  }

  /**
   * The plural ending follows the day count, not the number shown: every age
   * of 31 to 59 days reads "1 months" and 91 to 179 days "1 quarters".
   */
  lemma FormatAgePluralFollowsDays(days: int)
    requires 31 <= days < 60 || 91 <= days < 180
    ensures FormatAge(days) == if days < 60 then "1 months" else "1 quarters"
  {
  }
}

=== FILE: bucketing.dfy ===
/**
 * The bucketing engine: raw ages and counts become small ordinal buckets by a
 * first-match search over ascending threshold tables. `now` is a parameter
 * in place of the wall clock.
 */
module Bucketing {
  import opened Wrappers
  import opened Types

  const DAY_MS: int := 24 * 60 * 60 * 1000

  /** An upper threshold of a table row; `Unbounded` is JavaScript's `Infinity`. */
  datatype Bound = Below(limit: int) | Unbounded

  /** A table row `[threshold, bucket]`: values under the threshold get the bucket. */
  datatype Row = Row(threshold: Bound, bucket: int)

  predicate IsUnder(x: int, b: Bound) {
    b.Unbounded? || x < b.limit
  }

  const AGE_BUCKETS: seq<Row> := [
    Row(Below(30 * DAY_MS), 0),
    Row(Below(90 * DAY_MS), 1),
    Row(Below(180 * DAY_MS), 2),
    Row(Below(365 * DAY_MS), 3),
    Row(Below(2 * 365 * DAY_MS), 4),
    Row(Unbounded, 5)
  ]

  const COUNT_BUCKETS: seq<Row> := [
    Row(Below(1), 0),
    Row(Below(11), 1),
    Row(Below(51), 2),
    Row(Below(201), 3),
    Row(Unbounded, 4)
  ]

  /** The `for ... of` search: the bucket of the first row whose threshold exceeds `x`, else `fallback`. */
  function FirstMatch(table: seq<Row>, x: int, fallback: int): int {
    if |table| == 0 then fallback
    else if IsUnder(x, table[0].threshold) then table[0].bucket
    else FirstMatch(table[1..], x, fallback)
  }

  /** Thresholds strictly ascending, only the last may be unbounded, buckets non-decreasing. */
  predicate Ascending(table: seq<Row>) {
    forall i, j :: 0 <= i < j < |table| ==> Precedes(table[i], table[j])
  }

  /** Row `r` may come before row `s`: `r` is bounded, below `s`, with no larger bucket. */
  predicate Precedes(r: Row, s: Row) {
    r.threshold.Below? &&
    (s.threshold.Below? ==> r.threshold.limit < s.threshold.limit) &&
    r.bucket <= s.bucket
  }

  predicate BucketsWithin(table: seq<Row>, lo: int, hi: int) {
    forall i :: 0 <= i < |table| ==> lo <= table[i].bucket <= hi
  }

  lemma AscendingTail(table: seq<Row>)
    requires |table| > 0 && Ascending(table)
    ensures Ascending(table[1..])
  {
    forall i, j | 0 <= i < j < |table| - 1
      ensures Precedes(table[1..][i], table[1..][j])
    {
      assert table[1..][i] == table[i + 1] && table[1..][j] == table[j + 1];
    }
  }

  lemma {:induction false} FirstMatchWithin(table: seq<Row>, x: int, fallback: int, lo: int, hi: int)
    requires BucketsWithin(table, lo, hi) && lo <= fallback <= hi
    ensures lo <= FirstMatch(table, x, fallback) <= hi
  {
    if |table| > 0 && !IsUnder(x, table[0].threshold) {
      FirstMatchWithin(table[1..], x, fallback, lo, hi);
    }
  }

  /** In an ascending table the search never returns less than the first row's bucket. */
  lemma {:induction false} FirstMatchAtLeastHead(table: seq<Row>, x: int, fallback: int)
    requires |table| > 0 && Ascending(table)
    requires forall i :: 0 <= i < |table| ==> table[i].bucket <= fallback
    ensures table[0].bucket <= FirstMatch(table, x, fallback)
  {
    if !IsUnder(x, table[0].threshold) && |table| > 1 {
      AscendingTail(table);
      FirstMatchAtLeastHead(table[1..], x, fallback);
    }
  }

  /**
   * Monotonicity of the first-match search: with ascending thresholds and
   * buckets, a larger value never lands in a smaller bucket.
   */
  lemma {:induction false} FirstMatchMonotone(table: seq<Row>, x1: int, x2: int, fallback: int)
    requires Ascending(table) && x1 <= x2
    requires forall i :: 0 <= i < |table| ==> table[i].bucket <= fallback
    ensures FirstMatch(table, x1, fallback) <= FirstMatch(table, x2, fallback)
  {
    if |table| > 0 {
      var t := table[0].threshold;
      if IsUnder(x2, t) {
        assert IsUnder(x1, t);
      } else if IsUnder(x1, t) {
        if |table| > 1 {
          AscendingTail(table);
          FirstMatchAtLeastHead(table[1..], x2, fallback);
        }
      } else {
        if |table| > 1 {
          AscendingTail(table);
        }
        FirstMatchMonotone(table[1..], x1, x2, fallback);
      }
    }
  }

  /** The age bucket of an account age in milliseconds (the loop of `dateToAgeBucket`). */
  function AgeBucketOf(ageMs: int): AgeBucket {
    FirstMatchWithin(AGE_BUCKETS, ageMs, 5, 0, 5);
    FirstMatch(AGE_BUCKETS, ageMs, 5)
  }

  /** The count bucket of a count (the loop of `countToBucket`). */
  function CountBucketOf(count: int): CountBucket {
    FirstMatchWithin(COUNT_BUCKETS, count, 4, 0, 4);
    FirstMatch(COUNT_BUCKETS, count, 4)
  }

  /** `dateToAgeBucket`: a missing date has no bucket; otherwise the bucket of `now - createdAt`. */
  function DateToAgeBucket(createdAt: Option<int>, now: int): (r: Option<AgeBucket>)
    ensures r.None? <==> createdAt.None?
  {
    match createdAt
    case None => None
    case Some(t) => Some(AgeBucketOf(now - t))
  }

  /** `countToBucket`: a missing count has no bucket; otherwise the count's bucket. */
  function CountToBucket(count: Option<int>): (r: Option<CountBucket>)
    ensures r.None? <==> count.None?
  {
    match count
    case None => None
    case Some(c) => Some(CountBucketOf(c))
  }

  /** The age ranges as the type's documentation states them, written as a chain of comparisons. */
  function AgeBucketSpec(ageMs: int): AgeBucket {
    if ageMs < 30 * DAY_MS then 0
    else if ageMs < 90 * DAY_MS then 1
    else if ageMs < 180 * DAY_MS then 2
    else if ageMs < 365 * DAY_MS then 3
    else if ageMs < 730 * DAY_MS then 4
    else 5
  }

  /** The count ranges 0, 1-10, 11-50, 51-200, > 200 written as a chain of comparisons. */
  function CountBucketSpec(count: int): CountBucket {
    if count <= 0 then 0
    else if count <= 10 then 1
    else if count <= 50 then 2
    else if count <= 200 then 3
    else 4
  }

  /** The age table search agrees with the documented ranges at every age. */
  lemma AgeBucketMatchesSpec(ageMs: int)
    ensures AgeBucketOf(ageMs) == AgeBucketSpec(ageMs)
  {
    var t0 := AGE_BUCKETS;
    var t1 := t0[1..];
    var t2 := t1[1..];
    var t3 := t2[1..];
    var t4 := t3[1..];
    var t5 := t4[1..];
    assert t5 == [Row(Unbounded, 5)];
    assert FirstMatch(t5, ageMs, 5) == 5;
    assert FirstMatch(t4, ageMs, 5) == if ageMs < 730 * DAY_MS then 4 else 5;
    assert FirstMatch(t3, ageMs, 5) == if ageMs < 365 * DAY_MS then 3 else FirstMatch(t4, ageMs, 5);
    assert FirstMatch(t2, ageMs, 5) == if ageMs < 180 * DAY_MS then 2 else FirstMatch(t3, ageMs, 5);
    assert FirstMatch(t1, ageMs, 5) == if ageMs < 90 * DAY_MS then 1 else FirstMatch(t2, ageMs, 5);
    assert FirstMatch(t0, ageMs, 5) == if ageMs < 30 * DAY_MS then 0 else FirstMatch(t1, ageMs, 5);
  }

  /** The count table search agrees with the documented ranges at every count. */
  lemma CountBucketMatchesSpec(count: int)
    ensures CountBucketOf(count) == CountBucketSpec(count)
  {
    var t0 := COUNT_BUCKETS;
    var t1 := t0[1..];
    var t2 := t1[1..];
    var t3 := t2[1..];
    var t4 := t3[1..];
    assert t4 == [Row(Unbounded, 4)];
    assert FirstMatch(t4, count, 4) == 4;
    assert FirstMatch(t3, count, 4) == if count < 201 then 3 else 4;
    assert FirstMatch(t2, count, 4) == if count < 51 then 2 else FirstMatch(t3, count, 4);
    assert FirstMatch(t1, count, 4) == if count < 11 then 1 else FirstMatch(t2, count, 4);
    assert FirstMatch(t0, count, 4) == if count < 1 then 0 else FirstMatch(t1, count, 4);
  }

  lemma AgeBucketsAscending()
    ensures Ascending(AGE_BUCKETS)
  {
  }

  lemma CountBucketsAscending()
    ensures Ascending(COUNT_BUCKETS)
  {
  }

  /** An older account never gets a smaller age bucket. */
  lemma AgeBucketMonotone(a1: int, a2: int)
    requires a1 <= a2
    ensures AgeBucketOf(a1) <= AgeBucketOf(a2)
  {
    AgeBucketsAscending();
    FirstMatchMonotone(AGE_BUCKETS, a1, a2, 5);
  }

  /** A larger count never gets a smaller count bucket. */
  lemma CountBucketMonotone(c1: int, c2: int)
    requires c1 <= c2
    ensures CountBucketOf(c1) <= CountBucketOf(c2)
  {
    CountBucketsAscending();
    FirstMatchMonotone(COUNT_BUCKETS, c1, c2, 4);
  }

  /** `bucketSignals`: each raw field is bucketed on its own. */
  function BucketSignals(raw: RawSignals, now: int): PartialUserSignals {
    PartialUserSignals(
      DateToAgeBucket(raw.walletCreatedAt, now),
      CountToBucket(raw.txCount),
      DateToAgeBucket(raw.twitterCreatedAt, now),
      DateToAgeBucket(raw.githubCreatedAt, now),
      CountToBucket(raw.githubPublicRepos))
  }

  /** `hasAllSignals`: all five bucket fields are defined. */
  predicate HasAllSignals(s: PartialUserSignals) {
    && s.walletAgeBucket.Some?
    && s.txCountBucket.Some?
    && s.twitterAgeBucket.Some?
    && s.githubAgeBucket.Some?
    && s.githubRepoBucket.Some?
  }

  /** Forgets that a complete signal set is complete. */
  function ToPartial(u: UserSignals): (p: PartialUserSignals)
    ensures HasAllSignals(p)
  {
    PartialUserSignals(
      Some(u.walletAgeBucket), Some(u.txCountBucket), Some(u.twitterAgeBucket),
      Some(u.githubAgeBucket), Some(u.githubRepoBucket))
  }

  /** The type guard `signals is UserSignals`: a partial set with all five fields, as a complete one. */
  function Complete(p: PartialUserSignals): (u: UserSignals)
    requires HasAllSignals(p)
    ensures ToPartial(u) == p
  {
    UserSignals(
      p.walletAgeBucket.value, p.txCountBucket.value, p.twitterAgeBucket.value,
      p.githubAgeBucket.value, p.githubRepoBucket.value)
  }

  /** Spreading a complete set over any partial set yields the complete set. */
  lemma MergeCompleteReplaces(s: PartialUserSignals, u: UserSignals)
    ensures MergeSignals(s, AsPatch(u)) == ToPartial(u)
    ensures HasAllSignals(MergeSignals(s, AsPatch(u)))
  {
  }

  /** A partial set passes the guard exactly when it is a complete set in disguise. */
  lemma HasAllSignalsIffComplete(p: PartialUserSignals)
    ensures HasAllSignals(p) <==> exists u :: ToPartial(u) == p
  {
    if HasAllSignals(p) {
      assert ToPartial(Complete(p)) == p;
    }
  }

  /** Bucketing raw signals yields a complete set exactly when all five raw fields are present. */
  lemma BucketSignalsComplete(raw: RawSignals, now: int)
    ensures HasAllSignals(BucketSignals(raw, now)) <==>
      raw.walletCreatedAt.Some? && raw.txCount.Some? && raw.twitterCreatedAt.Some? &&
      raw.githubCreatedAt.Some? && raw.githubPublicRepos.Some?
  {
  }

  /**
   * Absence is not bucket 0: a missing field stays missing, a present one is
   * bucketed, and one field's value never influences another field's bucket.
   */
  lemma BucketSignalsIndependent(r1: RawSignals, r2: RawSignals, now: int)
    ensures r1.walletCreatedAt == r2.walletCreatedAt ==>
      BucketSignals(r1, now).walletAgeBucket == BucketSignals(r2, now).walletAgeBucket
    ensures r1.txCount == r2.txCount ==>
      BucketSignals(r1, now).txCountBucket == BucketSignals(r2, now).txCountBucket
    ensures r1.twitterCreatedAt == r2.twitterCreatedAt ==>
      BucketSignals(r1, now).twitterAgeBucket == BucketSignals(r2, now).twitterAgeBucket
    ensures r1.githubCreatedAt == r2.githubCreatedAt ==>
      BucketSignals(r1, now).githubAgeBucket == BucketSignals(r2, now).githubAgeBucket
    ensures r1.githubPublicRepos == r2.githubPublicRepos ==>
      BucketSignals(r1, now).githubRepoBucket == BucketSignals(r2, now).githubRepoBucket
  {
  }

  /** `signalsToArray`: the five buckets in the order the evaluation circuit expects. */
  function SignalsToArray(u: UserSignals): (a: seq<int>)
    ensures |a| == 5
  {
    [u.walletAgeBucket, u.txCountBucket, u.twitterAgeBucket, u.githubAgeBucket, u.githubRepoBucket]
  }

  /** How the circuit reads the five-element vector back into named signals. */
  function ArrayToSignals(a: seq<int>): Option<UserSignals> {
    if |a| == 5 && 0 <= a[0] <= 5 && 0 <= a[1] <= 4 && 0 <= a[2] <= 5 && 0 <= a[3] <= 5 && 0 <= a[4] <= 4
    then Some(UserSignals(a[0], a[1], a[2], a[3], a[4]))
    else None
  }

  /** The array carries every field in its fixed position: reading it back gives the signals. */
  lemma SignalsToArrayRoundTrip(u: UserSignals)
    ensures ArrayToSignals(SignalsToArray(u)) == Some(u)
  {
  }

  const AGE_LABELS: seq<string> :=
    ["< 30 days", "30-90 days", "90-180 days", "180-365 days", "1-2 years", "> 2 years"]

  const COUNT_LABELS: seq<string> := ["0", "1-10", "11-50", "51-200", "> 200"]

  /** `describeAgeBucket` */
  function DescribeAgeBucket(b: AgeBucket): string {
    AGE_LABELS[b]
  }

  /** `describeCountBucket` */
  function DescribeCountBucket(b: CountBucket): string {
    COUNT_LABELS[b]
  }

  /** The range label of an age, chosen directly from the age. */
  function AgeRangeLabel(ageMs: int): string {
    if ageMs < 30 * DAY_MS then "< 30 days"
    else if ageMs < 90 * DAY_MS then "30-90 days"
    else if ageMs < 180 * DAY_MS then "90-180 days"
    else if ageMs < 365 * DAY_MS then "180-365 days"
    else if ageMs < 730 * DAY_MS then "1-2 years"
    else "> 2 years"
  }

  /** The range label of a count, chosen directly from the count. */
  function CountRangeLabel(count: int): string {
    if count <= 0 then "0"
    else if count <= 10 then "1-10"
    else if count <= 50 then "11-50"
    else if count <= 200 then "51-200"
    else "> 200"
  }

  /** The label of an age's bucket names the range the age lies in; distinct buckets have distinct labels. */
  lemma DescribeAgeBucketMatchesAge(ageMs: int)
    ensures DescribeAgeBucket(AgeBucketOf(ageMs)) == AgeRangeLabel(ageMs)
    ensures forall b1: AgeBucket, b2: AgeBucket ::
      DescribeAgeBucket(b1) == DescribeAgeBucket(b2) ==> b1 == b2
  {
    AgeBucketMatchesSpec(ageMs);
  }

  /** The label of a count's bucket names the range the count lies in; distinct buckets have distinct labels. */
  lemma DescribeCountBucketMatchesCount(count: int)
    ensures DescribeCountBucket(CountBucketOf(count)) == CountRangeLabel(count)
    ensures forall b1: CountBucket, b2: CountBucket ::
      DescribeCountBucket(b1) == DescribeCountBucket(b2) ==> b1 == b2
  {
    CountBucketMatchesSpec(count);
  }

  /**
   * A wallet created 400 days ago is in bucket 4, 250 transactions are in
   * bucket 4, and those two signals alone are not a complete set.
   */
  lemma ScenarioWalletOnly(now: int)
    ensures var raw := RawSignals(Some(now - 400 * DAY_MS), Some(250), None, None, None);
      var s := BucketSignals(raw, now);
      s.walletAgeBucket == Some(4) && s.txCountBucket == Some(4) && !HasAllSignals(s)
  {
    AgeBucketMatchesSpec(400 * DAY_MS);
    CountBucketMatchesSpec(250);
  }
}

=== FILE: developer.dfy ===
/**
 * The developer SDK: tier descriptions, rule and proof address derivation,
 * rule registration arguments, and the classification of proof verification
 * results. Ledger calls are oracle parameters: a failed call is an error
 * message, a fetched account is its decoded data or `None` when the fetch threw.
 */
module Developer {
  import opened Wrappers
  import opened Strings
  import opened Ledger
  import opened Types

  const DEFAULT_PROOF_VALIDITY_SECS: int := 86400

  /** The tier a condition count earns: tier 2 is checked first, then tier 1. */
  function TierFor(conditionsMet: int, tier1Min: int, tier2Min: int): Tier {
    if conditionsMet >= tier2Min then 2 else if conditionsMet >= tier1Min then 1 else 0
  }

  /** Tier 2 exactly at or above `tier2Min`; tier 1 exactly between the two minimums; otherwise tier 0. */
  lemma TierForCases(c: int, t1: int, t2: int)
    ensures TierFor(c, t1, t2) == 2 <==> c >= t2
    ensures TierFor(c, t1, t2) == 1 <==> t1 <= c < t2
    ensures TierFor(c, t1, t2) == 0 <==> c < t1 && c < t2
  {
  }

  /** Meeting more conditions never lowers the tier. */
  lemma TierForMonotone(c1: int, c2: int, t1: int, t2: int)
    requires c1 <= c2
    ensures TierFor(c1, t1, t2) <= TierFor(c2, t1, t2)
  {
  }

  /** The developer SDK object; its fields are set once, by the constructor. */
  datatype AnonnDeveloper = AnonnDeveloper(programId: Address, authority: Address) {

    /** `describeTier` */
    function DescribeTier(conditionsMet: int, tier1Min: int, tier2Min: int): string {
      if conditionsMet >= tier2Min then
        "Tier 2 (" + IntToString(conditionsMet) + "/" + IntToString(tier2Min) + " conditions met)"
      else if conditionsMet >= tier1Min then
        "Tier 1 (" + IntToString(conditionsMet) + "/" + IntToString(tier1Min) + " conditions met)"
      else
        "Tier 0 (" + IntToString(conditionsMet) + " conditions met, need " + IntToString(tier1Min) + " for Tier 1)"
    }

    /** `getRulePda`: the address derived from the seeds ['rule', authority, ruleId]. */
    function GetRulePda(ruleId: string): (r: Result<Address>)
      ensures r.Ok? <==> Utf8Length(ruleId) <= MAX_SEED_LENGTH
      ensures r.Ok? ==> r.value == Derived(programId, [Text("rule"), KeyBytes(authority), Text(ruleId)])
      ensures r.Err? ==> r.error == MAX_SEED_LENGTH_EXCEEDED
    {
      var seeds := [Text("rule"), KeyBytes(authority), Text(ruleId)];
      assert SeedLength(seeds[0]) <= MAX_SEED_LENGTH && SeedLength(seeds[2]) == Utf8Length(ruleId);
      FindProgramAddress(programId, seeds)
    }

    /** `getProofPda`: the address derived from ['proof', rule, user, epoch as 8-byte little-endian]. */
    function GetProofPda(rulePda: Address, user: Address, epoch: nat): (r: Result<Address>)
      ensures r.Ok? <==> epoch < SAFE_NUMBER_BOUND
      ensures r.Ok? ==> r.value == Derived(programId, [Text("proof"), KeyBytes(rulePda), KeyBytes(user), Bytes(EpochSeed(epoch).value)])
      ensures r.Err? ==> r.error == BN_ASSERTION_FAILED
    {
      match EpochSeed(epoch)
      case Err(e) => Err(e)
      case Ok(epochBytes) =>
        var seeds := [Text("proof"), KeyBytes(rulePda), KeyBytes(user), Bytes(epochBytes)];
        assert SeedLength(seeds[0]) <= MAX_SEED_LENGTH;
        FindProgramAddress(programId, seeds)
    }

    /** The `proofValiditySecs` argument sent on registration: `rule.proofValiditySecs || 86400`. */
    function ValiditySent(rule: RuleDefinition): int {
      match rule.proofValiditySecs
      case None => DEFAULT_PROOF_VALIDITY_SECS
      case Some(v) => if v == 0 then DEFAULT_PROOF_VALIDITY_SECS else v
    }

    /**
     * `registerRule`: derives the rule address, which throws for a rule id
     * longer than 32 bytes before anything is sent; then builds the call,
     * whose `new anchor.BN(validity)` throws for a validity of 2^53 or more
     * in magnitude; then sends the registration (`rpcError` is the failure
     * of that call, if any) and returns the address.
     */
    function RegisterRule(rule: RuleDefinition, rpcError: Option<string>): (r: Result<Address>)
      ensures r.Ok? <==> Utf8Length(rule.ruleId) <= MAX_SEED_LENGTH && SafeNumber(ValiditySent(rule)) && rpcError.None?
      ensures r.Ok? ==> Ok(r.value) == GetRulePda(rule.ruleId)
      ensures Utf8Length(rule.ruleId) > MAX_SEED_LENGTH ==> r == Err(MAX_SEED_LENGTH_EXCEEDED)
      ensures Utf8Length(rule.ruleId) <= MAX_SEED_LENGTH && !SafeNumber(ValiditySent(rule)) ==> r == Err(BN_ASSERTION_FAILED)
      ensures Utf8Length(rule.ruleId) <= MAX_SEED_LENGTH && SafeNumber(ValiditySent(rule)) && rpcError.Some? ==> r == Err(rpcError.value)
    {
      match GetRulePda(rule.ruleId)
      case Err(e) => Err(e)
      case Ok(rulePda) =>
        if !SafeNumber(ValiditySent(rule)) then Err(BN_ASSERTION_FAILED)
        else
          match rpcError
          case Some(e) => Err(e)
          case None => Ok(rulePda)
    }

    /** `getProof`: a failed fetch is `null`; a missing `isFinalized` reads as false. */
    function GetProof(fetched: Option<ProofAccountData>): (r: Option<ProofRecord>)
      ensures r.Some? <==> fetched.Some?
      ensures r.Some? ==> r.value.isFinalized == (fetched.value.isFinalized == Some(true))
      ensures r.Some? ==> r.value.tier == fetched.value.tier && r.value.expiresAt == fetched.value.expiresAt
    {
      match fetched
      case None => None
      case Some(a) =>
        Some(ProofRecord(a.owner, a.rule, a.epoch, a.tier, a.conditionsMet, a.generatedAt,
                         a.expiresAt, a.isFinalized.GetOr(false)))
    }

    /**
     * `verifyProof`: `rpcOk` says whether the on-ledger verification succeeded,
     * `fetched` is the proof account as `getProof` then reads it, `nowMs` the clock.
     */
    function VerifyProof(rpcOk: bool, fetched: Option<ProofAccountData>, nowMs: int): VerifyResult {
      var proof := GetProof(fetched);
      if rpcOk then
        VerifyResult(true, if proof.Some? then proof.value.tier else 0, false)
      else if proof.Some? then
        VerifyResult(false, proof.value.tier, nowMs / 1000 >= proof.value.expiresAt)
      else
        VerifyResult(false, 0, false)
    }
  }

  /** The description always names the tier `TierFor` assigns. */
  lemma DescribeTierNamesTier(d: AnonnDeveloper, c: int, t1: int, t2: int)
    ensures var s := d.DescribeTier(c, t1, t2);
      |s| > 6 && s[..6] == "Tier " + NatToString(TierFor(c, t1, t2))
  {
    var s := d.DescribeTier(c, t1, t2);
    var digit := NatToString(TierFor(c, t1, t2));
    assert s[..6] == s[..8][..6];
  }

  /** Registration returns exactly the address `getRulePda` derives, and different rules get different addresses. */
  lemma RegisterRuleAddressReproducible(d: AnonnDeveloper, rule: RuleDefinition, other: string)
    ensures d.RegisterRule(rule, None).Ok? ==> d.RegisterRule(rule, None) == d.GetRulePda(rule.ruleId)
    ensures d.GetRulePda(other).Ok? && d.GetRulePda(other) == d.GetRulePda(rule.ruleId) ==> other == rule.ruleId
  {
  }

  /**
   * The seed limit on rule ids: any id of more than 32 characters is refused,
   * and an ASCII id is accepted exactly when it has at most 32 characters.
   */
  lemma RuleIdSeedLimit(d: AnonnDeveloper, ruleId: string)
    ensures |ruleId| > MAX_SEED_LENGTH ==> d.GetRulePda(ruleId) == Err(MAX_SEED_LENGTH_EXCEEDED)
    ensures (forall i :: 0 <= i < |ruleId| ==> ruleId[i] as int < 0x80) ==>
      (d.GetRulePda(ruleId).Ok? <==> |ruleId| <= MAX_SEED_LENGTH)
  {
    if forall i :: 0 <= i < |ruleId| ==> ruleId[i] as int < 0x80 {
      AsciiUtf8Length(ruleId);
    }
  }

  /** An absent or zero validity is sent as one day; any other value is sent unchanged. */
  lemma ValiditySentDefault(d: AnonnDeveloper, rule: RuleDefinition)
    ensures d.ValiditySent(rule) == 86400 <==>
      rule.proofValiditySecs in {None, Some(0), Some(86400)}
    ensures rule.proofValiditySecs.Some? && rule.proofValiditySecs.value != 0 ==>
      d.ValiditySent(rule) == rule.proofValiditySecs.value
  {
  }

  /** The proof address determines its rule, user and epoch: a proof for one epoch never collides with another. */
  lemma ProofPdaInjective(d: AnonnDeveloper, r1: Address, u1: Address, e1: nat, r2: Address, u2: Address, e2: nat)
    requires d.GetProofPda(r1, u1, e1).Ok? && d.GetProofPda(r2, u2, e2).Ok?
    requires d.GetProofPda(r1, u1, e1) == d.GetProofPda(r2, u2, e2)
    ensures r1 == r2 && u1 == u2 && e1 == e2
  {
    EpochSeedInjective(e1, e2);
  }

  /**
   * Verification outcomes: a passing call is valid and unexpired with the
   * record's tier or 0; a failing call is invalid, and expired exactly when a
   * record exists whose expiry (in seconds) is not after the current second.
   */
  lemma VerifyProofOutcomes(d: AnonnDeveloper, rpcOk: bool, fetched: Option<ProofAccountData>, nowMs: int)
    ensures var r := d.VerifyProof(rpcOk, fetched, nowMs);
      && r.valid == rpcOk
      && (r.valid ==> !r.expired)
      && r.tier == (if fetched.Some? then fetched.value.tier else 0)
      && (!rpcOk ==> (r.expired <==> fetched.Some? && nowMs / 1000 >= fetched.value.expiresAt))
  {
  }
}

=== FILE: github.dfy ===
/**
 * The GitHub side of the OAuth flow: the authorization URL (with PKCE
 * parameters), the profile fetch through the backend, and the formatters.
 */
module GitHub {
  import opened Wrappers
  import opened Ledger
  import opened Strings
  import opened Pkce
  import opened Web
  import AgeFormat

  const STATE_KEY: string := "github_oauth_state"
  const VERIFIER_KEY: string := "github_code_verifier"
  const STATE_LENGTH: nat := 32
  const VERIFIER_LENGTH: nat := 128
  const AUTHORIZE_URL: string := "https://github.com/login/oauth/authorize"

  /** The alphabet of the random strings: the 62 letters and digits. */
  const CHARS: string := ALNUM

  /** `generateRandomString`: `length` letters and digits, each picked by one random byte. */
  method GenerateRandomString(length: nat, random: nat -> Byte) returns (s: string)
    ensures |s| == length
    ensures forall i :: 0 <= i < length ==> s[i] == CHARS[random(i) % |CHARS|]
    ensures forall i :: 0 <= i < length ==> IsUnreserved(s[i]) && s[i] in ALNUM
  {
    AlnumAt(0);
    s := RandomString(CHARS, length, random);
    forall i | 0 <= i < length
      ensures IsUnreserved(s[i])
    {
      AlnumUnreserved(random(i) % |CHARS|);
    }
  }

  /** The code verifier `generateRandomString(128)` draws from the random bytes. */
  function CodeVerifier(random: nat -> Byte): string {
    AlnumAt(0);
    RandomChoice(CHARS, VERIFIER_LENGTH, random)
  }

  /**
   * `getGitHubAuthUrl`: stores a fresh 32-character state and a fresh
   * 128-character code verifier and returns the authorization URL carrying
   * the same state and the S256 challenge of the same verifier. Unlike the
   * Twitter URL it has no `response_type`. A rejected digest leaves only
   * the state stored.
   */
  method GetGitHubAuthUrl(storage: LocalStorage, clientId: string, origin: string,
                          stateRandom: nat -> Byte, verifierRandom: nat -> Byte,
                          digest: string -> Result<seq<Byte>>) returns (url: Result<AuthUrl>)
    modifies storage
    ensures STATE_KEY in storage.items
    ensures var state := storage.items[STATE_KEY];
      && |state| == STATE_LENGTH
      && forall i :: 0 <= i < STATE_LENGTH ==> state[i] == CHARS[stateRandom(i) % |CHARS|]
    ensures url.Ok? <==> digest(CodeVerifier(verifierRandom)).Ok?
    ensures url.Err? ==> (
      && url.error == digest(CodeVerifier(verifierRandom)).error
      && storage.items == old(storage.items)[STATE_KEY := storage.items[STATE_KEY]])
    ensures url.Ok? ==> VERIFIER_KEY in storage.items
    ensures url.Ok? ==> storage.items == old(storage.items)[STATE_KEY := storage.items[STATE_KEY]][VERIFIER_KEY := storage.items[VERIFIER_KEY]]
    ensures url.Ok? ==> var verifier := storage.items[VERIFIER_KEY];
      && verifier == CodeVerifier(verifierRandom)
      && |verifier| == VERIFIER_LENGTH
      && IsCodeVerifier(verifier)
      && forall i :: 0 <= i < VERIFIER_LENGTH ==> verifier[i] == CHARS[verifierRandom(i) % |CHARS|]
    ensures url.Ok? ==> url.value == AuthUrl(AUTHORIZE_URL, [
      ("client_id", clientId),
      ("redirect_uri", CallbackUri(origin, GitHub)),
      ("scope", "read:user user:email"),
      ("state", storage.items[STATE_KEY]),
      ("code_challenge", Base64Url(digest(storage.items[VERIFIER_KEY]).value)),
      ("code_challenge_method", "S256")])
  {
    var state := GenerateRandomString(STATE_LENGTH, stateRandom);
    storage.SetItem(STATE_KEY, state);
    var codeVerifier := GenerateRandomString(VERIFIER_LENGTH, verifierRandom);
    assert codeVerifier == CodeVerifier(verifierRandom);
    var hashed := digest(codeVerifier);
    if hashed.Err? {
      return Err(hashed.error);
    }
    var codeChallenge := Base64UrlEncode(hashed.value);
    storage.SetItem(VERIFIER_KEY, codeVerifier);
    url := Ok(AuthUrl(AUTHORIZE_URL, [
      ("client_id", clientId),
      ("redirect_uri", CallbackUri(origin, GitHub)),
      ("scope", "read:user user:email"),
      ("state", state),
      ("code_challenge", codeChallenge),
      ("code_challenge_method", "S256")]));
  }

  /**
   * The JSON body of the user endpoint: `error` on failure; on success the
   * creation time (`None` when it is not a valid date) and `public_repos`.
   */
  datatype GitHubUserBody = GitHubUserBody(error: Option<string>, createdAt: Option<int>, publicRepos: Option<int>)

  datatype GitHubProfile = GitHubProfile(createdAt: Option<int>, publicRepos: int)

  const USER_FETCH_FAILED: string := "GitHub user fetch failed: "

  function UserEndpoint(apiBaseUrl: string): string {
    if apiBaseUrl != "" then apiBaseUrl + "/api/github/user" else "/api/github/user"
  }

  /**
   * `fetchGitHubUser`: always sends one bearer request; a failed status
   * becomes an error naming the backend's error or the status text; a good
   * status yields the profile, a missing or zero repository count read as 0.
   */
  function FetchGitHubUser(accessToken: Option<string>, apiBaseUrl: string,
                           response: HttpResponse<GitHubUserBody>): (r: Outcome<GitHubProfile>)
    ensures r.sent == Some(ProfileFetch(UserEndpoint(apiBaseUrl), accessToken))
    ensures r.result.Ok? <==> response.ok && response.json.Some?
    ensures r.result.Ok? ==> r.result.value.createdAt == response.json.value.createdAt
    ensures r.result.Ok? ==> r.result.value.publicRepos == response.json.value.publicRepos.GetOr(0)
    ensures !response.ok ==> r.result.Err? && |r.result.error| >= |USER_FETCH_FAILED| && r.result.error[..|USER_FETCH_FAILED|] == USER_FETCH_FAILED
    ensures !response.ok && response.json.None? ==> r.result == Err(USER_FETCH_FAILED + response.statusText)
  {
    var request := ProfileFetch(UserEndpoint(apiBaseUrl), accessToken);
    if !response.ok then
      var error := if response.json.Some? then response.json.value.error else Some(response.statusText);
      Outcome(Some(request), Err(USER_FETCH_FAILED + Or(error, response.statusText)))
    else if response.json.None? then
      Outcome(Some(request), Err(INVALID_JSON))
    else
      var user := response.json.value;
      Outcome(Some(request), Ok(GitHubProfile(user.createdAt, if user.publicRepos.Some? && user.publicRepos.value != 0 then user.publicRepos.value else 0)))
  }

  /** `formatGitHubAge`: the shared age table on the whole days since creation. */
  function FormatGitHubAge(createdAt: int, now: int): string {
    AgeFormat.FormatAge(AgeFormat.DaysSince(createdAt, now))
  }

  /**
   * `formatRepoCount`: "No public repos" exactly for zero; the count itself
   * below 200 (the three middle branches print the same text); a "+" from 200 on.
   */
  function FormatRepoCount(count: int): (s: string)
    ensures s == "No public repos" <==> count == 0
    ensures count != 0 ==> |s| > |IntToString(count)| && s[..|IntToString(count)|] == IntToString(count)
    ensures count != 0 && count < 200 ==> s == IntToString(count) + " repos"
    ensures count >= 200 ==> s == IntToString(count) + "+ repos"
  {
    var shown := IntToString(count);
    assert count != 0 ==> (shown + " repos")[0] == shown[0] != 'N' && (shown + "+ repos")[0] == shown[0];
    if count == 0 then "No public repos"
    else if count < 10 then IntToString(count) + " repos"
    else if count < 50 then IntToString(count) + " repos"
    else if count < 200 then IntToString(count) + " repos"
    else IntToString(count) + "+ repos"
  }
}

=== FILE: ledger.dfy ===
/**
 * Ledger keys and program-derived addresses.
 *
 * `PublicKey.findProgramAddressSync(seeds, programId)` rejects a seed longer
 * than 32 bytes and otherwise hashes its seeds; the model treats the hash as
 * an injective function of the program id and the seed list, which is what a
 * constructor is. The 8-byte little-endian encoding of
 * an epoch (`new BN(epoch).toArrayLike(Buffer, 'le', 8)`) is written out.
 */
module Ledger {
  import opened Wrappers

  type Byte = b: int | 0 <= b < 256

  /** A ledger public key: an opaque key (wallet, program, authority) or a program-derived address. */
  datatype Address = Key(id: nat) | Derived(program: Address, seeds: seq<Seed>)

  /** One seed buffer handed to the address derivation. */
  datatype Seed =
    | Text(text: string)      // Buffer.from(someString)
    | KeyBytes(key: Address)  // somePublicKey.toBuffer()
    | Bytes(bytes: seq<Byte>) // a raw byte buffer

  const MAX_SEED_LENGTH: nat := 32
  const MAX_SEED_LENGTH_EXCEEDED: string := "Max seed length exceeded"

  /** The number of bytes UTF-8 spends on one code point. */
  function Utf8Width(c: char): nat {
    if c as int < 0x80 then 1 else if c as int < 0x800 then 2 else if c as int < 0x10000 then 3 else 4
  }

  /** `Buffer.from(s).length`: the length of the UTF-8 encoding of `s`. */
  function Utf8Length(s: string): (n: nat)
    ensures |s| <= n <= 4 * |s|
  {
    if s == [] then 0 else Utf8Width(s[0]) + Utf8Length(s[1..])
  }

  /** An ASCII string encodes to one byte per character. */
  lemma {:induction false} AsciiUtf8Length(s: string)
    requires forall i :: 0 <= i < |s| ==> s[i] as int < 0x80
    ensures Utf8Length(s) == |s|
  {
    if s != [] {
      AsciiUtf8Length(s[1..]);
    }
  }

  /** The byte length of a seed buffer. */
  function SeedLength(seed: Seed): nat {
    match seed
    case Text(t) => Utf8Length(t)
    case KeyBytes(_) => 32
    case Bytes(b) => |b|
  }

  predicate SeedsFit(seeds: seq<Seed>) {
    forall i :: 0 <= i < |seeds| ==> SeedLength(seeds[i]) <= MAX_SEED_LENGTH
  }

  /**
   * `PublicKey.findProgramAddressSync(seeds, program)`: throws when any seed
   * is longer than 32 bytes, and otherwise yields the derived address.
   */
  function FindProgramAddress(program: Address, seeds: seq<Seed>): (r: Result<Address>)
    ensures r.Ok? <==> SeedsFit(seeds)
    ensures r.Ok? ==> r.value == Derived(program, seeds)
    ensures r.Err? ==> r.error == MAX_SEED_LENGTH_EXCEEDED
  {
    if SeedsFit(seeds) then Ok(Derived(program, seeds)) else Err(MAX_SEED_LENGTH_EXCEEDED)
  }

  function Pow256(k: nat): (p: nat)
    ensures p >= 1
  {
    if k == 0 then 1 else 256 * Pow256(k - 1)
  }

  /** The `k` low-order bytes of `n`, least significant first. */
  function LeBytes(n: nat, k: nat): (s: seq<Byte>)
    ensures |s| == k
  {
    if k == 0 then [] else [n % 256] + LeBytes(n / 256, k - 1)
  }

  /** The number whose little-endian bytes are `s`. */
  function FromLe(s: seq<Byte>): nat {
    if s == [] then 0 else s[0] + 256 * FromLe(s[1..])
  }

  lemma {:induction false} FromLeBytes(n: nat, k: nat)
    requires n < Pow256(k)
    ensures FromLe(LeBytes(n, k)) == n
  {
    if k > 0 {
      assert n / 256 < Pow256(k - 1);
      FromLeBytes(n / 256, k - 1);
      assert LeBytes(n, k)[1..] == LeBytes(n / 256, k - 1);
    }
  }

  /** 2^53: bn.js builds a `BN` from a JavaScript number only below this bound. */
  const SAFE_NUMBER_BOUND: nat := 0x20_0000_0000_0000
  /** `new BN(n)` accepts a number whose magnitude is below 2^53. */
  predicate SafeNumber(n: int) {
    -(SAFE_NUMBER_BOUND as int) < n < SAFE_NUMBER_BOUND
  }

  /** The message of bn.js's failed assertion in its number constructor. */
  const BN_ASSERTION_FAILED: string := "Assertion failed"
  const ARRAY_TOO_LONG: string := "byte array longer than desired length"

  /** `bn.toArrayLike(Buffer, 'le', k)`: k little-endian bytes, or a throw when the value needs more. */
  function ToArrayLike(n: nat, k: nat): (r: Result<seq<Byte>>)
    ensures r.Ok? <==> n < Pow256(k)
    ensures r.Ok? ==> |r.value| == k && FromLe(r.value) == n
    ensures r.Err? ==> r.error == ARRAY_TOO_LONG
  {
    if n < Pow256(k) then
      FromLeBytes(n, k);
      Ok(LeBytes(n, k))
    else
      Err(ARRAY_TOO_LONG)
  }

  /**
   * The epoch seed: `new anchor.BN(epoch).toArrayLike(Buffer, 'le', 8)`.
   * The constructor asserts that the number is below 2^53 and throws
   * otherwise, so the eight-byte bound of `toArrayLike` is never reached.
   */
  function EpochSeed(epoch: nat): (r: Result<seq<Byte>>)
    ensures r.Ok? <==> epoch < SAFE_NUMBER_BOUND
    ensures r.Ok? ==> |r.value| == 8 && FromLe(r.value) == epoch
    ensures r.Err? ==> r.error == BN_ASSERTION_FAILED
  {
    if epoch < SAFE_NUMBER_BOUND then
      assert Pow256(8) == 0x1_0000_0000_0000_0000;
      ToArrayLike(epoch, 8)
    else
      Err(BN_ASSERTION_FAILED)
  }

  /** Different epochs give different seeds, hence different derived addresses. */
  lemma EpochSeedInjective(e1: nat, e2: nat)
    requires EpochSeed(e1).Ok? && EpochSeed(e2).Ok?
    requires EpochSeed(e1) == EpochSeed(e2)
    ensures e1 == e2
  {
  }
}

=== FILE: oauth_callback.dfy ===
/**
 * The OAuth callback page that runs in the popup: it checks the query the
 * provider redirected with, verifies the CSRF state against the one stored
 * when the flow began, exchanges the code for a token through the backend,
 * fetches the profile, clears the stored state and verifier, and posts one
 * message to the window that opened it.
 */
module OAuthCallback {
  import opened Wrappers
  import opened Web
  import Twitter
  import GitHub

  datatype PageStatus = Loading | Success | Failed

  /** `code`, `state` and `error` of the callback URL's query; `None` for a parameter that is absent. */
  datatype CallbackQuery = CallbackQuery(code: Option<string>, state: Option<string>, error: Option<string>)

  /** The backend's configured URL and its answers to the requests a callback may send. */
  datatype Backend = Backend(
    apiBaseUrl: string,
    twitterToken: HttpResponse<TokenBody>,
    twitterUser: HttpResponse<Twitter.TwitterUserBody>,
    githubToken: HttpResponse<TokenBody>,
    githubUser: HttpResponse<GitHub.GitHubUserBody>)

  /** The requests of one callback, in order, and what they yielded. */
  datatype Flow<T> = Flow(sent: seq<Request>, result: Result<T>)

  /** JavaScript truthiness of a string that may be `null`: absent and empty are false. */
  predicate Truthy(s: Option<string>) {
    s.Some? && s.value != ""
  }

  function StateKey(p: Provider): string {
    if p == Twitter then Twitter.STATE_KEY else GitHub.STATE_KEY
  }

  function VerifierKey(p: Provider): string {
    if p == Twitter then Twitter.VERIFIER_KEY else GitHub.VERIFIER_KEY
  }

  const NO_CODE: string := "No authorization code received"
  const INVALID_STATE: string := "Invalid OAuth state"
  const MISSING_VERIFIER: string := "Missing code verifier"
  const GITHUB_EXCHANGE_FAILED: string := "Failed to exchange GitHub code for token. Backend endpoint required."

  /** The redirect URI the callback sends with the code: the literal `${origin}/oauth/callback/twitter`. */
  function TwitterRedirect(origin: string): (uri: string)
    ensures uri == CallbackUri(origin, Twitter)
  {
    origin + "/oauth/callback/twitter"
  }

  /**
   * The token exchange as the callback writes it: three arguments to a
   * four-parameter function, so every argument lands one parameter early
   * and `codeVerifier` is `undefined`.
   */
  function TwitterExchangeAsWritten(code: string, origin: string, verifier: string, apiBaseUrl: string,
                                    response: HttpResponse<TokenBody>): Outcome<Option<string>>
  {
    Twitter.ExchangeTwitterCode(Some(code), Some(TwitterRedirect(origin)), Some(verifier), None, apiBaseUrl, response)
  }

  /**
   * Whatever the code and verifier, the as-written call sends the redirect
   * URI as the code, the verifier as the redirect URI, and no verifier, so
   * the PKCE exchange it asks for cannot be the one the flow began.
   */
  lemma AsWrittenExchangeSendsRedirectAsCode(code: string, origin: string, verifier: string, apiBaseUrl: string,
                                             response: HttpResponse<TokenBody>)
    requires apiBaseUrl != ""
    ensures var r := TwitterExchangeAsWritten(code, origin, verifier, apiBaseUrl, response);
      && r.sent.Some?
      && r.sent.value.code == Some(CallbackUri(origin, Twitter))
      && r.sent.value.redirectUri == Some(verifier)
      && r.sent.value.codeVerifier.None?
      && (code != CallbackUri(origin, Twitter) ==> r.sent.value.code != Some(code))
  {
  }

  /** The intended call: the client id first, then the code, the redirect URI and the verifier. */
  function TwitterExchange(clientId: string, code: string, origin: string, verifier: string, apiBaseUrl: string,
                           response: HttpResponse<TokenBody>): (r: Outcome<Option<string>>)
    ensures apiBaseUrl != "" ==> r.sent == Some(TokenExchange(apiBaseUrl + "/api/twitter/token", Some(code), Some(CallbackUri(origin, Twitter)), Some(verifier)))
    ensures apiBaseUrl == "" ==> r.sent.None?
    ensures r.result == Twitter.ExchangeTwitterCode(Some(clientId), Some(code), Some(TwitterRedirect(origin)), Some(verifier), apiBaseUrl, response).result
  {
    Twitter.ExchangeTwitterCode(Some(clientId), Some(code), Some(TwitterRedirect(origin)), Some(verifier), apiBaseUrl, response)
  }

  /** The redirect URI the GitHub handler sends: the literal `${origin}/oauth/callback/github`. */
  function GitHubRedirect(origin: string): (uri: string)
    ensures uri == CallbackUri(origin, GitHub)
  {
    origin + "/oauth/callback/github"
  }

  function SentList(r: Option<Request>): seq<Request> {
    if r.Some? then [r.value] else []
  }

  /**
   * `handleTwitterCallback` after its two checks: exchange the code, then
   * fetch the profile with the token. The exchange is the corrected
   * four-argument call `TwitterExchange`, not the three-argument call the
   * page makes (`TwitterExchangeAsWritten`), which never sends the verifier.
   */
  function TwitterFlow(clientId: string, code: string, origin: string, verifier: string, backend: Backend): (f: Flow<Option<int>>)
    ensures |f.sent| <= 2
    ensures f.result.Ok? ==> (
      && |f.sent| == 2
      && f.sent[0] == TokenExchange(backend.apiBaseUrl + "/api/twitter/token", Some(code), Some(CallbackUri(origin, Twitter)), Some(verifier))
      && backend.twitterToken.json.Some?
      && f.sent[1] == ProfileFetch(Twitter.UserEndpoint(backend.apiBaseUrl), backend.twitterToken.json.value.accessToken))
  {
    var exchange := TwitterExchange(clientId, code, origin, verifier, backend.apiBaseUrl, backend.twitterToken);
    if exchange.result.Err? then Flow(SentList(exchange.sent), Err(exchange.result.error))
    else
      var user := Twitter.FetchTwitterUser(exchange.result.value, backend.apiBaseUrl, backend.twitterUser);
      Flow(SentList(exchange.sent) + [user.sent.value], user.result)
  }

  function GitHubTokenEndpoint(apiBaseUrl: string): string {
    if apiBaseUrl != "" then apiBaseUrl + "/api/github/token" else "/api/github/token"
  }

  /** `handleGitHubCallback` after its two checks: the inline token exchange, then the profile fetch. */
  function GitHubFlow(code: string, origin: string, verifier: string, backend: Backend): (f: Flow<GitHub.GitHubProfile>)
    ensures 1 <= |f.sent| <= 2
    ensures f.sent[0] == TokenExchange(GitHubTokenEndpoint(backend.apiBaseUrl), Some(code), Some(CallbackUri(origin, GitHub)), Some(verifier))
    ensures f.result.Ok? ==> (
      && |f.sent| == 2
      && backend.githubToken.json.Some?
      && f.sent[1] == ProfileFetch(GitHub.UserEndpoint(backend.apiBaseUrl), backend.githubToken.json.value.accessToken))
  {
    var request := TokenExchange(GitHubTokenEndpoint(backend.apiBaseUrl), Some(code), Some(GitHubRedirect(origin)), Some(verifier));
    if !backend.githubToken.ok then Flow([request], Err(GITHUB_EXCHANGE_FAILED))
    else if backend.githubToken.json.None? then Flow([request], Err(INVALID_JSON))
    else
      var user := GitHub.FetchGitHubUser(backend.githubToken.json.value.accessToken, backend.apiBaseUrl, backend.githubUser);
      Flow([request, user.sent.value], user.result)
  }

  /**
   * What one callback does: the error it ends with (`None` on success), the
   * requests it sends, whether it clears the stored state and verifier, and
   * the messages it posts to its opener.
   */
  datatype Verdict = Verdict(error: Option<string>, sent: seq<Request>, clearsStorage: bool, posts: seq<MessageData>)

  /** `window.opener?.postMessage(m, …)`: one message with an opener, none (and `m` unevaluated) without. */
  function Posted(hasOpener: bool, m: MessageData): seq<MessageData> {
    if hasOpener then [m] else []
  }

  function Fail(e: string, hasOpener: bool): Verdict {
    Verdict(Some(e), [], false, Posted(hasOpener, OAuthError(e)))
  }

  /**
   * The callback as a function of the query, the stored state and verifier
   * (`saved`, `verifier`), whether the popup has an opener, and the
   * backend's answers. The success message's `toISOString()` is an argument
   * of the optional call, so an invalid profile date throws only when there
   * is an opener to post to.
   */
  function Callback(provider: Provider, query: CallbackQuery, saved: Option<string>, verifier: Option<string>,
                    clientId: string, origin: string, hasOpener: bool, backend: Backend): (v: Verdict)
    ensures |v.posts| == (if hasOpener then 1 else 0)
    ensures v.error.Some? && hasOpener ==> v.posts == [OAuthError(v.error.value)]
    ensures v.error.None? && hasOpener ==> v.posts[0].TwitterSuccess? == (provider == Twitter) && v.posts[0].GitHubSuccess? == (provider == GitHub)
  {
    if Truthy(query.error) then Fail(query.error.value, hasOpener)
    else if !Truthy(query.code) then Fail(NO_CODE, hasOpener)
    else if query.state != saved then Fail(INVALID_STATE, hasOpener)
    else if !Truthy(verifier) then Fail(MISSING_VERIFIER, hasOpener)
    else if provider == Twitter then
      var f := TwitterFlow(clientId, query.code.value, origin, verifier.value, backend);
      if f.result.Err? then Verdict(Some(f.result.error), f.sent, false, Posted(hasOpener, OAuthError(f.result.error)))
      else if !hasOpener then Verdict(None, f.sent, true, [])
      else if f.result.value.None? then Verdict(Some(INVALID_DATE), f.sent, true, [OAuthError(INVALID_DATE)])
      else Verdict(None, f.sent, true, [TwitterSuccess(f.result.value.value)])
    else
      var f := GitHubFlow(query.code.value, origin, verifier.value, backend);
      if f.result.Err? then Verdict(Some(f.result.error), f.sent, false, Posted(hasOpener, OAuthError(f.result.error)))
      else if !hasOpener then Verdict(None, f.sent, true, [])
      else if f.result.value.createdAt.None? then Verdict(Some(INVALID_DATE), f.sent, true, [OAuthError(INVALID_DATE)])
      else Verdict(None, f.sent, true, [GitHubSuccess(f.result.value.createdAt.value, f.result.value.publicRepos)])
  }

  /**
   * No request leaves the page unless the provider reported no error, a
   * code arrived, the returned state equals the stored one and a verifier
   * is stored.
   */
  lemma NoRequestBeforeChecks(provider: Provider, query: CallbackQuery, saved: Option<string>, verifier: Option<string>,
                              clientId: string, origin: string, hasOpener: bool, backend: Backend)
    ensures var v := Callback(provider, query, saved, verifier, clientId, origin, hasOpener, backend);
      v.sent != [] ==> !Truthy(query.error) && Truthy(query.code) && query.state == saved && Truthy(verifier)
  {
  }

  /**
   * The stored state and verifier are removed only once both requests have
   * been answered successfully; the callback then succeeds unless there is
   * an opener and the profile's creation date is invalid.
   */
  lemma ClearsOnlyAfterProfile(provider: Provider, query: CallbackQuery, saved: Option<string>, verifier: Option<string>,
                               clientId: string, origin: string, hasOpener: bool, backend: Backend)
    ensures var v := Callback(provider, query, saved, verifier, clientId, origin, hasOpener, backend);
      && (v.clearsStorage ==> |v.sent| == 2 && v.sent[1].ProfileFetch? && (v.error.None? || (hasOpener && v.error == Some(INVALID_DATE))))
      && (v.error.None? ==> v.clearsStorage)
      && (!hasOpener ==> (v.error.None? <==> v.clearsStorage))
  {
  }

  /**
   * The opener changes only what is posted and whether the date is read:
   * without one, the callback sends the same requests and clears the same
   * storage, posts nothing, and succeeds where the opener's invalid-date
   * failure would have been.
   */
  lemma OpenerOnlyDecidesDate(provider: Provider, query: CallbackQuery, saved: Option<string>, verifier: Option<string>,
                              clientId: string, origin: string, backend: Backend)
    ensures var w := Callback(provider, query, saved, verifier, clientId, origin, true, backend);
      var v := Callback(provider, query, saved, verifier, clientId, origin, false, backend);
      && v.sent == w.sent && v.clearsStorage == w.clearsStorage && v.posts == []
      && v.error == (if w.clearsStorage then None else w.error)
  {
  }

  /**
   * A successful callback sent exactly two requests: the code, the callback
   * URI the authorization URL named and the stored verifier to the token
   * endpoint, then the token it got back as the bearer of the profile
   * request. The message it posts carries only the profile's fields.
   */
  lemma SuccessSentPkceExchange(provider: Provider, query: CallbackQuery, saved: Option<string>, verifier: Option<string>,
                                clientId: string, origin: string, hasOpener: bool, backend: Backend)
    ensures var v := Callback(provider, query, saved, verifier, clientId, origin, hasOpener, backend);
      v.error.None? ==>
        && Truthy(query.code) && Truthy(verifier) && query.state == saved
        && |v.sent| == 2
        && v.sent[0].TokenExchange?
        && v.sent[0].code == query.code
        && v.sent[0].redirectUri == Some(CallbackUri(origin, provider))
        && v.sent[0].codeVerifier == verifier
        && v.sent[1].ProfileFetch?
        && v.sent[1].bearer == (if provider == Twitter then backend.twitterToken else backend.githubToken).json.value.accessToken
  {
  }

  /** A state that differs from the stored one is refused without any request. */
  lemma StateMismatchRefused(provider: Provider, query: CallbackQuery, saved: Option<string>, verifier: Option<string>,
                             clientId: string, origin: string, hasOpener: bool, backend: Backend)
    requires !Truthy(query.error) && Truthy(query.code) && query.state != saved
    ensures Callback(provider, query, saved, verifier, clientId, origin, hasOpener, backend) == Fail(INVALID_STATE, hasOpener)
  {
  }

  /** The popup page and what it has done so far. */
  class CallbackPage {
    const provider: Provider
    const origin: string
    const hasOpener: bool
    const twitterClientId: string
    const storage: LocalStorage
    var status: PageStatus
    var error: Option<string>
    /** The requests the page has sent, in order. */
    var requests: seq<Request>
    /** The messages the page has posted to its opener, in order. */
    var posted: seq<MessageData>

    constructor(provider: Provider, origin: string, hasOpener: bool, twitterClientId: string, storage: LocalStorage)
      ensures this.provider == provider && this.origin == origin && this.hasOpener == hasOpener
      ensures this.twitterClientId == twitterClientId && this.storage == storage
      ensures status == Loading && error == None && requests == [] && posted == []
    {
      this.provider := provider;
      this.origin := origin;
      this.hasOpener := hasOpener;
      this.twitterClientId := twitterClientId;
      this.storage := storage;
      status := Loading;
      error := None;
      requests := [];
      posted := [];
    }

    /** `window.opener?.postMessage(data, window.location.origin)` */
    method PostToOpener(data: MessageData)
      modifies this
      ensures posted == old(posted) + (if hasOpener then [data] else [])
      ensures status == old(status) && error == old(error) && requests == old(requests)
    {
      if hasOpener {
        posted := posted + [data];
      }
    }

    method HandleTwitterCallback(code: string, state: Option<string>, backend: Backend) returns (thrown: Option<string>)
      requires provider == Twitter && code != ""
      modifies this, storage
      ensures var v := Callback(Twitter, CallbackQuery(Some(code), state, None), old(storage.GetItem(Twitter.STATE_KEY)),
                                old(storage.GetItem(Twitter.VERIFIER_KEY)), twitterClientId, origin, hasOpener, backend);
        && thrown == v.error
        && requests == old(requests) + v.sent
        && posted == old(posted) + (if v.error.None? then v.posts else [])
        && storage.items == (if v.clearsStorage then old(storage.items) - {Twitter.STATE_KEY, Twitter.VERIFIER_KEY} else old(storage.items))
      ensures status == old(status) && error == old(error)
    {
      var savedState := storage.GetItem(Twitter.STATE_KEY);
      if state != savedState {
        return Some(INVALID_STATE);
      }
      var codeVerifier := storage.GetItem(Twitter.VERIFIER_KEY);
      if !Truthy(codeVerifier) {
        return Some(MISSING_VERIFIER);
      }
      var exchange := TwitterExchange(twitterClientId, code, origin, codeVerifier.value, backend.apiBaseUrl, backend.twitterToken);
      requests := requests + SentList(exchange.sent);
      if exchange.result.Err? {
        return Some(exchange.result.error);
      }
      var user := Twitter.FetchTwitterUser(exchange.result.value, backend.apiBaseUrl, backend.twitterUser);
      requests := requests + [user.sent.value];
      if user.result.Err? {
        return Some(user.result.error);
      }
      storage.RemoveItem(Twitter.STATE_KEY);
      storage.RemoveItem(Twitter.VERIFIER_KEY);
      assert storage.items == old(storage.items) - {Twitter.STATE_KEY, Twitter.VERIFIER_KEY};
      if hasOpener {
        if user.result.value.None? {
          return Some(INVALID_DATE);
        }
        PostToOpener(TwitterSuccess(user.result.value.value));
      }
      return None;
    }

    method HandleGitHubCallback(code: string, state: Option<string>, backend: Backend) returns (thrown: Option<string>)
      requires provider == GitHub && code != ""
      modifies this, storage
      ensures var v := Callback(GitHub, CallbackQuery(Some(code), state, None), old(storage.GetItem(GitHub.STATE_KEY)),
                                old(storage.GetItem(GitHub.VERIFIER_KEY)), twitterClientId, origin, hasOpener, backend);
        && thrown == v.error
        && requests == old(requests) + v.sent
        && posted == old(posted) + (if v.error.None? then v.posts else [])
        && storage.items == (if v.clearsStorage then old(storage.items) - {GitHub.STATE_KEY, GitHub.VERIFIER_KEY} else old(storage.items))
      ensures status == old(status) && error == old(error)
    {
      var savedState := storage.GetItem(GitHub.STATE_KEY);
      if state != savedState {
        return Some(INVALID_STATE);
      }
      var codeVerifier := storage.GetItem(GitHub.VERIFIER_KEY);
      if !Truthy(codeVerifier) {
        return Some(MISSING_VERIFIER);
      }
      var tokenRequest := TokenExchange(GitHubTokenEndpoint(backend.apiBaseUrl), Some(code),
                                        Some(GitHubRedirect(origin)), Some(codeVerifier.value));
      requests := requests + [tokenRequest];
      if !backend.githubToken.ok {
        return Some(GITHUB_EXCHANGE_FAILED);
      }
      if backend.githubToken.json.None? {
        return Some(INVALID_JSON);
      }
      var user := GitHub.FetchGitHubUser(backend.githubToken.json.value.accessToken, backend.apiBaseUrl, backend.githubUser);
      requests := requests + [user.sent.value];
      if user.result.Err? {
        return Some(user.result.error);
      }
      storage.RemoveItem(GitHub.STATE_KEY);
      storage.RemoveItem(GitHub.VERIFIER_KEY);
      assert storage.items == old(storage.items) - {GitHub.STATE_KEY, GitHub.VERIFIER_KEY};
      if hasOpener {
        if user.result.value.createdAt.None? {
          return Some(INVALID_DATE);
        }
        PostToOpener(GitHubSuccess(user.result.value.createdAt.value, user.result.value.publicRepos));
      }
      return None;
    }

    /**
     * `handleCallback`: the page ends in success or failure, sends exactly
     * the requests `Callback` lists, posts exactly the messages `Callback`
     * lists (one when it has an opener) and clears the stored state and
     * verifier exactly when `Callback` does.
     */
    method HandleCallback(query: CallbackQuery, backend: Backend)
      modifies this, storage
      ensures var v := Callback(provider, query, old(storage.GetItem(StateKey(provider))),
                                old(storage.GetItem(VerifierKey(provider))), twitterClientId, origin, hasOpener, backend);
        && status == (if v.error.None? then Success else Failed)
        && error == (if v.error.Some? then v.error else old(error))
        && requests == old(requests) + v.sent
        && posted == old(posted) + v.posts
        && storage.items == (if v.clearsStorage then old(storage.items) - {StateKey(provider), VerifierKey(provider)} else old(storage.items))
    {
      if Truthy(query.error) {
        error := query.error;
        status := Failed;
        PostToOpener(OAuthError(query.error.value));
        return;
      }
      if !Truthy(query.code) {
        error := Some(NO_CODE);
        status := Failed;
        PostToOpener(OAuthError(NO_CODE));
        return;
      }
      var thrown;
      if provider == Twitter {
        thrown := HandleTwitterCallback(query.code.value, query.state, backend);
      } else {
        thrown := HandleGitHubCallback(query.code.value, query.state, backend);
      }
      if thrown.None? {
        status := Success;
      } else {
        error := thrown;
        status := Failed;
        PostToOpener(OAuthError(thrown.value));
      }
    }
  }
}

=== FILE: pkce.dfy ===
/**
 * The string helpers behind the OAuth state token and the PKCE code
 * verifier and challenge (RFC 7636): random strings drawn from an alphabet,
 * and the unpadded base64url transform of a digest (section 4.2 and
 * Appendix A of RFC 7636, built on base64 of section 4 of RFC 4648).
 */
module Pkce {
  import opened Ledger

  /** The unreserved characters of section 4.1 of RFC 7636: ALPHA / DIGIT / "-" / "." / "_" / "~". */
  predicate IsUnreserved(c: char) {
    ('A' <= c <= 'Z') || ('a' <= c <= 'z') || ('0' <= c <= '9') || c == '-' || c == '.' || c == '_' || c == '~'
  }

  /** A code verifier as section 4.1 of RFC 7636 bounds it: 43 to 128 unreserved characters. */
  predicate IsCodeVerifier(s: string) {
    43 <= |s| <= 128 && forall i :: 0 <= i < |s| ==> IsUnreserved(s[i])
  }

  /** The string whose character `i` is picked from `chars` by the random byte `random(i)`. */
  function RandomChoice(chars: string, length: nat, random: nat -> Byte): string
    requires |chars| > 0
  {
    seq(length, i requires 0 <= i < length => chars[random(i) % |chars|])
  }

  /**
   * The accumulating loop of `generateRandomString`: character `i` is
   * `chars[randomValues[i] % chars.length]`, where `random(i)` is the `i`-th
   * byte `crypto.getRandomValues` produced.
   */
  method RandomString(chars: string, length: nat, random: nat -> Byte) returns (result: string)
    requires |chars| > 0
    ensures |result| == length
    ensures forall i :: 0 <= i < length ==> result[i] == chars[random(i) % |chars|]
    ensures result == RandomChoice(chars, length, random)
  {
    result := "";
    var i := 0;
    while i < length
      invariant 0 <= i <= length
      invariant |result| == i
      invariant forall k :: 0 <= k < i ==> result[k] == chars[random(k) % |chars|]
    {
      result := result + [chars[random(i) % |chars|]];
      i := i + 1;
    }
  }

  /** The `n` consecutive characters starting at `first`. */
  function CharRange(first: char, n: nat): (r: string)
    requires first as int + n <= 0xD800
    ensures |r| == n
    ensures forall i :: 0 <= i < n ==> r[i] as int == first as int + i
  {
    seq(n, i requires 0 <= i < n => (first as int + i) as char)
  }

  /**
   * The 62 letters and digits in the order the source's alphabets list them
   * ("ABC...Zabc...z0123456789"); both base64 alphabets of RFC 4648 give them
   * the values 0 to 61.
   */
  const ALNUM: string := CharRange('A', 26) + CharRange('a', 26) + CharRange('0', 10)
  const STD_ALPHABET: string := ALNUM + "+/"
  const URL_ALPHABET: string := ALNUM + "-_"

  lemma AlnumAt(g: int)
    requires 0 <= g < 62
    ensures |ALNUM| == 62
    ensures g < 26 ==> ALNUM[g] as int == 'A' as int + g
    ensures 26 <= g < 52 ==> ALNUM[g] as int == 'a' as int + (g - 26)
    ensures 52 <= g ==> ALNUM[g] as int == '0' as int + (g - 52)
  {
  }

  lemma AlnumUnreserved(g: int)
    requires 0 <= g < 62
    ensures IsUnreserved(ALNUM[g]) && ALNUM[g] != '+' && ALNUM[g] != '/' && ALNUM[g] != '='
  {
    AlnumAt(g);
  }

  /** Every letter and digit occurs in ALNUM. */
  lemma AlnumComplete(c: char)
    requires ('A' <= c <= 'Z') || ('a' <= c <= 'z') || ('0' <= c <= '9')
    ensures c in ALNUM
  {
    var g := if c <= '9' then c as int - '0' as int + 52 else if c <= 'Z' then c as int - 'A' as int else c as int - 'a' as int + 26;
    AlnumAt(g);
    assert ALNUM[g] == c;
  }

  /** The 6-bit groups of a byte string, three bytes to four groups, a short tail to two or three. */
  function Sextets(b: seq<Byte>): (r: seq<int>)
    ensures |r| == (4 * |b| + 2) / 3
    ensures forall i :: 0 <= i < |r| ==> 0 <= r[i] < 64
  {
    if |b| == 0 then []
    else if |b| == 1 then [b[0] / 4, (b[0] % 4) * 16]
    else if |b| == 2 then [b[0] / 4, (b[0] % 4) * 16 + b[1] / 16, (b[1] % 16) * 4]
    else [b[0] / 4, (b[0] % 4) * 16 + b[1] / 16, (b[1] % 16) * 4 + b[2] / 64, b[2] % 64] + Sextets(b[3..])
  }

  /** The characters an alphabet gives a sequence of 6-bit groups. */
  function Spell(alphabet: string, groups: seq<int>): (s: string)
    requires |alphabet| == 64
    requires forall i :: 0 <= i < |groups| ==> 0 <= groups[i] < 64
    ensures |s| == |groups|
  {
    seq(|groups|, i requires 0 <= i < |groups| => alphabet[groups[i]])
  }

  function Padding(n: nat): string {
    if n % 3 == 1 then "==" else if n % 3 == 2 then "=" else ""
  }

  /** `btoa` of a string whose characters are the given bytes: padded base64, section 4 of RFC 4648. */
  function Base64(b: seq<Byte>): string {
    Spell(STD_ALPHABET, Sextets(b)) + Padding(|b|)
  }

  /** Unpadded base64url (section 5 of RFC 4648, as Appendix A of RFC 7636 uses it). */
  function Base64Url(b: seq<Byte>): (s: string)
    ensures |s| == (4 * |b| + 2) / 3
  {
    Spell(URL_ALPHABET, Sextets(b))
  }

  /** `s.replace(/x/g, y)` */
  function ReplaceAll(s: string, x: char, y: char): (r: string)
    ensures |r| == |s|
    ensures forall i :: 0 <= i < |s| ==> r[i] == if s[i] == x then y else s[i]
  {
    seq(|s|, i requires 0 <= i < |s| => if s[i] == x then y else s[i])
  }

  /** `s.replace(/x/g, '')` */
  function RemoveAll(s: string, x: char): (r: string)
    ensures x !in r
    ensures |r| <= |s|
  {
    if |s| == 0 then "" else (if s[0] == x then "" else [s[0]]) + RemoveAll(s[1..], x)
  }

  lemma {:induction false} RemoveAllAppend(s: string, t: string, x: char)
    ensures RemoveAll(s + t, x) == RemoveAll(s, x) + RemoveAll(t, x)
  {
    if |s| == 0 {
      assert s + t == t;
    } else {
      assert (s + t)[0] == s[0];
      assert (s + t)[1..] == s[1..] + t;
      RemoveAllAppend(s[1..], t, x);
    }
  }

  lemma {:induction false} RemoveAllAbsent(s: string, x: char)
    requires x !in s
    ensures RemoveAll(s, x) == s
  {
    if |s| > 0 {
      RemoveAllAbsent(s[1..], x);
    }
  }

  lemma {:induction false} RemoveAllPadding(n: nat)
    ensures RemoveAll(Padding(n), '=') == ""
  {
    var p := Padding(n);
    if p == "==" {
      assert p[1..] == "=";
      assert RemoveAll(p[1..][1..], '=') == "";
    } else if p == "=" {
      assert RemoveAll(p[1..], '=') == "";
    }
  }

  /**
   * Appendix A of RFC 7636: base64 with '+' and '/' replaced by '-' and '_'
   * and the '=' padding removed is exactly unpadded base64url.
   */
  lemma Base64ToUrl(b: seq<Byte>)
    ensures RemoveAll(ReplaceAll(ReplaceAll(Base64(b), '+', '-'), '/', '_'), '=') == Base64Url(b)
  {
    var groups := Sextets(b);
    var spelled := Spell(STD_ALPHABET, groups);
    var url := Spell(URL_ALPHABET, groups);
    var pad := Padding(|b|);
    var replaced := ReplaceAll(ReplaceAll(spelled + pad, '+', '-'), '/', '_');
    assert replaced == url + pad by {
      forall i | 0 <= i < |replaced|
        ensures replaced[i] == (url + pad)[i]
      {
        if i < |spelled| {
          var g := groups[i];
          assert spelled[i] == STD_ALPHABET[g];
          assert url[i] == URL_ALPHABET[g];
          if g < 62 {
            AlnumUnreserved(g);
          }
        }
      }
    }
    assert '=' !in url by {
      forall i | 0 <= i < |url| ensures url[i] != '=' {
        UrlAlphabetUnreserved(groups[i]);
      }
    }
    RemoveAllAppend(url, pad, '=');
    RemoveAllAbsent(url, '=');
    RemoveAllPadding(|b|);
  }

  /** A base64url string is written in the URL-safe alphabet only, so it has no '+', '/' or '='. */
  lemma Base64UrlAlphabet(b: seq<Byte>)
    ensures forall i :: 0 <= i < |Base64Url(b)| ==> Base64Url(b)[i] in URL_ALPHABET && IsUnreserved(Base64Url(b)[i])
  {
    var groups := Sextets(b);
    forall i | 0 <= i < |groups| ensures IsUnreserved(URL_ALPHABET[groups[i]]) {
      UrlAlphabetUnreserved(groups[i]);
    }
  }

  lemma UrlAlphabetUnreserved(g: int)
    requires 0 <= g < 64
    ensures IsUnreserved(URL_ALPHABET[g]) && URL_ALPHABET[g] != '+' && URL_ALPHABET[g] != '/' && URL_ALPHABET[g] != '='
  {
    if g < 62 {
      AlnumUnreserved(g);
    }
  }

  /**
   * `base64UrlEncode`: the loop builds the binary string one byte per
   * character, `btoa` encodes it, and the three replacements make it URL-safe.
   */
  method Base64UrlEncode(bytes: seq<Byte>) returns (encoded: string)
    ensures encoded == Base64Url(bytes)
    ensures '+' !in encoded && '/' !in encoded && '=' !in encoded
  {
    var binary := "";
    var i := 0;
    while i < |bytes|
      invariant 0 <= i <= |bytes|
      invariant |binary| == i
      invariant forall k :: 0 <= k < i ==> binary[k] as int == bytes[k]
    {
      binary := binary + [bytes[i] as char];
      i := i + 1;
    }
    var codes := seq(|binary|, k requires 0 <= k < |binary| => binary[k] as int);
    assert codes == bytes;
    encoded := RemoveAll(ReplaceAll(ReplaceAll(Base64(codes), '+', '-'), '/', '_'), '=');
    Base64ToUrl(bytes);
    Base64UrlAlphabet(bytes);
    assert forall k :: 0 <= k < |encoded| ==> encoded[k] in URL_ALPHABET;
  }

  /** A SHA-256 digest (32 bytes) encodes to a 43-character challenge, itself a valid verifier-length string. */
  lemma ChallengeLength(digest: seq<Byte>)
    requires |digest| == 32
    ensures |Base64Url(digest)| == 43
    ensures IsCodeVerifier(Base64Url(digest))
  {
    Base64UrlAlphabet(digest);
  }
}

=== FILE: solana.dfy ===
/**
 * Wallet signals from the wallet's transaction signatures. The RPC call is
 * an input: the wallet's full history, newest first, of which the RPC returns
 * at most the requested number of signatures.
 */
module Solana {
  import opened Wrappers
  import opened Types
  import AgeFormat

  const SIGNATURE_LIMIT: nat := 1000

  /** One confirmed signature; `blockTime` is in seconds and may be missing. */
  datatype SignatureInfo = SignatureInfo(blockTime: Option<int>)

  /** The wallet fields `fetchSolanaSignals` returns; both keys are always present. */
  datatype WalletSignals = WalletSignals(walletCreatedAt: int, txCount: int) {
    function AsPatch(): RawSignalsPatch {
      RawSignalsPatch(Put(Some(walletCreatedAt)), Put(Some(txCount)), Keep, Keep, Keep)
    }
  }

  /** `getSignaturesForAddress(publicKey, { limit })`: the newest `limit` signatures. */
  function GetSignaturesForAddress(history: seq<SignatureInfo>, limit: nat): (r: seq<SignatureInfo>)
    ensures |r| <= limit && r <= history
    ensures |history| <= limit ==> r == history
  {
    if |history| <= limit then history else history[..limit]
  }

  /** The creation time read off the oldest returned signature; a missing or zero block time means now. */
  function CreatedAtOf(oldest: SignatureInfo, now: int): int {
    match oldest.blockTime
    case Some(t) => if t != 0 then t * 1000 else now
    case None => now
  }

  /** `fetchSolanaSignals` after the RPC call, `now` in milliseconds. */
  function FetchSolanaSignals(history: seq<SignatureInfo>, now: int): (r: WalletSignals)
    ensures r.txCount == |GetSignaturesForAddress(history, SIGNATURE_LIMIT)|
    ensures 0 <= r.txCount <= SIGNATURE_LIMIT
    ensures history == [] ==> r == WalletSignals(now, 0)
  {
    var signatures := GetSignaturesForAddress(history, SIGNATURE_LIMIT);
    if |signatures| == 0 then
      WalletSignals(now, 0)
    else
      WalletSignals(CreatedAtOf(signatures[|signatures| - 1], now), |signatures|)
  }

  /**
   * A wallet with at most the limit of signatures is dated by its oldest one
   * and counted exactly; a busier wallet is counted as 1000 and dated by its
   * 1000th newest signature, so its age and count are both understated.
   */
  lemma WalletSignalsFromOldestReturned(history: seq<SignatureInfo>, now: int)
    requires history != []
    ensures |history| <= SIGNATURE_LIMIT ==>
      FetchSolanaSignals(history, now) == WalletSignals(CreatedAtOf(history[|history| - 1], now), |history|)
    ensures |history| > SIGNATURE_LIMIT ==>
      FetchSolanaSignals(history, now) == WalletSignals(CreatedAtOf(history[SIGNATURE_LIMIT - 1], now), SIGNATURE_LIMIT)
  {
  }

  /** When no block time lies in the future, the wallet's creation time is never after now. */
  lemma WalletCreatedNotInFuture(history: seq<SignatureInfo>, now: int)
    requires forall i :: 0 <= i < |history| && history[i].blockTime.Some? ==> history[i].blockTime.value * 1000 <= now
    ensures FetchSolanaSignals(history, now).walletCreatedAt <= now
  {
    var signatures := GetSignaturesForAddress(history, SIGNATURE_LIMIT);
    if |signatures| > 0 {
      assert signatures[|signatures| - 1] == history[|signatures| - 1];
    }
  }

  /** `getWalletAgeInDays` */
  function GetWalletAgeInDays(createdAt: int, now: int): int {
    AgeFormat.DaysSince(createdAt, now)
  }

  /** `formatWalletAge` */
  function FormatWalletAge(createdAt: int, now: int): string {
    AgeFormat.FormatAge(GetWalletAgeInDays(createdAt, now))
  }
}

=== FILE: strings.dfy ===
/**
 * Decimal rendering of integers, as JavaScript's template literals print an
 * integral number (`${n}`), and the decimal parser that inverts it.
 */
module Strings {

  predicate IsDigit(c: char) {
    '0' <= c <= '9'
  }

  predicate AllDigits(s: string) {
    forall i :: 0 <= i < |s| ==> IsDigit(s[i])
  }

  function DigitChar(d: nat): (c: char)
    requires d < 10
    ensures IsDigit(c)
  {
    (('0' as int) + d) as char
  }

  function DigitValue(c: char): (d: nat)
    requires IsDigit(c)
    ensures d < 10
  {
    (c as int) - ('0' as int)
  }

  /** The decimal digits of `n`, most significant first, without leading zeros. */
  function NatToString(n: nat): (s: string)
    ensures 1 <= |s| && AllDigits(s)
    ensures s[0] == '0' ==> n == 0
    decreases n
  {
    if n < 10 then [DigitChar(n)] else NatToString(n / 10) + [DigitChar(n % 10)]
  }

  /** `${i}` for an integral number `i`: a minus sign before the digits of a negative one. */
  function IntToString(i: int): (s: string)
    ensures 1 <= |s|
    ensures i >= 0 ==> AllDigits(s)
    ensures i < 0 ==> s[0] == '-' && AllDigits(s[1..])
  {
    if i < 0 then "-" + NatToString(-i) else NatToString(i)
  }

  /** Reads a string of decimal digits back as a number. */
  function ParseNat(s: string): nat
    requires AllDigits(s)
  {
    if |s| == 0 then 0 else 10 * ParseNat(s[..|s| - 1]) + DigitValue(s[|s| - 1])
  }

  /** Printing a number and reading it back gives the number: the rendering loses nothing. */
  lemma {:induction false} ParseNatToString(n: nat)
    ensures ParseNat(NatToString(n)) == n
  {
    var s := NatToString(n);
    if n >= 10 {
      ParseNatToString(n / 10);
      assert s[..|s| - 1] == NatToString(n / 10);
    }
  }

  /** Distinct numbers print differently. */
  lemma NatToStringInjective(m: nat, n: nat)
    requires NatToString(m) == NatToString(n)
    ensures m == n
  {
    ParseNatToString(m);
    ParseNatToString(n);
  }
}

=== FILE: twitter.dfy ===
/**
 * The Twitter (X) side of the OAuth 2.0 flow: the PKCE authorization URL,
 * the token exchange and profile fetch through the backend, and the age
 * formatter.
 */
module Twitter {
  import opened Wrappers
  import opened Ledger
  import opened Pkce
  import opened Web
  import AgeFormat

  const STATE_KEY: string := "twitter_oauth_state"
  const VERIFIER_KEY: string := "twitter_code_verifier"
  const STATE_LENGTH: nat := 32
  const VERIFIER_LENGTH: nat := 128
  const AUTHORIZE_URL: string := "https://x.com/i/oauth2/authorize"

  /** The alphabet of the random strings: letters, digits and "-._~" (66 characters). */
  const CHARS: string := ALNUM + "-._~"

  /** The alphabet is exactly the unreserved set of section 4.1 of RFC 7636. */
  lemma CharsAreUnreserved(c: char)
    ensures c in CHARS <==> IsUnreserved(c)
  {
    AlnumAt(0);
    if c in CHARS {
      var i :| 0 <= i < |CHARS| && CHARS[i] == c;
      if i < 62 {
        AlnumUnreserved(i);
      } else {
        assert CHARS[i] == "-._~"[i - 62];
      }
    }
    if IsUnreserved(c) {
      if ('A' <= c <= 'Z') || ('a' <= c <= 'z') || ('0' <= c <= '9') {
        AlnumComplete(c);
      } else if c == '-' {
        assert CHARS[62] == c;
      } else if c == '.' {
        assert CHARS[63] == c;
      } else if c == '_' {
        assert CHARS[64] == c;
      } else {
        assert CHARS[65] == c;
      }
    }
  }

  /** `generateRandomString`: `length` characters, each picked from the alphabet by one random byte. */
  method GenerateRandomString(length: nat, random: nat -> Byte) returns (s: string)
    ensures |s| == length
    ensures forall i :: 0 <= i < length ==> s[i] == CHARS[random(i) % |CHARS|]
    ensures forall i :: 0 <= i < length ==> IsUnreserved(s[i])
  {
    AlnumAt(0);
    s := RandomString(CHARS, length, random);
    forall i | 0 <= i < length
      ensures IsUnreserved(s[i])
    {
      CharsAreUnreserved(s[i]);
    }
  }

  /** The code verifier `generateRandomString(128)` draws from the random bytes. */
  function CodeVerifier(random: nat -> Byte): string {
    AlnumAt(0);
    RandomChoice(CHARS, VERIFIER_LENGTH, random)
  }

  /**
   * `getTwitterAuthUrl`: stores a fresh 32-character state and a fresh
   * 128-character code verifier, and returns the authorization URL that
   * carries the same state and the S256 challenge of the same verifier.
   * `digest` is SHA-256 of the verifier's UTF-8 bytes, or the error the
   * digest rejects with (no `crypto.subtle` outside a secure context); the
   * state is stored before the digest, so a failed digest leaves it behind.
   */
  method GetTwitterAuthUrl(storage: LocalStorage, clientId: string, origin: string,
                           stateRandom: nat -> Byte, verifierRandom: nat -> Byte,
                           digest: string -> Result<seq<Byte>>) returns (url: Result<AuthUrl>)
    modifies storage
    ensures STATE_KEY in storage.items
    ensures var state := storage.items[STATE_KEY];
      && |state| == STATE_LENGTH
      && forall i :: 0 <= i < STATE_LENGTH ==> state[i] == CHARS[stateRandom(i) % |CHARS|]
    ensures url.Ok? <==> digest(CodeVerifier(verifierRandom)).Ok?
    ensures url.Err? ==> (
      && url.error == digest(CodeVerifier(verifierRandom)).error
      && storage.items == old(storage.items)[STATE_KEY := storage.items[STATE_KEY]])
    ensures url.Ok? ==> VERIFIER_KEY in storage.items
    ensures url.Ok? ==> storage.items == old(storage.items)[STATE_KEY := storage.items[STATE_KEY]][VERIFIER_KEY := storage.items[VERIFIER_KEY]]
    ensures url.Ok? ==> var verifier := storage.items[VERIFIER_KEY];
      && verifier == CodeVerifier(verifierRandom)
      && |verifier| == VERIFIER_LENGTH
      && IsCodeVerifier(verifier)
      && forall i :: 0 <= i < VERIFIER_LENGTH ==> verifier[i] == CHARS[verifierRandom(i) % |CHARS|]
    ensures url.Ok? ==> url.value == AuthUrl(AUTHORIZE_URL, [
      ("response_type", "code"),
      ("client_id", clientId),
      ("redirect_uri", CallbackUri(origin, Twitter)),
      ("scope", "tweet.read users.read"),
      ("state", storage.items[STATE_KEY]),
      ("code_challenge", Base64Url(digest(storage.items[VERIFIER_KEY]).value)),
      ("code_challenge_method", "S256")])
  {
    var state := GenerateRandomString(STATE_LENGTH, stateRandom);
    storage.SetItem(STATE_KEY, state);
    var codeVerifier := GenerateRandomString(VERIFIER_LENGTH, verifierRandom);
    assert codeVerifier == CodeVerifier(verifierRandom);
    var hashed := digest(codeVerifier);
    if hashed.Err? {
      return Err(hashed.error);
    }
    var codeChallenge := Base64UrlEncode(hashed.value);
    storage.SetItem(VERIFIER_KEY, codeVerifier);
    url := Ok(AuthUrl(AUTHORIZE_URL, [
      ("response_type", "code"),
      ("client_id", clientId),
      ("redirect_uri", CallbackUri(origin, Twitter)),
      ("scope", "tweet.read users.read"),
      ("state", state),
      ("code_challenge", codeChallenge),
      ("code_challenge_method", "S256")]));
  }

  const TOKEN_EXCHANGE_FAILED: string := "Twitter token exchange failed: "

  /**
   * `exchangeTwitterCode(_clientId, code, redirectUri, codeVerifier)`: posts
   * the code, redirect URI and verifier to the backend and returns the
   * access token. An argument the caller leaves out is `None` (and so is
   * dropped from the JSON body). Refuses to send anything when no backend
   * URL is configured.
   */
  function ExchangeTwitterCode(clientId: Option<string>, code: Option<string>, redirectUri: Option<string>,
                               codeVerifier: Option<string>, apiBaseUrl: string,
                               response: HttpResponse<TokenBody>): (r: Outcome<Option<string>>)
    ensures r.sent.None? <==> apiBaseUrl == ""
    ensures r.sent.Some? ==> r.sent.value == TokenExchange(apiBaseUrl + "/api/twitter/token", code, redirectUri, codeVerifier)
    ensures r.result.Ok? <==> apiBaseUrl != "" && response.ok && response.json.Some?
    ensures r.result.Ok? ==> r.result.value == response.json.value.accessToken
    ensures apiBaseUrl == "" ==> r.result == Err("API base URL not configured")
    ensures apiBaseUrl != "" && !response.ok && response.json.Some? ==>
      r.result == Err(TOKEN_EXCHANGE_FAILED + Or(response.json.value.error, response.statusText))
  {
    if apiBaseUrl == "" then
      Outcome(None, Err("API base URL not configured"))
    else
      var request := TokenExchange(apiBaseUrl + "/api/twitter/token", code, redirectUri, codeVerifier);
      if response.json.None? then
        Outcome(Some(request), Err(INVALID_JSON))
      else if !response.ok then
        Outcome(Some(request), Err(TOKEN_EXCHANGE_FAILED + Or(response.json.value.error, response.statusText)))
      else
        Outcome(Some(request), Ok(response.json.value.accessToken))
  }

  /** The profile under `data` of the user endpoint; `createdAt` is `None` when it is not a valid date. */
  datatype TwitterProfile = TwitterProfile(createdAt: Option<int>)

  /** The JSON body of the user endpoint: `error` on failure, `data` on success. */
  datatype TwitterUserBody = TwitterUserBody(error: Option<string>, data: Option<TwitterProfile>)

  const USER_FETCH_FAILED: string := "Twitter user fetch failed: "

  /** The user endpoint: on the backend when one is configured, else on the page's own origin. */
  function UserEndpoint(apiBaseUrl: string): string {
    if apiBaseUrl != "" then apiBaseUrl + "/api/twitter/user" else "/api/twitter/user"
  }

  /**
   * `fetchTwitterUser`: always sends one bearer request; a failed status
   * becomes an error naming the backend's error or the status text (also
   * when the error body is not JSON); a good status yields the profile's
   * creation time, which may be an invalid date.
   */
  function FetchTwitterUser(accessToken: Option<string>, apiBaseUrl: string,
                            response: HttpResponse<TwitterUserBody>): (r: Outcome<Option<int>>)
    ensures r.sent == Some(ProfileFetch(UserEndpoint(apiBaseUrl), accessToken))
    ensures r.result.Ok? <==> response.ok && response.json.Some? && response.json.value.data.Some?
    ensures r.result.Ok? ==> r.result.value == response.json.value.data.value.createdAt
    ensures !response.ok ==> r.result.Err? && |r.result.error| >= |USER_FETCH_FAILED| && r.result.error[..|USER_FETCH_FAILED|] == USER_FETCH_FAILED
    ensures !response.ok && response.json.None? ==> r.result == Err(USER_FETCH_FAILED + response.statusText)
  {
    var request := ProfileFetch(UserEndpoint(apiBaseUrl), accessToken);
    if !response.ok then
      var error := if response.json.Some? then response.json.value.error else Some(response.statusText);
      Outcome(Some(request), Err(USER_FETCH_FAILED + Or(error, response.statusText)))
    else if response.json.None? then
      Outcome(Some(request), Err(INVALID_JSON))
    else if response.json.value.data.None? then
      Outcome(Some(request), Err(MISSING_DATA))
    else
      Outcome(Some(request), Ok(response.json.value.data.value.createdAt))
  }

  /** `formatTwitterAge`: the shared age table on the whole days since creation. */
  function FormatTwitterAge(createdAt: int, now: int): string {
    AgeFormat.FormatAge(AgeFormat.DaysSince(createdAt, now))
  }
}

=== FILE: types.dfy ===
/**
 * The data model of the signal pipeline: raw signals, their buckets, rules,
 * proof outputs and records, and the status of a proof run.
 *
 * Timestamps are integers in milliseconds since the Unix epoch unless a name
 * says seconds. A JavaScript object field that may be missing is an `Option`.
 */
module Types {
  import opened Wrappers
  import opened Ledger

  /** 0: < 30 days, 1: 30-90 days, 2: 90-180 days, 3: 180-365 days, 4: 1-2 years, 5: > 2 years. */
  type AgeBucket = b: int | 0 <= b <= 5

  /** 0: 0, 1: 1-10, 2: 11-50, 3: 51-200, 4: > 200. */
  type CountBucket = b: int | 0 <= b <= 4

  /** The outcome tier of a proof. */
  type Tier = t: int | 0 <= t <= 2

  /** Raw signals as fetched from their sources; each may still be missing. */
  datatype RawSignals = RawSignals(
    walletCreatedAt: Option<int>,
    txCount: Option<int>,
    twitterCreatedAt: Option<int>,
    githubCreatedAt: Option<int>,
    githubPublicRepos: Option<int>)

  const NO_RAW_SIGNALS := RawSignals(None, None, None, None, None)

  /** The five bucketed signals, all present: what is encrypted and evaluated. */
  datatype UserSignals = UserSignals(
    walletAgeBucket: AgeBucket,
    txCountBucket: CountBucket,
    twitterAgeBucket: AgeBucket,
    githubAgeBucket: AgeBucket,
    githubRepoBucket: CountBucket)

  /** `Partial<UserSignals>`: the same five fields, each optional, while collection is in progress. */
  datatype PartialUserSignals = PartialUserSignals(
    walletAgeBucket: Option<AgeBucket>,
    txCountBucket: Option<CountBucket>,
    twitterAgeBucket: Option<AgeBucket>,
    githubAgeBucket: Option<AgeBucket>,
    githubRepoBucket: Option<CountBucket>)

  const NO_SIGNALS := PartialUserSignals(None, None, None, None, None)

  /**
   * One key of an object that is spread into another (`{ ...a, ...b }`): the
   * key is absent from `b` (`Keep`), or present in `b` with a value that may
   * be `undefined` (`Put`). A present key overwrites even when it holds `undefined`.
   */
  datatype Update<T> = Keep | Put(value: Option<T>)

  function Apply<T>(u: Update<T>, current: Option<T>): Option<T> {
    match u
    case Keep => current
    case Put(v) => v
  }

  /** An object of type `Partial<RawSignals>` used as the right operand of a spread. */
  datatype RawSignalsPatch = RawSignalsPatch(
    walletCreatedAt: Update<int>,
    txCount: Update<int>,
    twitterCreatedAt: Update<int>,
    githubCreatedAt: Update<int>,
    githubPublicRepos: Update<int>)

  /** An object of type `Partial<UserSignals>` used as the right operand of a spread. */
  datatype SignalsPatch = SignalsPatch(
    walletAgeBucket: Update<AgeBucket>,
    txCountBucket: Update<CountBucket>,
    twitterAgeBucket: Update<AgeBucket>,
    githubAgeBucket: Update<AgeBucket>,
    githubRepoBucket: Update<CountBucket>)

  /** `{ ...r, ...p }` */
  function MergeRaw(r: RawSignals, p: RawSignalsPatch): RawSignals {
    RawSignals(
      Apply(p.walletCreatedAt, r.walletCreatedAt),
      Apply(p.txCount, r.txCount),
      Apply(p.twitterCreatedAt, r.twitterCreatedAt),
      Apply(p.githubCreatedAt, r.githubCreatedAt),
      Apply(p.githubPublicRepos, r.githubPublicRepos))
  }

  /** `{ ...s, ...p }` */
  function MergeSignals(s: PartialUserSignals, p: SignalsPatch): PartialUserSignals {
    PartialUserSignals(
      Apply(p.walletAgeBucket, s.walletAgeBucket),
      Apply(p.txCountBucket, s.txCountBucket),
      Apply(p.twitterAgeBucket, s.twitterAgeBucket),
      Apply(p.githubAgeBucket, s.githubAgeBucket),
      Apply(p.githubRepoBucket, s.githubRepoBucket))
  }

  /**
   * Spreading: a key the patch carries takes the patch's value (even
   * `undefined`), a key it lacks keeps its value, and spreading the same
   * patch again changes nothing.
   */
  lemma MergeRawSpread(r: RawSignals, p: RawSignalsPatch)
    ensures MergeRaw(MergeRaw(r, p), p) == MergeRaw(r, p)
    ensures p.walletCreatedAt.Put? ==> MergeRaw(r, p).walletCreatedAt == p.walletCreatedAt.value
    ensures p.walletCreatedAt.Keep? ==> MergeRaw(r, p).walletCreatedAt == r.walletCreatedAt
    ensures p.txCount.Put? ==> MergeRaw(r, p).txCount == p.txCount.value
    ensures p.txCount.Keep? ==> MergeRaw(r, p).txCount == r.txCount
    ensures p.twitterCreatedAt.Put? ==> MergeRaw(r, p).twitterCreatedAt == p.twitterCreatedAt.value
    ensures p.twitterCreatedAt.Keep? ==> MergeRaw(r, p).twitterCreatedAt == r.twitterCreatedAt
    ensures p.githubCreatedAt.Put? ==> MergeRaw(r, p).githubCreatedAt == p.githubCreatedAt.value
    ensures p.githubCreatedAt.Keep? ==> MergeRaw(r, p).githubCreatedAt == r.githubCreatedAt
    ensures p.githubPublicRepos.Put? ==> MergeRaw(r, p).githubPublicRepos == p.githubPublicRepos.value
    ensures p.githubPublicRepos.Keep? ==> MergeRaw(r, p).githubPublicRepos == r.githubPublicRepos
  {
  }

  /** A user signal set viewed as a spread operand that carries all five keys. */
  function AsPatch(u: UserSignals): SignalsPatch {
    SignalsPatch(
      Put(Some(u.walletAgeBucket)),
      Put(Some(u.txCountBucket)),
      Put(Some(u.twitterAgeBucket)),
      Put(Some(u.githubAgeBucket)),
      Put(Some(u.githubRepoBucket)))
  }

  /** A rule as its author defines it before registration. */
  datatype RuleDefinition = RuleDefinition(
    ruleId: string,
    walletAgeThreshold: AgeBucket,
    txCountThreshold: CountBucket,
    twitterAgeThreshold: AgeBucket,
    githubAgeThreshold: AgeBucket,
    githubRepoThreshold: CountBucket,
    tier1Min: int,
    tier2Min: int,
    proofValiditySecs: Option<int>)

  /** What the user asks a proof for: a rule and an epoch (a period number, not a timestamp). */
  datatype ProofRequest = ProofRequest(ruleId: string, rulePda: Address, epoch: nat)

  /** The result of one successful proof run. Times are in seconds. */
  datatype ProofOutput = ProofOutput(
    tier: Tier,
    conditionsMet: int,
    epoch: int,
    proofPda: Option<Address>,
    expiresAt: Option<int>,
    generatedAt: Option<int>,
    ruleId: Option<string>)

  /** A proof record as stored on the ledger. Times are in seconds. */
  datatype ProofRecord = ProofRecord(
    owner: Address,
    rule: Address,
    epoch: int,
    tier: Tier,
    conditionsMet: int,
    generatedAt: int,
    expiresAt: int,
    isFinalized: bool)

  datatype VerifyResult = VerifyResult(valid: bool, tier: Tier, expired: bool)

  /** The six states of a proof run as the user interface shows them. */
  datatype ProofStatus = Idle | Collecting | Encrypting | Computing | Completed | Error

  /**
   * The fields of a proof account as the ledger client decodes them;
   * `isFinalized` is missing from accounts written by older program versions.
   */
  datatype ProofAccountData = ProofAccountData(
    owner: Address,
    rule: Address,
    epoch: int,
    tier: Tier,
    conditionsMet: int,
    generatedAt: int,
    expiresAt: int,
    isFinalized: Option<bool>)
}

=== FILE: use_anonn.dfy ===
/**
 * The `useAnonn` React hook: a small state machine over the proof status,
 * the last error, the last proof and the hook's own copies of the raw and
 * bucketed signals, driving one memoized `AnonnUser`.
 *
 * Each callback is a method that runs to its end; a connect, which waits
 * for the popup's message, is split at its `await` into `BeginConnect` and
 * `FinishConnect`. The effect that rebuckets the raw signals runs after
 * every render in which the raw-signal object changed, so a callback that
 * sets the raw signals ends with that effect (`now` is the clock when it
 * runs). Every status set is appended to the ghost `statusLog`.
 */
module UseAnonn {
  import opened Wrappers
  import opened Ledger
  import opened Types
  import opened Bucketing
  import opened Web
  import Solana
  import Developer
  import User
  import Twitter
  import GitHub

  const WALLET_NOT_CONNECTED: string := "Wallet not connected"
  const PROGRAM_NOT_LOADED: string := "Program not loaded. Please ensure the Anonn program is deployed."
  const SIGNALS_NOT_COLLECTED: string := "Not all signals collected"
  const PROOF_RULE_ID: string := "priority_v1"

  /** The error a refused connect shows. */
  function ConnectFailure(p: Provider): string {
    match p
    case Twitter => "Failed to connect Twitter"
    case GitHub => "Failed to connect GitHub"
  }

  class AnonnHook {
    /** The `AnonnUser` the hook memoizes for its connection. */
    const user: User.AnonnUser
    var rawSignals: RawSignals
    var bucketedSignals: PartialUserSignals
    var proofStatus: ProofStatus
    var proofResult: Option<ProofOutput>
    var error: Option<string>
    /** Every status the callbacks have set, in order. */
    ghost var statusLog: seq<ProofStatus>

    /** The first render: empty signals, idle, no result, no error. */
    constructor(user: User.AnonnUser)
      ensures this.user == user
      ensures rawSignals == NO_RAW_SIGNALS && bucketedSignals == NO_SIGNALS
      ensures proofStatus == Idle && proofResult.None? && error.None? && statusLog == []
    {
      this.user := user;
      rawSignals := NO_RAW_SIGNALS;
      bucketedSignals := NO_SIGNALS;
      proofStatus := Idle;
      proofResult := None;
      error := None;
      statusLog := [];
    }

    /** `hasAllSignals`: all five buckets of the hook's copy are defined. */
    predicate HasAllSignals()
      reads this
    {
      && bucketedSignals.walletAgeBucket.Some?
      && bucketedSignals.txCountBucket.Some?
      && bucketedSignals.twitterAgeBucket.Some?
      && bucketedSignals.githubAgeBucket.Some?
      && bucketedSignals.githubRepoBucket.Some?
    }

    /** The hook's guard is the SDK's guard applied to the hook's buckets. */
    lemma HasAllSignalsAgrees()
      ensures HasAllSignals() <==> Bucketing.HasAllSignals(bucketedSignals)
      ensures HasAllSignals() <==> exists u :: ToPartial(u) == bucketedSignals
    {
      HasAllSignalsIffComplete(bucketedSignals);
    }

    /** The effect on `rawSignals`: the buckets become those of the raw signals. */
    method RawSignalsChanged(now: int)
      modifies this
      ensures bucketedSignals == BucketSignals(rawSignals, now)
      ensures rawSignals == old(rawSignals) && proofStatus == old(proofStatus)
      ensures proofResult == old(proofResult) && error == old(error) && statusLog == old(statusLog)
    {
      bucketedSignals := BucketSignals(rawSignals, now);
    }

    method SetStatus(s: ProofStatus)
      modifies this
      ensures proofStatus == s && statusLog == old(statusLog) + [s]
      ensures rawSignals == old(rawSignals) && bucketedSignals == old(bucketedSignals)
      ensures proofResult == old(proofResult) && error == old(error)
    {
      proofStatus := s;
      statusLog := statusLog + [s];
    }

    /**
     * `collectWalletSignals`: without a key only the error is set. Otherwise
     * collecting, then idle with the wallet fields merged into the raw
     * signals (and the buckets recomputed), or error with the failure's message.
     */
    method CollectWalletSignals(publicKey: Option<Address>, history: Result<seq<Solana.SignatureInfo>>, now: int)
      modifies this
      ensures publicKey.None? ==> (
        && error == Some(WALLET_NOT_CONNECTED)
        && proofStatus == old(proofStatus) && statusLog == old(statusLog)
        && rawSignals == old(rawSignals) && bucketedSignals == old(bucketedSignals))
      ensures publicKey.Some? && history.Ok? ==> (
        && statusLog == old(statusLog) + [Collecting, Idle] && proofStatus == Idle && error.None?
        && rawSignals == MergeRaw(old(rawSignals), Solana.FetchSolanaSignals(history.value, now).AsPatch())
        && bucketedSignals == BucketSignals(rawSignals, now))
      ensures publicKey.Some? && history.Err? ==> (
        && statusLog == old(statusLog) + [Collecting, Error] && proofStatus == Error
        && error == Some(history.error)
        && rawSignals == old(rawSignals) && bucketedSignals == old(bucketedSignals))
      ensures proofResult == old(proofResult)
    {
      if publicKey.None? {
        error := Some(WALLET_NOT_CONNECTED);
        return;
      }
      SetStatus(Collecting);
      error := None;
      if history.Err? {
        error := Some(history.error);
        SetStatus(Error);
        return;
      }
      var signals := Solana.FetchSolanaSignals(history.value, now);
      rawSignals := MergeRaw(rawSignals, signals.AsPatch());
      SetStatus(Idle);
      RawSignalsChanged(now);
    }

    /**
     * The effect on the wallet: a connected wallet whose creation date the
     * hook does not know yet triggers `collectWalletSignals`.
     */
    method WalletChanged(connected: bool, publicKey: Option<Address>, history: Result<seq<Solana.SignatureInfo>>, now: int)
      modifies this
      ensures !(connected && publicKey.Some? && old(rawSignals).walletCreatedAt.None?) ==> (
        && rawSignals == old(rawSignals) && bucketedSignals == old(bucketedSignals)
        && proofStatus == old(proofStatus) && error == old(error) && statusLog == old(statusLog))
      ensures connected && publicKey.Some? && old(rawSignals).walletCreatedAt.None? && history.Ok? ==> (
        && rawSignals == MergeRaw(old(rawSignals), Solana.FetchSolanaSignals(history.value, now).AsPatch())
        && rawSignals.walletCreatedAt == Some(Solana.FetchSolanaSignals(history.value, now).walletCreatedAt)
        && bucketedSignals == BucketSignals(rawSignals, now)
        && statusLog == old(statusLog) + [Collecting, Idle] && proofStatus == Idle && error.None?)
      ensures connected && publicKey.Some? && old(rawSignals).walletCreatedAt.None? && history.Err? ==> (
        && statusLog == old(statusLog) + [Collecting, Error] && proofStatus == Error
        && error == Some(history.error)
        && rawSignals == old(rawSignals) && bucketedSignals == old(bucketedSignals))
      ensures proofResult == old(proofResult)
    {
      if connected && publicKey.Some? && rawSignals.walletCreatedAt.None? {
        CollectWalletSignals(publicKey, history, now);
      }
    }

    /**
     * The part of `connectTwitter` / `connectGitHub` before the `await`:
     * collecting, no error, and the SDK's connect started. `promise` is the
     * SDK promise the hook then waits for.
     */
    method BeginConnect(p: Provider, clientId: string, storage: LocalStorage, stateRandom: nat -> Byte,
                        verifierRandom: nat -> Byte, digest: string -> Result<seq<Byte>>, popupOpened: bool) returns (promise: nat)
      requires user.Valid()
      modifies this, user, storage
      ensures user.Valid()
      ensures promise == old(user.nextPromise)
      ensures var waits := clientId != "" && popupOpened
                           && digest(if p == Twitter then Twitter.CodeVerifier(verifierRandom) else GitHub.CodeVerifier(verifierRandom)).Ok?;
        && (waits ==> promise !in user.settled)
        && (!waits ==> promise in user.settled && !user.settled[promise])
      ensures proofStatus == Collecting && statusLog == old(statusLog) + [Collecting] && error.None?
      ensures rawSignals == old(rawSignals) && bucketedSignals == old(bucketedSignals) && proofResult == old(proofResult)
    {
      SetStatus(Collecting);
      error := None;
      var popupUrl;
      match p {
        case Twitter =>
          promise, popupUrl := user.ConnectTwitter(clientId, storage, stateRandom, verifierRandom, digest, popupOpened);
        case GitHub =>
          promise, popupUrl := user.ConnectGitHub(clientId, storage, stateRandom, verifierRandom, digest, popupOpened);
      }
    }

    /**
     * The part after the `await`, once the SDK promise has settled: on
     * success the hook's signals are replaced by the SDK's copies (and then
     * rebucketed by the effect) and the status is idle; otherwise the
     * provider's failure message and the error status.
     */
    method FinishConnect(p: Provider, promise: nat, now: int) returns (success: bool)
      requires promise in user.settled
      modifies this
      ensures success == user.settled[promise]
      ensures success ==> (
        && rawSignals == user.rawSignals
        && bucketedSignals == BucketSignals(user.rawSignals, now)
        && proofStatus == Idle && statusLog == old(statusLog) + [Idle] && error == old(error))
      ensures !success ==> (
        && error == Some(ConnectFailure(p)) && proofStatus == Error && statusLog == old(statusLog) + [Error]
        && rawSignals == old(rawSignals) && bucketedSignals == old(bucketedSignals))
      ensures !success ==> (error == Some(ConnectFailure(Twitter)) <==> p == Twitter)
      ensures proofResult == old(proofResult)
    {
      success := user.settled[promise];
      if success {
        rawSignals := user.rawSignals;
        bucketedSignals := user.bucketedSignals;
        SetStatus(Idle);
        RawSignalsChanged(now);
      } else {
        error := Some(ConnectFailure(p));
        assert ConnectFailure(Twitter)[18] != ConnectFailure(GitHub)[18];
        SetStatus(Error);
      }
    }

    /**
     * `generateProof`: computing, then exactly one of completed (with the
     * SDK's proof as the result) or error (with the first failure's message).
     * `hasProvider` says whether the wallet provider exists; `sdk` is what
     * the SDK's `generateProof` returned, `None` when the hook's own checks
     * failed before calling it.
     */
    method GenerateProof(hasProvider: bool, program: Option<Address>, publicKey: Option<Address>,
                         rulePda: Address, epoch: nat, env: User.ProofEnv) returns (sdk: Option<Result<ProofOutput>>)
      modifies this, user
      ensures sdk.Some? <==> hasProvider && program.Some? && HasAllSignals()
      ensures sdk.Some? && sdk.value.Err? ==> proofStatus == Error && error == Some(sdk.value.error)
      ensures sdk.Some? && sdk.value.Ok? ==> proofStatus == Completed && proofResult == Some(sdk.value.value)
      ensures statusLog == old(statusLog) + [Computing, proofStatus]
      ensures proofStatus == Completed || proofStatus == Error
      ensures proofStatus == Completed <==> error.None?
      ensures proofStatus == Completed ==> (
        && hasProvider && program.Some? && publicKey.Some? && HasAllSignals()
        && proofResult.Some? && proofResult.value.proofPda.Some?
        && Developer.AnonnDeveloper(program.value, publicKey.value).GetProofPda(rulePda, publicKey.value, epoch)
             == Ok(proofResult.value.proofPda.value))
      ensures proofStatus == Error ==> proofResult == old(proofResult)
      ensures !hasProvider ==> error == Some(WALLET_NOT_CONNECTED)
      ensures hasProvider && program.None? ==> error == Some(PROGRAM_NOT_LOADED)
      ensures hasProvider && program.Some? && !HasAllSignals() ==> error == Some(SIGNALS_NOT_COLLECTED)
      ensures hasProvider && program.Some? && HasAllSignals() ==> (
        && user.program == program && user.wallet == publicKey
        && user.bucketedSignals == bucketedSignals)
      ensures rawSignals == old(rawSignals) && bucketedSignals == old(bucketedSignals)
    {
      sdk := None;
      SetStatus(Computing);
      error := None;
      if !hasProvider {
        error := Some(WALLET_NOT_CONNECTED);
        SetStatus(Error);
        return;
      }
      if program.None? {
        error := Some(PROGRAM_NOT_LOADED);
        SetStatus(Error);
        return;
      }
      if !HasAllSignals() {
        error := Some(SIGNALS_NOT_COLLECTED);
        SetStatus(Error);
        return;
      }
      var signals := Complete(bucketedSignals);
      user.SetWallet(publicKey);
      user.SetProgram(program.value);
      user.SetBucketedSignals(AsPatch(signals));
      assert user.bucketedSignals == bucketedSignals;
      var proof, _ := user.GenerateProof(ProofRequest(PROOF_RULE_ID, rulePda, epoch), env);
      sdk := Some(proof);
      if proof.Ok? {
        proofResult := Some(proof.value);
        SetStatus(Completed);
      } else {
        error := Some(proof.error);
        SetStatus(Error);
      }
    }

    /** `clearSignals`: empty signals, no result, no error, idle. */
    method ClearSignals(now: int)
      modifies this
      ensures rawSignals == NO_RAW_SIGNALS && bucketedSignals == NO_SIGNALS
      ensures proofResult.None? && error.None? && proofStatus == Idle && statusLog == old(statusLog) + [Idle]
      ensures !HasAllSignals()
    {
      rawSignals := NO_RAW_SIGNALS;
      bucketedSignals := NO_SIGNALS;
      proofResult := None;
      error := None;
      SetStatus(Idle);
      RawSignalsChanged(now);
    }
  }
}

=== FILE: use_proofs_for_rule.dfy ===
/**
 * The `useProofsForRule` React hook: it lists the proof accounts of one
 * rule, newest first, and counts them by tier and by validity.
 *
 * The ledger query returns every proof account whose rule field (bytes 40
 * to 72 of the account, after the discriminator and the owner) equals the
 * rule's key; the model applies that filter to the program's proof
 * accounts. Parsing the rule's base-58 text is an oracle that fails for an
 * invalid key.
 */
module UseProofsForRule {
  import opened Wrappers
  import opened Ledger
  import opened Types

  const INVALID_PUBLIC_KEY: string := "Invalid public key input"

  /** An account as the query returns it: its address and its decoded data. */
  datatype ProgramAccount = ProgramAccount(publicKey: Address, account: ProofAccountData)

  /** A proof record with the address it is stored at. */
  datatype ProofWithPda = ProofWithPda(pda: Address, proof: ProofRecord)

  /** One element of `accounts.map(...)`: the fields as read, a missing `isFinalized` as false. */
  function ParseProof(acc: ProgramAccount): (p: ProofWithPda)
    ensures p.pda == acc.publicKey
    ensures p.proof.isFinalized <==> acc.account.isFinalized == Some(true)
    ensures p.proof.owner == acc.account.owner && p.proof.rule == acc.account.rule
    ensures p.proof.tier == acc.account.tier && p.proof.generatedAt == acc.account.generatedAt
    ensures p.proof.expiresAt == acc.account.expiresAt && p.proof.epoch == acc.account.epoch
    ensures p.proof.conditionsMet == acc.account.conditionsMet
  {
    var a := acc.account;
    ProofWithPda(acc.publicKey,
      ProofRecord(a.owner, a.rule, a.epoch, a.tier, a.conditionsMet, a.generatedAt, a.expiresAt, a.isFinalized.GetOr(false)))
  }

  /** The accounts of `all` whose rule field is `rule`, in the order given. */
  function OfRule(all: seq<ProgramAccount>, rule: Address): (r: seq<ProgramAccount>)
    ensures |r| <= |all|
    ensures forall i :: 0 <= i < |r| ==> r[i].account.rule == rule && r[i] in all
  {
    if |all| == 0 then []
    else (if all[0].account.rule == rule then [all[0]] else []) + OfRule(all[1..], rule)
  }

  /** Every account of `all` with that rule is kept. */
  lemma {:induction false} OfRuleComplete(all: seq<ProgramAccount>, rule: Address, acc: ProgramAccount)
    requires acc in all && acc.account.rule == rule
    ensures acc in OfRule(all, rule)
  {
    if all[0] != acc {
      OfRuleComplete(all[1..], rule, acc);
    }
  }

  function ParseAll(accs: seq<ProgramAccount>): (r: seq<ProofWithPda>)
    ensures |r| == |accs|
    ensures forall i :: 0 <= i < |r| ==> r[i] == ParseProof(accs[i])
  {
    if |accs| == 0 then [] else [ParseProof(accs[0])] + ParseAll(accs[1..])
  }

  // ---------------------------------------------------------------------------
  // Ordering
  // ---------------------------------------------------------------------------

  /** Most recent first: `generatedAt` never increases along the list. */
  predicate NewestFirst(s: seq<ProofWithPda>) {
    forall k, l :: 0 <= k < l < |s| ==> s[k].proof.generatedAt >= s[l].proof.generatedAt
  }

  /** `s` with the proofs at `p` and `q` exchanged. */
  function Swap(s: seq<ProofWithPda>, p: nat, q: nat): (r: seq<ProofWithPda>)
    requires p < |s| && q < |s|
    ensures |r| == |s|
  {
    s[p := s[q]][q := s[p]]
  }

  /**
   * Mid-insertion of the proof at `i`, now at `j`: the other proofs up to `i`
   * are newest first, the moving proof is newer than everything after it, and
   * its two neighbours are in order with each other.
   */
  predicate Inserting(s: seq<ProofWithPda>, j: nat, i: nat) {
    && j <= i < |s|
    && (forall k, l :: 0 <= k < l <= i && k != j && l != j ==> s[k].proof.generatedAt >= s[l].proof.generatedAt)
    && (forall l :: j < l <= i ==> s[j].proof.generatedAt > s[l].proof.generatedAt)
    && (0 < j < i ==> s[j - 1].proof.generatedAt >= s[j + 1].proof.generatedAt)
  }

  lemma InsertingStart(s: seq<ProofWithPda>, i: nat)
    requires i < |s| && NewestFirst(s[..i])
    ensures Inserting(s, i, i)
  {
    forall k, l | 0 <= k < l <= i && k != i && l != i
      ensures s[k].proof.generatedAt >= s[l].proof.generatedAt
    {
      assert s[k] == s[..i][k] && s[l] == s[..i][l];
    }
  }

  /** Moving the proof one place left past an older one keeps the insertion invariant. */
  lemma InsertingStep(s: seq<ProofWithPda>, j: nat, i: nat)
    requires Inserting(s, j, i) && 0 < j
    requires s[j - 1].proof.generatedAt < s[j].proof.generatedAt
    ensures Inserting(Swap(s, j - 1, j), j - 1, i)
    ensures multiset(Swap(s, j - 1, j)) == multiset(s)
    ensures Swap(s, j - 1, j)[i + 1..] == s[i + 1..]
  {
  }

  /** Once the proof has stopped moving, the first `i + 1` proofs are newest first. */
  lemma InsertingDone(s: seq<ProofWithPda>, j: nat, i: nat)
    requires Inserting(s, j, i)
    requires j == 0 || s[j - 1].proof.generatedAt >= s[j].proof.generatedAt
    ensures NewestFirst(s[..i + 1])
  {
  }

  /**
   * One insertion step: the proof at `i` moves left past every newer-sorted
   * proof it is more recent than, so the first `i + 1` proofs are newest first.
   */
  method InsertNewest(a: array<ProofWithPda>, i: int)
    requires 0 <= i < a.Length
    requires NewestFirst(a[..i])
    modifies a
    ensures NewestFirst(a[..i + 1])
    ensures a[i + 1..] == old(a[i + 1..])
    ensures multiset(a[..]) == multiset(old(a[..]))
  {
    InsertingStart(a[..], i);
    var j := i;
    while j > 0 && a[j - 1].proof.generatedAt < a[j].proof.generatedAt
      invariant Inserting(a[..], j, i)
      invariant a[i + 1..] == old(a[i + 1..])
      invariant multiset(a[..]) == multiset(old(a[..]))
    {
      ghost var before := a[..];
      InsertingStep(before, j, i);
      a[j - 1], a[j] := a[j], a[j - 1];
      assert a[..] == Swap(before, j - 1, j);
      j := j - 1;
    }
    InsertingDone(a[..], j, i);
  }

  /**
   * `parsed.sort((a, b) => b.generatedAt - a.generatedAt)`, as an insertion
   * sort: the array ends newest first and holds the same proofs.
   */
  method SortNewestFirst(a: array<ProofWithPda>)
    modifies a
    ensures NewestFirst(a[..])
    ensures multiset(a[..]) == multiset(old(a[..]))
  {
    var i := 0;
    while i < a.Length
      invariant 0 <= i <= a.Length
      invariant NewestFirst(a[..i])
      invariant multiset(a[..]) == multiset(old(a[..]))
    {
      InsertNewest(a, i);
      i := i + 1;
    }
    assert a[..a.Length] == a[..];
  }

  // ---------------------------------------------------------------------------
  // Statistics
  // ---------------------------------------------------------------------------

  /** The conditions the statistics count by. `now` is in seconds. */
  datatype Criterion = TierIs(tier: Tier) | Active(now: int) | Expired(now: int)

  predicate Meets(p: ProofWithPda, c: Criterion) {
    match c
    case TierIs(t) => p.proof.tier == t
    case Active(now) => p.proof.isFinalized && p.proof.expiresAt > now
    case Expired(now) => p.proof.expiresAt <= now
  }

  /** `proofs.filter(p => ...).length` */
  function Count(s: seq<ProofWithPda>, c: Criterion): (n: nat)
    ensures n <= |s|
  {
    if |s| == 0 then 0 else (if Meets(s[0], c) then 1 else 0) + Count(s[1..], c)
  }

  lemma {:induction false} CountAppend(s: seq<ProofWithPda>, t: seq<ProofWithPda>, c: Criterion)
    ensures Count(s + t, c) == Count(s, c) + Count(t, c)
  {
    if |s| == 0 {
      assert s + t == t;
    } else {
      CountAppend(s[1..], t, c);
      assert (s + t)[1..] == s[1..] + t;
    }
  }

  /** Counting around position `k`: the proof there plus the others. */
  lemma CountWithout(t: seq<ProofWithPda>, k: nat, c: Criterion)
    requires k < |t|
    ensures Count(t, c) == Count(t[..k] + t[k + 1..], c) + (if Meets(t[k], c) then 1 else 0)
  {
    assert t == t[..k] + [t[k]] + t[k + 1..];
    CountAppend(t[..k] + [t[k]], t[k + 1..], c);
    CountAppend(t[..k], [t[k]], c);
    CountAppend(t[..k], t[k + 1..], c);
  }

  /** Taking the same proof out of two permutations of each other leaves permutations. */
  lemma PermutationWithout(s: seq<ProofWithPda>, t: seq<ProofWithPda>, k: nat)
    requires |s| > 0 && k < |t| && t[k] == s[0]
    requires multiset(s) == multiset(t)
    ensures multiset(s[1..]) == multiset(t[..k] + t[k + 1..])
  {
    assert s == [s[0]] + s[1..];
    assert t == t[..k] + [t[k]] + t[k + 1..];
    assert multiset(t) == multiset(t[..k]) + multiset{s[0]} + multiset(t[k + 1..]);
    assert multiset(s[1..]) == multiset(s) - multiset{s[0]};
  }

  /** A count depends on which proofs there are, not on their order. */
  lemma {:induction false} CountPermutation(s: seq<ProofWithPda>, t: seq<ProofWithPda>, c: Criterion)
    requires multiset(s) == multiset(t)
    ensures Count(s, c) == Count(t, c)
    decreases |s|
  {
    if |s| > 0 {
      assert s[0] in multiset(t);
      var k :| 0 <= k < |t| && t[k] == s[0];
      PermutationWithout(s, t, k);
      CountPermutation(s[1..], t[..k] + t[k + 1..], c);
      CountWithout(t, k, c);
    } else {
      assert |t| == |multiset(t)| == 0;
    }
  }

  datatype Stats = Stats(total: nat, tier0: nat, tier1: nat, tier2: nat, active: nat, expired: nat)

  /** `stats`, with `now` the current time in milliseconds, floored to seconds. */
  function ComputeStats(proofs: seq<ProofWithPda>, nowMs: int): Stats {
    var now := nowMs / 1000;
    Stats(|proofs|, Count(proofs, TierIs(0)), Count(proofs, TierIs(1)), Count(proofs, TierIs(2)),
          Count(proofs, Active(now)), Count(proofs, Expired(now)))
  }

  /** Every proof has exactly one of the three tiers. */
  lemma {:induction false} TiersPartition(s: seq<ProofWithPda>)
    ensures Count(s, TierIs(0)) + Count(s, TierIs(1)) + Count(s, TierIs(2)) == |s|
  {
    if |s| > 0 {
      TiersPartition(s[1..]);
    }
  }

  /** No proof is both active and expired. */
  lemma {:induction false} ActiveExpiredDisjoint(s: seq<ProofWithPda>, now: int)
    ensures Count(s, Active(now)) + Count(s, Expired(now)) <= |s|
  {
    if |s| > 0 {
      ActiveExpiredDisjoint(s[1..], now);
    }
  }

  /**
   * The statistics: the total is the list's length, the tiers partition it,
   * active and expired proofs never overlap, and the order of the list does
   * not matter.
   */
  lemma StatsProperties(proofs: seq<ProofWithPda>, other: seq<ProofWithPda>, nowMs: int)
    requires multiset(proofs) == multiset(other)
    ensures var st := ComputeStats(proofs, nowMs);
      && st.total == |proofs|
      && st.tier0 + st.tier1 + st.tier2 == st.total
      && st.active + st.expired <= st.total
      && ComputeStats(other, nowMs) == st
  {
    var now := nowMs / 1000;
    TiersPartition(proofs);
    ActiveExpiredDisjoint(proofs, now);
    assert |proofs| == |multiset(proofs)| == |other|;
    CountPermutation(proofs, other, TierIs(0));
    CountPermutation(proofs, other, TierIs(1));
    CountPermutation(proofs, other, TierIs(2));
    CountPermutation(proofs, other, Active(now));
    CountPermutation(proofs, other, Expired(now));
  }

  // ---------------------------------------------------------------------------
  // The hook
  // ---------------------------------------------------------------------------

  class ProofsForRule {
    /** The rule's address as text, or `null`. */
    const rulePda: Option<string>
    var proofs: seq<ProofWithPda>
    var loading: bool
    var error: Option<string>

    constructor(rulePda: Option<string>)
      ensures this.rulePda == rulePda && proofs == [] && !loading && error.None?
    {
      this.rulePda := rulePda;
      proofs := [];
      loading := false;
      error := None;
    }

    /**
     * `refetch`: without a program or a rule the list empties. Otherwise the
     * rule's proof accounts are parsed and sorted newest first; a bad key
     * or a failed query leaves the list and sets the error. Loading ends false.
     */
    method Refetch(program: Option<Address>, parseKey: string -> Option<Address>, fetched: Result<seq<ProgramAccount>>)
      modifies this
      ensures program.None? || rulePda.None? || rulePda == Some("") ==>
        proofs == [] && loading == old(loading) && error == old(error)
      ensures program.Some? && rulePda.Some? && rulePda != Some("") ==> (
        && !loading
        && (parseKey(rulePda.value).None? ==> proofs == old(proofs) && error == Some(INVALID_PUBLIC_KEY))
        && (parseKey(rulePda.value).Some? && fetched.Err? ==> proofs == old(proofs) && error == Some(fetched.error))
        && (parseKey(rulePda.value).Some? && fetched.Ok? ==> (
          && error.None?
          && NewestFirst(proofs)
          && multiset(proofs) == multiset(ParseAll(OfRule(fetched.value, parseKey(rulePda.value).value))))))
    {
      if program.None? || rulePda.None? || rulePda == Some("") {
        proofs := [];
        return;
      }
      loading := true;
      error := None;
      var key := parseKey(rulePda.value);
      if key.None? {
        error := Some(INVALID_PUBLIC_KEY);
      } else if fetched.Err? {
        error := Some(fetched.error);
      } else {
        var parsed := ParseAll(OfRule(fetched.value, key.value));
        var a := new ProofWithPda[|parsed|](i requires 0 <= i < |parsed| => parsed[i]);
        assert a[..] == parsed;
        SortNewestFirst(a);
        proofs := a[..];
      }
      loading := false;
    }

    /** `stats` of the current list. */
    function CurrentStats(nowMs: int): (st: Stats)
      reads this
      ensures st.total == |proofs|
      ensures st.tier0 + st.tier1 + st.tier2 == st.total
      ensures st.active + st.expired <= st.total
    {
      StatsProperties(proofs, proofs, nowMs);
      ComputeStats(proofs, nowMs)
    }
  }
}

=== FILE: user.dfy ===
/**
 * The user SDK object: it holds the program, the wallet and the collected
 * signals, connects the social accounts through OAuth popups (listening for
 * the callback window's message), and runs a proof: key fetch with retry,
 * encryption of the five buckets, submission, and the race between the
 * result event and polling of the proof account.
 *
 * The x25519 key exchange and the Rescue cipher are foreign code: a session
 * key and a ciphertext are values that record what they were made from.
 */
module User {
  import opened Wrappers
  import opened Strings
  import opened Ledger
  import opened Types
  import opened Bucketing
  import opened Web
  import Solana
  import Twitter
  import GitHub
  import Developer

  const PROGRAM_NOT_SET_CALL: string := "Program not set. Call setProgram() first."
  const WALLET_NOT_SET_CALL: string := "Wallet not set. Call setWallet() first."
  const SIGNALS_MISSING: string := "Not all signals collected. Connect all signal sources first."
  const WALLET_NOT_SET: string := "Wallet not set"
  const PROGRAM_NOT_SET: string := "Program not set"
  const MXE_MAX_RETRIES: nat := 10
  const MXE_RETRY_DELAY_MS: nat := 500
  const MXE_KEY_UNAVAILABLE: string := "Failed to fetch MXE public key"
  const POLL_MAX_ATTEMPTS: nat := 30
  const POLL_INTERVAL_MS: nat := 2000
  const POLL_EXHAUSTED: string := "Proof account not found after polling. MPC computation may have failed."

  function MxeKeyFailure(maxRetries: nat): string {
    "Failed to fetch MXE public key after " + NatToString(maxRetries) + " attempts"
  }

  // ---------------------------------------------------------------------------
  // Attempts that retry until the first success
  // ---------------------------------------------------------------------------

  /** The first attempt number in `[from, to)` whose outcome is a value. */
  function FirstSome<T>(f: nat -> Option<T>, from: nat, to: nat): (r: Option<nat>)
    ensures r.Some? ==> from <= r.value < to && f(r.value).Some?
    decreases if from < to then to - from else 0
  {
    if from >= to then None else if f(from).Some? then Some(from) else FirstSome(f, from + 1, to)
  }

  lemma {:induction false} FirstSomeIsFirst<T>(f: nat -> Option<T>, from: nat, to: nat)
    ensures FirstSome(f, from, to).Some? ==>
      var k := FirstSome(f, from, to).value;
      from <= k < to && f(k).Some? && forall j :: from <= j < k ==> f(j).None?
    ensures FirstSome(f, from, to).None? <==> (forall j :: from <= j < to ==> f(j).None?)
    decreases if from < to then to - from else 0
  {
    if from < to && f(from).None? {
      FirstSomeIsFirst(f, from + 1, to);
    }
  }

  // ---------------------------------------------------------------------------
  // Message listeners of pending connects
  // ---------------------------------------------------------------------------

  /** A registered `message` handler: the provider it waits for and the promise it settles. */
  datatype Listener = Listener(provider: Provider, promise: nat)

  /**
   * What a handler does with an event: nothing (`None`) for another origin or
   * another message, resolve `true` on its own provider's success, resolve
   * `false` on any `OAUTH_ERROR` (whichever popup sent it).
   */
  function Reaction(l: Listener, e: MessageEvent, origin: string): Option<bool> {
    if e.origin != origin then None
    else match e.data
      case TwitterSuccess(_) => if l.provider == Twitter then Some(true) else None
      case GitHubSuccess(_, _) => if l.provider == GitHub then Some(true) else None
      case OAuthError(_) => Some(false)
      case Unrelated => None
  }

  /** The handlers still registered after each of `ls` has seen `e`. */
  function Pending(ls: seq<Listener>, e: MessageEvent, origin: string): (r: seq<Listener>)
    ensures |r| <= |ls|
  {
    if |ls| == 0 then []
    else Pending(ls[..|ls| - 1], e, origin) + (if Reaction(ls[|ls| - 1], e, origin).None? then [ls[|ls| - 1]] else [])
  }

  /** The promise outcomes after each of `ls` has seen `e`. */
  function Settle(st: map<nat, bool>, ls: seq<Listener>, e: MessageEvent, origin: string): map<nat, bool> {
    if |ls| == 0 then st
    else
      var s := Settle(st, ls[..|ls| - 1], e, origin);
      var l := ls[|ls| - 1];
      match Reaction(l, e, origin)
      case None => s
      case Some(v) => s[l.promise := v]
  }

  /** Some handler of `ls` takes `e` as its provider's success. */
  predicate AnySuccess(ls: seq<Listener>, e: MessageEvent, origin: string) {
    |ls| > 0 && (AnySuccess(ls[..|ls| - 1], e, origin) || Reaction(ls[|ls| - 1], e, origin) == Some(true))
  }

  /** The raw-signal fields a success message sets. */
  function ApplyMessage(raw: RawSignals, data: MessageData): RawSignals {
    match data
    case TwitterSuccess(t) => raw.(twitterCreatedAt := Some(t))
    case GitHubSuccess(t, n) => raw.(githubCreatedAt := Some(t), githubPublicRepos := Some(n))
    case _ => raw
  }

  /** A second identical success message changes nothing more. */
  lemma ApplyMessageIdempotent(raw: RawSignals, data: MessageData)
    ensures ApplyMessage(ApplyMessage(raw, data), data) == ApplyMessage(raw, data)
  {
  }

  predicate DistinctPromises(ls: seq<Listener>) {
    forall i, j :: 0 <= i < j < |ls| ==> ls[i].promise != ls[j].promise
  }

  /** `window.removeEventListener('message', handler)` */
  function RemoveListener(ls: seq<Listener>, l: Listener): (r: seq<Listener>)
    ensures l !in r
  {
    if |ls| == 0 then [] else (if ls[0] == l then [] else [ls[0]]) + RemoveListener(ls[1..], l)
  }

  lemma {:induction false} RemoveListenerAppend(a: seq<Listener>, b: seq<Listener>, l: Listener)
    ensures RemoveListener(a + b, l) == RemoveListener(a, l) + RemoveListener(b, l)
  {
    if |a| == 0 {
      assert a + b == b;
    } else {
      assert (a + b)[0] == a[0];
      assert (a + b)[1..] == a[1..] + b;
      RemoveListenerAppend(a[1..], b, l);
    }
  }

  lemma {:induction false} RemoveListenerAbsent(ls: seq<Listener>, l: Listener)
    requires l !in ls
    ensures RemoveListener(ls, l) == ls
  {
    if |ls| > 0 {
      RemoveListenerAbsent(ls[1..], l);
    }
  }

  lemma {:induction false} PendingWithin(ls: seq<Listener>, e: MessageEvent, origin: string)
    ensures forall x :: x in Pending(ls, e, origin) ==> x in ls && Reaction(x, e, origin).None?
  {
    if |ls| > 0 {
      PendingWithin(ls[..|ls| - 1], e, origin);
    }
  }

  lemma {:induction false} PendingDistinct(ls: seq<Listener>, e: MessageEvent, origin: string)
    requires DistinctPromises(ls)
    ensures DistinctPromises(Pending(ls, e, origin))
  {
    if |ls| > 0 {
      var init := ls[..|ls| - 1];
      var last := ls[|ls| - 1];
      PendingDistinct(init, e, origin);
      PendingWithin(init, e, origin);
      var p := Pending(init, e, origin);
      forall i | 0 <= i < |p| ensures p[i].promise != last.promise {
        assert p[i] in init;
      }
    }
  }

  /** Settling adds only the promises of handlers that reacted, and keeps every earlier outcome. */
  lemma {:induction false} SettleKeys(st: map<nat, bool>, ls: seq<Listener>, e: MessageEvent, origin: string)
    requires forall i :: 0 <= i < |ls| ==> ls[i].promise !in st
    ensures forall p :: p in st ==> p in Settle(st, ls, e, origin) && Settle(st, ls, e, origin)[p] == st[p]
    ensures forall p :: p in Settle(st, ls, e, origin) ==> p in st || exists i :: 0 <= i < |ls| && ls[i].promise == p && Reaction(ls[i], e, origin).Some?
  {
    if |ls| > 0 {
      var init := ls[..|ls| - 1];
      SettleKeys(st, init, e, origin);
      forall p | p in Settle(st, ls, e, origin)
        ensures p in st || exists i :: 0 <= i < |ls| && ls[i].promise == p && Reaction(ls[i], e, origin).Some?
      {
        if p !in Settle(st, init, e, origin) {
          assert ls[|ls| - 1].promise == p;
        } else if p !in st {
          var i :| 0 <= i < |init| && init[i].promise == p && Reaction(init[i], e, origin).Some?;
          assert ls[i] == init[i];
        }
      }
    }
  }

  /** A message from another origin changes nothing. */
  lemma {:induction false} ForeignOriginIgnored(st: map<nat, bool>, ls: seq<Listener>, e: MessageEvent, origin: string)
    requires e.origin != origin
    ensures Pending(ls, e, origin) == ls
    ensures Settle(st, ls, e, origin) == st
    ensures !AnySuccess(ls, e, origin)
  {
    if |ls| > 0 {
      ForeignOriginIgnored(st, ls[..|ls| - 1], e, origin);
      assert ls[..|ls| - 1] + [ls[|ls| - 1]] == ls;
    }
  }

  /**
   * An `OAUTH_ERROR` from the page's own origin fails every pending connect,
   * the other provider's included, and removes all their handlers.
   */
  lemma {:induction false} OAuthErrorFailsEveryPending(st: map<nat, bool>, ls: seq<Listener>, e: MessageEvent, origin: string)
    requires e.origin == origin && e.data.OAuthError?
    ensures Pending(ls, e, origin) == []
    ensures !AnySuccess(ls, e, origin)
    ensures forall i :: 0 <= i < |ls| ==> ls[i].promise in Settle(st, ls, e, origin) && !Settle(st, ls, e, origin)[ls[i].promise]
  {
    if |ls| > 0 {
      var init := ls[..|ls| - 1];
      OAuthErrorFailsEveryPending(st, init, e, origin);
      forall i | 0 <= i < |ls|
        ensures ls[i].promise in Settle(st, ls, e, origin) && !Settle(st, ls, e, origin)[ls[i].promise]
      {
        if i < |ls| - 1 {
          assert ls[i] == init[i];
        }
      }
    }
  }

  /**
   * A provider's success from the page's own origin resolves `true` every
   * handler of that provider and leaves exactly the other provider's
   * handlers registered, their promises unsettled.
   */
  lemma {:induction false} SuccessResolvesItsProvider(st: map<nat, bool>, ls: seq<Listener>, e: MessageEvent, origin: string, p: Provider)
    requires e.origin == origin
    requires (p == Twitter && e.data.TwitterSuccess?) || (p == GitHub && e.data.GitHubSuccess?)
    requires DistinctPromises(ls)
    ensures forall x :: x in Pending(ls, e, origin) ==> x in ls && x.provider != p
    ensures forall i :: 0 <= i < |ls| && ls[i].provider != p ==> ls[i] in Pending(ls, e, origin)
    ensures forall i :: 0 <= i < |ls| && ls[i].provider == p ==> ls[i].promise in Settle(st, ls, e, origin) && Settle(st, ls, e, origin)[ls[i].promise]
    ensures AnySuccess(ls, e, origin) <==> exists i :: 0 <= i < |ls| && ls[i].provider == p
  {
    PendingWithin(ls, e, origin);
    if |ls| > 0 {
      var init := ls[..|ls| - 1];
      var last := ls[|ls| - 1];
      SuccessResolvesItsProvider(st, init, e, origin, p);
      forall i | 0 <= i < |ls| && ls[i].provider != p
        ensures ls[i] in Pending(ls, e, origin)
      {
        if i < |ls| - 1 {
          assert ls[i] == init[i];
        }
      }
      forall i | 0 <= i < |ls| && ls[i].provider == p
        ensures ls[i].promise in Settle(st, ls, e, origin) && Settle(st, ls, e, origin)[ls[i].promise]
      {
        if i < |ls| - 1 {
          assert ls[i] == init[i];
          assert ls[i].promise != last.promise;
        }
      }
      if exists i :: 0 <= i < |ls| && ls[i].provider == p {
        var i :| 0 <= i < |ls| && ls[i].provider == p;
        if i < |ls| - 1 {
          assert init[i] == ls[i];
        }
      }
    }
  }

  /** A handler with a distinct promise is absent from any other stretch of the snapshot. */
  lemma NotInOtherStretch(handlers: seq<Listener>, i: nat, lo: nat, hi: nat)
    requires i < |handlers| && DistinctPromises(handlers)
    requires lo <= hi <= |handlers| && (i < lo || hi <= i)
    ensures handlers[i] !in handlers[lo..hi]
  {
    forall j | lo <= j < hi
      ensures handlers[j] != handlers[i]
    {
      assert handlers[j].promise != handlers[i].promise;
    }
  }

  lemma RemoveBetween(done: seq<Listener>, l: Listener, rest: seq<Listener>)
    requires l !in done && l !in rest
    ensures RemoveListener(done + ([l] + rest), l) == done + rest
  {
    var tail := [l] + rest;
    assert tail[0] == l && tail[1..] == rest;
    calc {
      RemoveListener(done + tail, l);
      { RemoveListenerAppend(done, tail, l); }
      RemoveListener(done, l) + RemoveListener(tail, l);
      { RemoveListenerAbsent(done, l); }
      done + RemoveListener(tail, l);
      done + RemoveListener(rest, l);
      { RemoveListenerAbsent(rest, l); }
      done + rest;
    }
  }

  /** Removing the handler that just reacted leaves the unreacted earlier ones and all later ones. */
  lemma RemoveReacted(handlers: seq<Listener>, i: nat, e: MessageEvent, origin: string)
    requires i < |handlers| && DistinctPromises(handlers)
    ensures RemoveListener(Pending(handlers[..i], e, origin) + handlers[i..], handlers[i]) == Pending(handlers[..i], e, origin) + handlers[i + 1..]
  {
    var l := handlers[i];
    var done := Pending(handlers[..i], e, origin);
    var rest := handlers[i + 1..];
    assert l !in done by {
      PendingWithin(handlers[..i], e, origin);
      NotInOtherStretch(handlers, i, 0, i);
      assert handlers[..i] == handlers[0..i];
    }
    assert l !in rest by {
      NotInOtherStretch(handlers, i, i + 1, |handlers|);
    }
    assert handlers[i..] == [l] + rest;
    RemoveBetween(done, l, rest);
  }

  /** One more handler of the snapshot seeing the event. */
  lemma DispatchStep(handlers: seq<Listener>, i: nat, st: map<nat, bool>, e: MessageEvent, origin: string)
    requires i < |handlers|
    ensures var r := Reaction(handlers[i], e, origin);
      && Pending(handlers[..i + 1], e, origin) == Pending(handlers[..i], e, origin) + (if r.None? then [handlers[i]] else [])
      && Settle(st, handlers[..i + 1], e, origin) == (if r.None? then Settle(st, handlers[..i], e, origin) else Settle(st, handlers[..i], e, origin)[handlers[i].promise := r.value])
      && (AnySuccess(handlers[..i + 1], e, origin) <==> AnySuccess(handlers[..i], e, origin) || r == Some(true))
  {
    assert handlers[..i + 1][..i] == handlers[..i];
  }

  /** The handlers still registered, mid-dispatch, after one more handler has seen the event. */
  lemma PendingStep(handlers: seq<Listener>, i: nat, e: MessageEvent, origin: string)
    requires i < |handlers| && DistinctPromises(handlers)
    ensures var before := Pending(handlers[..i], e, origin) + handlers[i..];
      Pending(handlers[..i + 1], e, origin) + handlers[i + 1..]
        == if Reaction(handlers[i], e, origin).None? then before else RemoveListener(before, handlers[i])
  {
    var l := handlers[i];
    var done := Pending(handlers[..i], e, origin);
    DispatchStep(handlers, i, map[], e, origin);
    if Reaction(l, e, origin).None? {
      assert handlers[i..] == [l] + handlers[i + 1..];
      calc {
        Pending(handlers[..i + 1], e, origin) + handlers[i + 1..];
        (done + [l]) + handlers[i + 1..];
        done + ([l] + handlers[i + 1..]);
        done + handlers[i..];
      }
    } else {
      RemoveReacted(handlers, i, e, origin);
    }
  }

  /** One handler of the snapshot reacting, stated over the dispatch's running values. */
  lemma DeliverStep(handlers: seq<Listener>, i: nat, st: map<nat, bool>, e: MessageEvent, origin: string,
                    pending: seq<Listener>, outcomes: map<nat, bool>)
    requires i < |handlers| && DistinctPromises(handlers)
    requires pending == Pending(handlers[..i], e, origin) + handlers[i..]
    requires outcomes == Settle(st, handlers[..i], e, origin)
    ensures var r := Reaction(handlers[i], e, origin);
      && (r.None? ==> pending == Pending(handlers[..i + 1], e, origin) + handlers[i + 1..])
      && (r.None? ==> outcomes == Settle(st, handlers[..i + 1], e, origin))
      && (r.Some? ==> RemoveListener(pending, handlers[i]) == Pending(handlers[..i + 1], e, origin) + handlers[i + 1..])
      && (r.Some? ==> outcomes[handlers[i].promise := r.value] == Settle(st, handlers[..i + 1], e, origin))
  {
    DispatchStep(handlers, i, st, e, origin);
    PendingStep(handlers, i, e, origin);
  }

  /**
   * Dispatch keeps every pending handler's promise issued, unsettled and its
   * own, and never changes a promise already settled.
   */
  lemma DispatchKeepsPromises(handlers: seq<Listener>, st: map<nat, bool>, next: nat, e: MessageEvent, origin: string)
    requires DistinctPromises(handlers)
    requires forall i :: 0 <= i < |handlers| ==> handlers[i].promise < next && handlers[i].promise !in st
    requires forall p :: p in st ==> p < next
    ensures var ls := Pending(handlers, e, origin); var st2 := Settle(st, handlers, e, origin);
      && (forall i :: 0 <= i < |ls| ==> ls[i].promise < next && ls[i].promise !in st2)
      && DistinctPromises(ls)
      && (forall p :: p in st2 ==> p < next)
      && (forall p :: p in st ==> p in st2 && st2[p] == st[p])
  {
    var ls := Pending(handlers, e, origin);
    var st2 := Settle(st, handlers, e, origin);
    PendingWithin(handlers, e, origin);
    PendingDistinct(handlers, e, origin);
    SettleKeys(st, handlers, e, origin);
    forall k | 0 <= k < |ls|
      ensures ls[k].promise < next && ls[k].promise !in st2
    {
      var x := ls[k];
      assert x in handlers;
      var j :| 0 <= j < |handlers| && handlers[j] == x;
      forall m | 0 <= m < |handlers| && handlers[m].promise == x.promise
        ensures m == j
      {
      }
    }
  }

  /**
   * The handler calls of one `message` dispatch over the snapshot
   * `handlers`: the handlers left registered, the promise outcomes, the raw
   * signals and the buckets after all of them ran.
   */
  method Deliver(handlers: seq<Listener>, st: map<nat, bool>, raw0: RawSignals, buckets0: PartialUserSignals,
                 e: MessageEvent, origin: string, now: int)
    returns (pending: seq<Listener>, outcomes: map<nat, bool>, raw: RawSignals, buckets: PartialUserSignals)
    requires DistinctPromises(handlers)
    ensures pending == Pending(handlers, e, origin)
    ensures outcomes == Settle(st, handlers, e, origin)
    ensures raw == if AnySuccess(handlers, e, origin) then ApplyMessage(raw0, e.data) else raw0
    ensures buckets == if AnySuccess(handlers, e, origin) then BucketSignals(raw, now) else buckets0
  {
    pending, outcomes, raw, buckets := handlers, st, raw0, buckets0;
    ghost var hit := false;
    assert handlers[..0] == [] && handlers[0..] == handlers;
    var i := 0;
    while i < |handlers|
      invariant 0 <= i <= |handlers|
      invariant pending == Pending(handlers[..i], e, origin) + handlers[i..]
      invariant outcomes == Settle(st, handlers[..i], e, origin)
      invariant hit == AnySuccess(handlers[..i], e, origin)
      invariant raw == if hit then ApplyMessage(raw0, e.data) else raw0
      invariant buckets == if hit then BucketSignals(raw, now) else buckets0
    {
      var l := handlers[i];
      var reaction := Reaction(l, e, origin);
      DeliverStep(handlers, i, st, e, origin, pending, outcomes);
      assert AnySuccess(handlers[..i + 1], e, origin) <==> hit || reaction == Some(true) by {
        DispatchStep(handlers, i, st, e, origin);
      }
      if reaction.Some? {
        if reaction.value {
          ApplyMessageIdempotent(raw0, e.data);
          raw := ApplyMessage(raw, e.data);
          buckets := BucketSignals(raw, now);
          hit := true;
        }
        pending := RemoveListener(pending, l);
        outcomes := outcomes[l.promise := reaction.value];
      }
      assert pending == Pending(handlers[..i + 1], e, origin) + handlers[i + 1..];
      i := i + 1;
    }
    assert handlers[..|handlers|] == handlers;
  }

  // ---------------------------------------------------------------------------
  // Proof generation data
  // ---------------------------------------------------------------------------

  /** The x25519 public key of the random session secret. */
  datatype SessionPublicKey = X25519Public(secret: nat)

  /** The Rescue ciphertexts of a batch under the secret shared by the session key and the MXE key. */
  datatype Ciphertexts = RescueEncrypted(secret: nat, mxeKey: seq<Byte>, nonce: seq<Byte>, plaintext: seq<int>)

  /** The arguments and accounts of the `requestProof` transaction. */
  datatype ProofSubmission = ProofSubmission(
    computationOffset: nat,
    ciphertexts: Ciphertexts,
    publicKey: SessionPublicKey,
    nonce: nat,
    epoch: nat,
    payer: Address,
    ruleAccount: Address,
    proofAccount: Address)

  /** The `proofGenerated` event as the listener converts it (numbers via `toNumber`). */
  datatype ProofEvent = ProofEvent(ruleId: string, proofAccount: Address, epoch: int, tier: Tier,
                                   conditionsMet: int, generatedAt: int, expiresAt: int)

  /** Which promise of `Promise.race` settled first. */
  datatype RaceWinner = EventFirst(event: ProofEvent) | PollFirst

  /**
   * Everything outside the process a proof run depends on: MXE key fetches
   * by attempt number, the random session secret, nonce and computation
   * offset, the outcomes of the two ledger calls, the race, and the proof
   * account fetches by polling attempt.
   */
  datatype ProofEnv = ProofEnv(
    mxeKeys: nat -> Option<seq<Byte>>,
    sessionSecret: nat,
    nonce: seq<Byte>,
    computationOffset: nat,
    submitError: Option<string>,
    finalizeError: Option<string>,
    race: RaceWinner,
    polls: nat -> Option<ProofAccountData>)

  function EventOutput(ev: ProofEvent): ProofOutput {
    ProofOutput(ev.tier, ev.conditionsMet, ev.epoch, None, Some(ev.expiresAt), Some(ev.generatedAt), Some(ev.ruleId))
  }

  /** The result `pollProofAccount` builds from a fetched account: the account's fields and the requested rule id. */
  function PolledOutput(a: ProofAccountData, ruleId: string): ProofOutput {
    ProofOutput(a.tier, a.conditionsMet, a.epoch, None, Some(a.expiresAt), Some(a.generatedAt), Some(ruleId))
  }

  // ---------------------------------------------------------------------------
  // The SDK object
  // ---------------------------------------------------------------------------

  class AnonnUser {
    /** `window.location.origin` of the page the SDK runs in. */
    const origin: string
    /** The id of the program set by `setProgram`. */
    var program: Option<Address>
    var wallet: Option<Address>
    var rawSignals: RawSignals
    var bucketedSignals: PartialUserSignals
    /** The `message` handlers of pending connects, in registration order. */
    var listeners: seq<Listener>
    /** The outcome of every settled connect promise. */
    var settled: map<nat, bool>
    /** The number the next connect's promise gets. */
    var nextPromise: nat

    /** Every pending handler's promise was issued, is unsettled and belongs to that handler alone. */
    ghost predicate Valid()
      reads this
    {
      && (forall i :: 0 <= i < |listeners| ==> listeners[i].promise < nextPromise && listeners[i].promise !in settled)
      && DistinctPromises(listeners)
      && (forall p :: p in settled ==> p < nextPromise)
    }

    constructor(origin: string)
      ensures Valid()
      ensures this.origin == origin && program == None && wallet == None
      ensures rawSignals == NO_RAW_SIGNALS && bucketedSignals == NO_SIGNALS
      ensures listeners == [] && settled == map[] && nextPromise == 0
    {
      this.origin := origin;
      program := None;
      wallet := None;
      rawSignals := NO_RAW_SIGNALS;
      bucketedSignals := NO_SIGNALS;
      listeners := [];
      settled := map[];
      nextPromise := 0;
    }

    method SetProgram(programId: Address)
      modifies this
      ensures program == Some(programId)
      ensures wallet == old(wallet) && rawSignals == old(rawSignals) && bucketedSignals == old(bucketedSignals)
      ensures listeners == old(listeners) && settled == old(settled) && nextPromise == old(nextPromise)
    {
      program := Some(programId);
    }

    /** `setWallet`; a caller's `publicKey!` can hand it `null` at run time, which unsets the wallet. */
    method SetWallet(publicKey: Option<Address>)
      modifies this
      ensures wallet == publicKey
      ensures program == old(program) && rawSignals == old(rawSignals) && bucketedSignals == old(bucketedSignals)
      ensures listeners == old(listeners) && settled == old(settled) && nextPromise == old(nextPromise)
    {
      wallet := publicKey;
    }

    /** `setBucketedSignals`: the given keys overwrite, the others stay. */
    method SetBucketedSignals(patch: SignalsPatch)
      modifies this
      ensures bucketedSignals == MergeSignals(old(bucketedSignals), patch)
      ensures program == old(program) && wallet == old(wallet) && rawSignals == old(rawSignals)
      ensures listeners == old(listeners) && settled == old(settled) && nextPromise == old(nextPromise)
    {
      bucketedSignals := MergeSignals(bucketedSignals, patch);
    }

    /** `setRawSignals`: the given keys overwrite, the others stay; the buckets are not recomputed. */
    method SetRawSignals(patch: RawSignalsPatch)
      modifies this
      ensures rawSignals == MergeRaw(old(rawSignals), patch)
      ensures program == old(program) && wallet == old(wallet) && bucketedSignals == old(bucketedSignals)
      ensures listeners == old(listeners) && settled == old(settled) && nextPromise == old(nextPromise)
    {
      rawSignals := MergeRaw(rawSignals, patch);
    }

    /** `hasAllSignals` */
    predicate HasAllSignals()
      reads this
    {
      Bucketing.HasAllSignals(bucketedSignals)
    }

    /**
     * `collectWalletSignals`: refuses without a wallet; otherwise merges the
     * wallet signals into the raw signals and rebuckets all of them.
     * `history` is the signature list the ledger returned, or its error.
     */
    method CollectWalletSignals(history: Result<seq<Solana.SignatureInfo>>, now: int) returns (thrown: Option<string>)
      modifies this
      ensures wallet.None? ==> thrown == Some(WALLET_NOT_SET)
      ensures wallet.Some? && history.Err? ==> thrown == Some(history.error)
      ensures thrown.Some? ==> rawSignals == old(rawSignals) && bucketedSignals == old(bucketedSignals)
      ensures wallet.Some? && history.Ok? ==> (
        && thrown.None?
        && rawSignals == MergeRaw(old(rawSignals), Solana.FetchSolanaSignals(history.value, now).AsPatch())
        && bucketedSignals == BucketSignals(rawSignals, now))
      ensures program == old(program) && wallet == old(wallet)
      ensures listeners == old(listeners) && settled == old(settled) && nextPromise == old(nextPromise)
    {
      if wallet.None? {
        return Some(WALLET_NOT_SET);
      }
      if history.Err? {
        return Some(history.error);
      }
      var signals := Solana.FetchSolanaSignals(history.value, now);
      rawSignals := MergeRaw(rawSignals, signals.AsPatch());
      bucketedSignals := BucketSignals(rawSignals, now);
      thrown := None;
    }

    /**
     * `connectTwitter`: issues a promise. Without a client id, when building
     * the authorization URL rejects (the `.catch`), or when the popup is
     * blocked, it resolves `false` at once; otherwise the state and verifier
     * are stored, the popup opens on the authorization URL and a handler
     * waits for the callback's message. `popupUrl` is the URL once built.
     */
    method ConnectTwitter(clientId: string, storage: LocalStorage, stateRandom: nat -> Byte, verifierRandom: nat -> Byte,
                          digest: string -> Result<seq<Byte>>, popupOpened: bool) returns (promise: nat, popupUrl: Option<AuthUrl>)
      requires Valid()
      modifies this, storage
      ensures Valid()
      ensures promise == old(nextPromise) && nextPromise == old(nextPromise) + 1
      ensures clientId == "" ==> popupUrl.None? && storage.items == old(storage.items)
      ensures clientId != "" ==> Twitter.STATE_KEY in storage.items
      ensures clientId != "" ==> (popupUrl.Some? <==> digest(Twitter.CodeVerifier(verifierRandom)).Ok?)
      ensures clientId != "" && popupUrl.None? ==> storage.items == old(storage.items)[Twitter.STATE_KEY := storage.items[Twitter.STATE_KEY]]
      ensures popupUrl.Some? ==> (
        && Twitter.VERIFIER_KEY in storage.items && |popupUrl.value.params| == 7
        && popupUrl.value.params[4] == ("state", storage.items[Twitter.STATE_KEY]))
      ensures if popupUrl.Some? && popupOpened
        then listeners == old(listeners) + [Listener(Twitter, promise)] && settled == old(settled)
        else listeners == old(listeners) && settled == old(settled)[promise := false]
      ensures program == old(program) && wallet == old(wallet)
      ensures rawSignals == old(rawSignals) && bucketedSignals == old(bucketedSignals)
    {
      promise := nextPromise;
      nextPromise := nextPromise + 1;
      if clientId == "" {
        settled := settled[promise := false];
        return promise, None;
      }
      var authUrl := Twitter.GetTwitterAuthUrl(storage, clientId, origin, stateRandom, verifierRandom, digest);
      if authUrl.Err? {
        settled := settled[promise := false];
        return promise, None;
      }
      popupUrl := Some(authUrl.value);
      if !popupOpened {
        settled := settled[promise := false];
        return;
      }
      listeners := listeners + [Listener(Twitter, promise)];
    }

    /** `connectGitHub`: as `connectTwitter`, with the GitHub authorization URL. */
    method ConnectGitHub(clientId: string, storage: LocalStorage, stateRandom: nat -> Byte, verifierRandom: nat -> Byte,
                         digest: string -> Result<seq<Byte>>, popupOpened: bool) returns (promise: nat, popupUrl: Option<AuthUrl>)
      requires Valid()
      modifies this, storage
      ensures Valid()
      ensures promise == old(nextPromise) && nextPromise == old(nextPromise) + 1
      ensures clientId == "" ==> popupUrl.None? && storage.items == old(storage.items)
      ensures clientId != "" ==> GitHub.STATE_KEY in storage.items
      ensures clientId != "" ==> (popupUrl.Some? <==> digest(GitHub.CodeVerifier(verifierRandom)).Ok?)
      ensures clientId != "" && popupUrl.None? ==> storage.items == old(storage.items)[GitHub.STATE_KEY := storage.items[GitHub.STATE_KEY]]
      ensures popupUrl.Some? ==> (
        && GitHub.VERIFIER_KEY in storage.items && |popupUrl.value.params| == 6
        && popupUrl.value.params[3] == ("state", storage.items[GitHub.STATE_KEY]))
      ensures if popupUrl.Some? && popupOpened
        then listeners == old(listeners) + [Listener(GitHub, promise)] && settled == old(settled)
        else listeners == old(listeners) && settled == old(settled)[promise := false]
      ensures program == old(program) && wallet == old(wallet)
      ensures rawSignals == old(rawSignals) && bucketedSignals == old(bucketedSignals)
    {
      promise := nextPromise;
      nextPromise := nextPromise + 1;
      if clientId == "" {
        settled := settled[promise := false];
        return promise, None;
      }
      var authUrl := GitHub.GetGitHubAuthUrl(storage, clientId, origin, stateRandom, verifierRandom, digest);
      if authUrl.Err? {
        settled := settled[promise := false];
        return promise, None;
      }
      popupUrl := Some(authUrl.value);
      if !popupOpened {
        settled := settled[promise := false];
        return;
      }
      listeners := listeners + [Listener(GitHub, promise)];
    }

    /**
     * The window dispatching a `message` event to the handlers registered
     * when it arrives, in registration order. A handler that reacts removes
     * itself and settles its promise; a success also records the message's
     * fields and rebuckets the raw signals. Settled promises never change.
     */
    method DispatchMessage(e: MessageEvent, now: int)
      requires Valid()
      modifies this
      ensures Valid()
      ensures listeners == Pending(old(listeners), e, origin)
      ensures settled == Settle(old(settled), old(listeners), e, origin)
      ensures forall p :: p in old(settled) ==> p in settled && settled[p] == old(settled)[p]
      ensures rawSignals == if AnySuccess(old(listeners), e, origin) then ApplyMessage(old(rawSignals), e.data) else old(rawSignals)
      ensures bucketedSignals == if AnySuccess(old(listeners), e, origin) then BucketSignals(rawSignals, now) else old(bucketedSignals)
      ensures program == old(program) && wallet == old(wallet) && nextPromise == old(nextPromise)
    {
      var handlers := listeners;
      var pending, outcomes, raw, buckets := Deliver(handlers, settled, rawSignals, bucketedSignals, e, origin, now);
      listeners, settled, rawSignals, bucketedSignals := pending, outcomes, raw, buckets;
      DispatchKeepsPromises(handlers, old(settled), nextPromise, e, origin);
    }

    /**
     * `getMXEPublicKeyWithRetry`: attempt `n` (from 1) fetches `fetch(n)`; a
     * missing key counts as a failed attempt. Every failed attempt but the
     * last is followed by a pause; the last failure names the attempt count.
     * With no attempts at all the generic failure is thrown.
     */
    method GetMxePublicKeyWithRetry(fetch: nat -> Option<seq<Byte>>, maxRetries: nat)
      returns (r: Result<seq<Byte>>, attempts: nat, sleeps: nat)
      ensures program.None? ==> r == Err(PROGRAM_NOT_SET) && attempts == 0 && sleeps == 0
      ensures program.Some? && FirstSome(fetch, 1, maxRetries + 1).Some? ==>
        var k := FirstSome(fetch, 1, maxRetries + 1).value;
        r == Ok(fetch(k).value) && attempts == k && sleeps == k - 1
      ensures program.Some? && FirstSome(fetch, 1, maxRetries + 1).None? ==>
        && attempts == maxRetries
        && (maxRetries == 0 ==> r == Err(MXE_KEY_UNAVAILABLE) && sleeps == 0)
        && (maxRetries > 0 ==> r == Err(MxeKeyFailure(maxRetries)) && sleeps == maxRetries - 1)
    {
      if program.None? {
        return Err(PROGRAM_NOT_SET), 0, 0;
      }
      attempts, sleeps := 0, 0;
      var attempt := 1;
      while attempt <= maxRetries
        invariant 1 <= attempt <= maxRetries + 1
        invariant maxRetries > 0 ==> attempt <= maxRetries
        invariant FirstSome(fetch, 1, maxRetries + 1) == FirstSome(fetch, attempt, maxRetries + 1)
        invariant attempts == attempt - 1 && sleeps == attempts
      {
        attempts := attempt;
        var key := fetch(attempt);
        if key.Some? {
          return Ok(key.value), attempts, sleeps;
        }
        if attempt < maxRetries {
          sleeps := sleeps + 1;
        } else {
          return Err(MxeKeyFailure(maxRetries)), attempts, sleeps;
        }
        attempt := attempt + 1;
      }
      r := Err(MXE_KEY_UNAVAILABLE);
    }

    /**
     * `pollProofAccount`: each round pauses, then fetches the proof account
     * (`fetch(i)` in round `i`, from 0); a failed fetch is swallowed. Without
     * a program every round's fetch throws and is swallowed too.
     */
    method PollProofAccount(ruleId: string, fetch: nat -> Option<ProofAccountData>, maxAttempts: nat)
      returns (r: Result<ProofOutput>, rounds: nat, sleeps: nat)
      ensures sleeps == rounds <= maxAttempts
      ensures program.None? ==> r == Err(POLL_EXHAUSTED) && rounds == maxAttempts
      ensures program.Some? && FirstSome(fetch, 0, maxAttempts).Some? ==>
        var k := FirstSome(fetch, 0, maxAttempts).value;
        r == Ok(PolledOutput(fetch(k).value, ruleId)) && rounds == k + 1
      ensures program.Some? && FirstSome(fetch, 0, maxAttempts).None? ==>
        r == Err(POLL_EXHAUSTED) && rounds == maxAttempts
    {
      rounds, sleeps := 0, 0;
      var i := 0;
      while i < maxAttempts
        invariant 0 <= i <= maxAttempts
        invariant program.Some? ==> FirstSome(fetch, 0, maxAttempts) == FirstSome(fetch, i, maxAttempts)
        invariant rounds == i && sleeps == i
      {
        sleeps := sleeps + 1;
        rounds := rounds + 1;
        var account := if program.Some? then fetch(i) else None;
        if account.Some? {
          return Ok(PolledOutput(account.value, ruleId)), rounds, sleeps;
        }
        i := i + 1;
      }
      r := Err(POLL_EXHAUSTED);
    }

    /**
     * `generateProof`: checks the program, the wallet and the five buckets;
     * fetches the MXE key; encrypts the buckets in `signalsToArray` order;
     * derives the proof account from the rule, the wallet and the epoch;
     * submits; waits for finalization; then takes the result of whichever of
     * the event and the poll settled first, with the proof account added.
     * `submitted` is the `requestProof` transaction, when one was sent.
     */
    method GenerateProof(request: ProofRequest, env: ProofEnv) returns (r: Result<ProofOutput>, submitted: Option<ProofSubmission>)
      ensures program.None? ==> r == Err(PROGRAM_NOT_SET_CALL) && submitted.None?
      ensures program.Some? && wallet.None? ==> r == Err(WALLET_NOT_SET_CALL) && submitted.None?
      ensures program.Some? && wallet.Some? && !HasAllSignals() ==> r == Err(SIGNALS_MISSING) && submitted.None?
      ensures program.Some? && wallet.Some? && HasAllSignals() && FirstSome(env.mxeKeys, 1, MXE_MAX_RETRIES + 1).None? ==>
        r == Err(MxeKeyFailure(MXE_MAX_RETRIES)) && submitted.None?
      ensures program.Some? && wallet.Some? && HasAllSignals() && FirstSome(env.mxeKeys, 1, MXE_MAX_RETRIES + 1).Some? ==>
        (submitted.Some? <==> request.epoch < SAFE_NUMBER_BOUND)
      ensures (program.Some? && wallet.Some? && HasAllSignals() && FirstSome(env.mxeKeys, 1, MXE_MAX_RETRIES + 1).Some?
               && request.epoch >= SAFE_NUMBER_BOUND) ==> r == Err(BN_ASSERTION_FAILED)
      ensures r.Ok? ==> submitted.Some? && r.value.proofPda == Some(submitted.value.proofAccount)
      ensures submitted.Some? ==> (
        && program.Some? && wallet.Some? && HasAllSignals()
        && FirstSome(env.mxeKeys, 1, MXE_MAX_RETRIES + 1).Some?
        && var s := submitted.value;
        && s.ciphertexts == RescueEncrypted(env.sessionSecret, env.mxeKeys(FirstSome(env.mxeKeys, 1, MXE_MAX_RETRIES + 1).value).value,
                                            env.nonce, SignalsToArray(Complete(bucketedSignals)))
        && s.publicKey == X25519Public(env.sessionSecret)
        && s.nonce == FromLe(env.nonce)
        && s.computationOffset == env.computationOffset
        && s.epoch == request.epoch
        && s.payer == wallet.value
        && s.ruleAccount == request.rulePda
        && Developer.AnonnDeveloper(program.value, wallet.value).GetProofPda(request.rulePda, wallet.value, request.epoch) == Ok(s.proofAccount))
      ensures submitted.Some? && env.submitError.Some? ==> r == Err(env.submitError.value)
      ensures submitted.Some? && env.submitError.None? && env.finalizeError.Some? ==> r == Err(env.finalizeError.value)
      ensures submitted.Some? && env.submitError.None? && env.finalizeError.None? ==>
        var pda := Some(submitted.value.proofAccount);
        match env.race
        case EventFirst(ev) => r == Ok(EventOutput(ev).(proofPda := pda))
        case PollFirst =>
          match FirstSome(env.polls, 0, POLL_MAX_ATTEMPTS)
          case Some(k) => r == Ok(PolledOutput(env.polls(k).value, request.ruleId).(proofPda := pda))
          case None => r == Err(POLL_EXHAUSTED)
    {
      if program.None? {
        return Err(PROGRAM_NOT_SET_CALL), None;
      }
      if wallet.None? {
        return Err(WALLET_NOT_SET_CALL), None;
      }
      if !HasAllSignals() {
        return Err(SIGNALS_MISSING), None;
      }
      var signals := Complete(bucketedSignals);
      var mxeKey, _, _ := GetMxePublicKeyWithRetry(env.mxeKeys, MXE_MAX_RETRIES);
      if mxeKey.Err? {
        return Err(mxeKey.error), None;
      }
      var publicKey := X25519Public(env.sessionSecret);
      var ciphertexts := RescueEncrypted(env.sessionSecret, mxeKey.value, env.nonce, SignalsToArray(signals));
      var epochBytes := EpochSeed(request.epoch);
      if epochBytes.Err? {
        return Err(epochBytes.error), None;
      }
      var seeds := [Text("proof"), KeyBytes(request.rulePda), KeyBytes(wallet.value), Bytes(epochBytes.value)];
      assert SeedLength(seeds[0]) <= MAX_SEED_LENGTH;
      // every seed fits, so the derivation does not throw here
      var proofPda := FindProgramAddress(program.value, seeds).value;
      var submission := ProofSubmission(env.computationOffset, ciphertexts, publicKey, FromLe(env.nonce), request.epoch,
                                        wallet.value, request.rulePda, proofPda);
      submitted := Some(submission);
      if env.submitError.Some? {
        return Err(env.submitError.value), submitted;
      }
      if env.finalizeError.Some? {
        return Err(env.finalizeError.value), submitted;
      }
      match env.race {
        case EventFirst(ev) =>
          r := Ok(EventOutput(ev).(proofPda := Some(proofPda)));
        case PollFirst =>
          var polled, _, _ := PollProofAccount(request.ruleId, env.polls, POLL_MAX_ATTEMPTS);
          r := if polled.Ok? then Ok(polled.value.(proofPda := Some(proofPda))) else Err(polled.error);
      }
    }
  }
}

=== FILE: verify_page.dfy ===
/** The epoch number the verification page asks a proof for. */
module VerifyPage {
  import opened Wrappers

  const DEFAULT_EPOCH_SECONDS: nat := 86400

  /**
   * `PROOF_EPOCH_OVERRIDE ?? Math.floor(Date.now() / 1000 / PROOF_EPOCH_SECONDS)`;
   * for a positive period, flooring the two divisions equals one integer division.
   */
  function CurrentEpoch(nowMs: nat, periodSecs: nat, override: Option<nat>): (e: nat)
    requires periodSecs > 0
    ensures override.None? ==> e * (1000 * periodSecs) <= nowMs < (e + 1) * (1000 * periodSecs)
    ensures override.Some? ==> e == override.value
  {
    match override
    case Some(v) => v
    case None => nowMs / (1000 * periodSecs)
  }

  /** Without an override, later clocks never give an earlier epoch. */
  lemma CurrentEpochMonotone(t1: nat, t2: nat, periodSecs: nat)
    requires periodSecs > 0 && t1 <= t2
    ensures CurrentEpoch(t1, periodSecs, None) <= CurrentEpoch(t2, periodSecs, None)
  {
    var m := 1000 * periodSecs;
    var e1 := CurrentEpoch(t1, periodSecs, None);
    var e2 := CurrentEpoch(t2, periodSecs, None);
    if e2 < e1 {
      MulMonotone(e2 + 1, e1, m);
      assert false;
    }
  }

  lemma MulMonotone(a: nat, b: nat, m: nat)
    requires a <= b
    ensures a * m <= b * m
  {
    assert b * m == a * m + (b - a) * m;
  }
}

=== FILE: web.dfy ===
/**
 * The browser facilities the OAuth flow relies on: `localStorage`, HTTP
 * responses as the flow reads them, the requests it sends, and the messages
 * the callback window posts to its opener.
 */
module Web {
  import opened Wrappers

  /** `window.localStorage`: a string-to-string dictionary that outlives the page. */
  class LocalStorage {
    var items: map<string, string>

    constructor(initial: map<string, string>)
      ensures items == initial
    {
      items := initial;
    }

    /** `getItem`: `null` for an absent key. */
    function GetItem(key: string): (r: Option<string>)
      reads this
      ensures r.Some? <==> key in items
      ensures r.Some? ==> r.value == items[key]
    {
      if key in items then Some(items[key]) else None
    }

    method SetItem(key: string, value: string)
      modifies this
      ensures items == old(items)[key := value]
    {
      items := items[key := value];
    }

    method RemoveItem(key: string)
      modifies this
      ensures items == old(items) - {key}
    {
      items := items - {key};
    }
  }

  /**
   * A fetched response: `ok`, `statusText`, and the body `response.json()`
   * yields, `None` when the body is not JSON (the promise rejects).
   */
  datatype HttpResponse<T> = HttpResponse(ok: bool, statusText: string, json: Option<T>)

  /** The message of the `SyntaxError` `response.json()` rejects with on a body that is not JSON. */
  const INVALID_JSON: string := "Unexpected token in JSON"
  /** The message of the `RangeError` `toISOString()` throws on an invalid date. */
  const INVALID_DATE: string := "Invalid time value"
  /** The message of the `TypeError` from reading `created_at` of a missing `data` object. */
  const MISSING_DATA: string := "Cannot read properties of undefined (reading 'created_at')"

  /**
   * A request sent to the backend. Keys whose value is `undefined` are
   * dropped by `JSON.stringify`, so body fields are optional.
   */
  datatype Request =
    | TokenExchange(url: string, code: Option<string>, redirectUri: Option<string>, codeVerifier: Option<string>)
    | ProfileFetch(url: string, bearer: Option<string>)

  /** What an exchange with the backend did: the request it sent, if any, and its result. */
  datatype Outcome<T> = Outcome(sent: Option<Request>, result: Result<T>)

  /** `e || fallback` for an optional string: `undefined` and `""` fall back. */
  function Or(e: Option<string>, fallback: string): (r: string)
    ensures r == fallback || (e.Some? && r == e.value != "")
    ensures e.Some? && e.value != "" ==> r == e.value
  {
    if e.Some? && e.value != "" then e.value else fallback
  }

  /** The JSON body of a token endpoint: the token on success, an error text otherwise. */
  datatype TokenBody = TokenBody(accessToken: Option<string>, error: Option<string>)

  /** An authorization URL: the endpoint and its query parameters in order (before percent-encoding). */
  datatype AuthUrl = AuthUrl(endpoint: string, params: seq<(string, string)>)

  datatype Provider = Twitter | GitHub

  /**
   * `event.data` of a message the callback window posts: the two success
   * messages (with the account creation time in milliseconds), the error
   * message, or anything else a page may post.
   */
  datatype MessageData =
    | TwitterSuccess(createdAt: int)
    | GitHubSuccess(createdAt: int, publicRepos: int)
    | OAuthError(error: string)
    | Unrelated

  datatype MessageEvent = MessageEvent(origin: string, data: MessageData)

  /** `${origin}/oauth/callback/<provider>`: where the provider sends the browser back. */
  function CallbackUri(origin: string, provider: Provider): string {
    origin + "/oauth/callback" + (if provider == Twitter then "/twitter" else "/github")
  }
}

=== FILE: wrappers.dfy ===
/** Failure-carrying values shared by every module of the model. */
module Wrappers {

  /** A value that may be absent: TypeScript's `T | undefined` (and `T | null`). */
  datatype Option<+T> = None | Some(value: T) {
    /** The `??` operator: the value when present, otherwise the default. */
    function GetOr(default: T): T {
      if Some? then value else default
    }
  }

  /** The outcome of a call that may throw: the value, or the thrown error's message. */
  datatype Result<+T> = Ok(value: T) | Err(error: string)
}
